=== FILE: README.md ===
# Babel RPC runtime (Java library) — a Dafny model

Babel is a remote-procedure-call runtime. A client calls a service method through a
transport: HTTP (`HttpTransport`) or a plain socket (`SocketTransport`). The call is
serialised by a `Protocol`. On the server, a `ServerTransport` yields the service
name, the method name and the body. `ServiceRequestDispatcher` routes the call to
the service's `BaseInvoker`. An `ExceptionBuilder` turns whatever the service throws
into a `BabelException` whose `ServiceError` goes back to the client:

- status 500 for an unexpected error;
- status 409 for an application error (`BabelApplicationException`).

The client retries transient I/O failures, and turns a 500 or 409 back into the
matching exception.

This project models that core as pure functions over immutable datatypes. Seven
operations keep the loop the source uses, each checked against a loop-free reference:

- argument validation;
- `getMessage`;
- the client's retry engine;
- the dispatcher's superclass walk;
- adding the request context;
- reading the server's request body;
- writing the socket client's header lines.

- **Java exceptions** are `Throwables.Thrown` values. A value carries its *lineage*:
  the class, then each superclass up to `java.lang.Object`. `instanceof` and the
  dispatcher's superclass walk are both read off the lineage.
- **Nulls** are `Option`s wherever the code tests for them or can dereference them.
- **Outside code** is a parameter:
  - the serialisation protocol (`Protocols.Protocol`: a writer and three readers);
  - what a service implementation does (`run`);
  - custom exception builders (`custom`);
  - the network (an `Exchange` per attempt, or an attempt oracle);
  - the clock and stack dump (`Babel.Capture`);
  - URL parsing and percent-encoding.
- **`HashMap` iteration** is an explicit sequence of the map's keys
  (`Text.KeySetOrder` / `Text.Enumerates`). Every result that depends on the map is
  proved for *every* such order.
- **Handler notifications** are returned as event lists. Server call handlers get
  `Dispatch.ServerEvent`; client response handlers get `ClientTransport.ClientEvent`.

Modules and files:

| file | module | Java source it models |
|---|---|---|
| wrappers.dfy | Wrappers | `Option`/`Result`/`Outcome` helpers |
| text.dfy | Text | `StringTokenizer`, `String.split`, `readLine`, `Integer.parseInt`/`toString`, `equalsIgnoreCase`, `Boolean.parseBoolean`, null printing |
| arg_validator.dfy | ArgValidator | `ArgValidator` |
| errors.dfy | Errors | `Error`, `ServiceError` |
| throwables.dfy | Throwables | the JDK exception classes the runtime meets |
| babel.dfy | Babel | `BabelException`, `BabelApplicationException` |
| protocol.dfy | Protocols | `Protocol`, service-method descriptors |
| server_base.dfy | ServerBase | `BabelServerTransport` |
| socket_server.dfy | SocketServer | `SocketServerTransport` |
| http_server.dfy | HttpServer | `HttpServerTransport` |
| server_transport.dfy | ServerTransports | the `ServerTransport` interface over both implementations |
| invoker.dfy | Invokers | `BaseInvoker` |
| exception_builder.dfy | ExceptionBuilders | `GenericExceptionBuilder`, `ExceptionBuilder` |
| dispatcher.dfy | Dispatch | `ServiceRequestDispatcher` |
| base_transport.dfy | ClientTransport | `BaseTransport` and its `ServiceCallManager` and `Retry` |
| socket_client.dfy | SocketClient | `SocketTransport` |
| http_client.dfy | HttpClient | `HttpTransport` |
| scenarios.dfy | Scenarios | worked cases from the library's unit tests |

Round trips proved across the wire:

- **Socket request** (`SocketClient.RequestFrameRoundTrip`): the frame the client
  writes is read by `SocketServerTransport`. The server gets back exactly the header
  map, the service and method names, and the call. This holds under the conditions listed
  under "Socket routing" in "## Left out".
- **Socket reply** (`SocketClient.ReplyRoundTrip`): the server's reply gives the
  client the status and body.
- **HTTP routing** (`HttpClient.UrlRoundTrip`): the server's path parse of the
  client's URL gives back the service and method.
- **HTTP reply** (`HttpClient.ReplyRoundTrip`): the HTTP reply likewise gives the
  client the status and body.

The retry engine is characterised completely. `ClientTransport.CallService` states:

- the bound on attempts;
- that every attempt before the last was retryable;
- the result, and the exact sequence of handler notifications, for each outcome of
  the last attempt.

Where the code and its documentation disagree, the model follows the code:

- **Exception-builder lookup.** The superclass walk in `findExceptionBuilder`
  (`ServiceRequestDispatcher.java:234-243`) is guarded by
  `parentClass != Object.class || parentClass != Throwable.class`. That guard is
  always true, so the walk also consults `Throwable` and `Object`, although the
  guard looks meant to stop below `Throwable`. `Dispatch.FindExceptionBuilder`
  follows the code and includes them. `Dispatch.ThrowableBuilderCatchesAll` proves the consequence: a
  builder registered for `Throwable` catches every exception that no nearer class
  has a builder for.
- **Null error stream.** `HttpTransport.callEndPoint` reads `conn.getErrorStream()`
  without a null check. A null error stream therefore raises a
  `NullPointerException` (`HttpClient.CallEndPoint`), not an empty body.

## Model

| member | source | states |
|---|---|---|
| ArgValidator.NotNull | core/src/main/java/com/concur/babel/ArgValidator.java:15-28 | fails exactly when the argument is null, with an `IllegalArgumentException` naming the parameter |
| ArgValidator.NonNull | core/src/main/java/com/concur/babel/ArgValidator.java:15-28 | a null argument fails with the `IllegalArgumentException` naming the parameter; a non-null one is passed on unchanged |
| ArgValidator.NotNullAll | core/src/main/java/com/concur/babel/ArgValidator.java:30-50 | mismatched lengths fail before any element is looked at; otherwise fails exactly when some element is null, naming the first null one |
| ArgValidator.FirstNullAt | core/src/main/java/com/concur/babel/ArgValidator.java:43-48 | the reported element is the first null one in order |
| ArgValidator.PreCondition | core/src/main/java/com/concur/babel/ArgValidator.java:52-64 | fails with the given message exactly when the expression is false |
| Errors.DefaultError | core/src/main/gen-java/com/concur/babel/Error.java:40-42 | a default entry has null code and message and an empty, non-null parameter list |
| Errors.SetCode | core/src/main/gen-java/com/concur/babel/Error.java:55-58 | sets the code and leaves message and params unchanged |
| Errors.SetMessage | core/src/main/gen-java/com/concur/babel/Error.java:60-63 | sets the message and leaves code and params unchanged |
| Errors.SetParams | core/src/main/gen-java/com/concur/babel/Error.java:65-68 | sets the params and leaves code and message unchanged |
| Errors.SettersBuildConstructedError | core/src/main/gen-java/com/concur/babel/Error.java:44-68 | setting the three fields of a default entry, in either order, yields the three-argument constructor's entry |
| Errors.ErrorToStringParses | core/src/main/gen-java/com/concur/babel/Error.java:70-79 | for every entry whose code and message contain no ',', the rendering reads back as "Error(code:<c>, message:<m>, params:<p>)" with the code and message as Java prints a possibly-null string and the params as `List.toString` |
| Errors.ErrorToStringInjective | core/src/main/gen-java/com/concur/babel/Error.java:70-79 | two such entries render alike only when their code, message and parameter texts are alike |
| Errors.DefaultErrorToString | core/src/main/gen-java/com/concur/babel/Error.java:70-79 | a default entry renders as "Error(code:null, message:null, params:[])" |
| Errors.PopulatedErrorToString | core/src/main/gen-java/com/concur/babel/Error.java:70-79 | a populated entry renders its code, message and bracketed comma-separated params |
| Babel.BabelLineageOf | core/src/main/java/com/concur/babel/exception/BabelApplicationException.java:13 | every Babel exception is a `RuntimeException`; the application subclass is in the lineage exactly for application errors |
| Babel.AddError | core/src/main/java/com/concur/babel/exception/BabelException.java:176-186 | appends exactly one entry after the existing ones, creating the list when absent; NPE on a null service error, `UnsupportedOperationException` on the fixed-size list of the `Error...` constructors; nothing else changes |
| Babel.AddErrorKeepsEarlierErrors | core/src/main/java/com/concur/babel/exception/BabelException.java:176-186 | the earlier entries are kept as a prefix and the new entry is last |
| Babel.NewBabel | core/src/main/java/com/concur/babel/exception/BabelException.java:24-57 | the message/code/params constructors throw an NPE exactly when some exception of the cause chain is a Babel exception whose message cannot be rendered (`super(cause)` calls the cause's `toString`, and the stack dump prints every cause); otherwise they give exactly one entry with those values, an empty tag list, the capture time and stack dump, no context and no inner error, and the given cause |
| Babel.CauseDetail | core/src/main/java/com/concur/babel/exception/BabelException.java:78-97 | the detail `super(cause)` stores is the cause's `toString`, which starts with its class name; it throws an NPE exactly when the cause's message does |
| Babel.StackDump | core/src/main/java/com/concur/babel/exception/BabelException.java:188-192 | printing the new exception's stack trace throws an NPE exactly when some exception down the cause chain cannot be rendered (`ChainRenders` fails) |
| Babel.DeeperCauseThrows | core/src/main/java/com/concur/babel/exception/BabelException.java:188-199 | a `RuntimeException` with a renderable message whose own cause is a Babel exception with a null service error still makes the constructors throw |
| Babel.FromErrors | core/src/main/java/com/concur/babel/exception/BabelException.java:59-71 | the `Error...` constructors throw an NPE exactly when some exception of the cause chain cannot be rendered; otherwise they store the entries verbatim and in order (possibly none), leave tags unset, and the message renders those entries in order |
| Babel.FromServiceError | core/src/main/java/com/concur/babel/exception/BabelException.java:158-160 | the `ServiceError` constructor adopts the given error object unchanged |
| Babel.ApplicationShapeMatchesFramework | core/src/main/java/com/concur/babel/exception/BabelApplicationException.java:15-45 | the application and framework constructors fail for the same arguments, and otherwise give the same service error, only the application one being an application exception |
| Babel.GetMessage | core/src/main/java/com/concur/babel/exception/BabelException.java:78-97 | the loop renders each entry as "ErrorCode: c - m" (or "m" with a null code), joined by single newlines with none trailing; NPE on a null list |
| Babel.MessageOfNewBabel | core/src/main/java/com/concur/babel/exception/BabelException.java:78-97 | the message of a freshly constructed Babel exception is its one entry rendered ("ErrorCode: c - m"), and the application and framework classes give the same message |
| Babel.Wrap | core/src/main/java/com/concur/babel/transport/BaseTransport.java:290-292 | `new RuntimeException(e)` is a non-Babel `RuntimeException` whose cause is `e` and whose message is `e.toString()` |
| Babel.AddContext | core/src/main/java/com/concur/babel/exception/BabelException.java:145-151 | creates the context when absent and sets exactly the key `name`; every other key is unchanged; NPE on a null service error |
| Babel.AddContextValue | core/src/main/java/com/concur/babel/exception/BabelException.java:110-113 | stores `{"value": v}` under the name |
| Babel.AddContextEntry | core/src/main/java/com/concur/babel/exception/BabelException.java:127-132 | stores the one-entry map `{subName: v}` under the name |
| Babel.AddContextOverwrites | core/src/main/java/com/concur/babel/exception/BabelException.java:145-151 | a second call under the same name keeps only the second map, so repeating a call is idempotent |
| Babel.AddContextCommutes | core/src/main/java/com/concur/babel/exception/BabelException.java:145-151 | calls under different names commute |
| Babel.SetInnerServiceError | core/src/main/java/com/concur/babel/exception/BabelException.java:162-164 | changes only the inner error |
| ExceptionBuilders.NewGenericExceptionBuilder | core/src/main/java/com/concur/babel/exception/builder/GenericExceptionBuilder.java:70-82 | fails exactly when the error code is null; otherwise stores the four settings |
| ExceptionBuilders.CreateBabelException | core/src/main/java/com/concur/babel/exception/builder/GenericExceptionBuilder.java:101-112 | fails with an NPE exactly when the thrown exception or one of its causes cannot be rendered, whether or not a message is configured (the new exception's stack dump prints the whole chain either way); otherwise the configured message if non-null, else the thrown exception's message, an application or framework exception per the flag, with the thrown exception as cause |
| ExceptionBuilders.PutContextIsWithRequestContext | core/src/main/java/com/concur/babel/exception/builder/GenericExceptionBuilder.java:114-124 | adding the request-context entries one at a time, in any order, gives the reference map with `k -> {"value": v}` for each entry |
| ExceptionBuilders.AddContextValueEffect | core/src/main/java/com/concur/babel/exception/BabelException.java:110-113 | one `addContext(name, value)` changes only the context, by that one entry |
| ExceptionBuilders.AddExceptionContext | core/src/main/java/com/concur/babel/exception/builder/GenericExceptionBuilder.java:114-124 | the loop leaves the context absent for an empty request context and otherwise yields the reference map, whatever the key order |
| ExceptionBuilders.AddTags | core/src/main/java/com/concur/babel/exception/builder/GenericExceptionBuilder.java:126-136 | configured tags are appended to the exception's tag list; no tags leaves it unchanged |
| ExceptionBuilders.BuildGeneric | core/src/main/java/com/concur/babel/exception/builder/GenericExceptionBuilder.java:84-99 | the result equals the loop-free reference `GenericBuilt` whatever the context's key order; it fails with an NPE exactly when the thrown exception or one of its causes cannot be rendered; otherwise the built exception has one entry with the builder's code and the chosen message, the configured tags (or none), the request context, the flag's subtype and the thrown exception as cause |
| ExceptionBuilders.BuildException | core/src/main/java/com/concur/babel/exception/builder/GenericExceptionBuilder.java:84-99 | a custom builder's result, null included, is passed through; the generic builder's is `GenericBuilt`'s: it fails exactly when the thrown exception or one of its causes cannot be rendered, and is otherwise never null, with one entry carrying its code and the flag's subtype |
| Invokers.NewInvoker | core/src/main/java/com/concur/babel/processor/BaseInvoker.java:32-36 | rejects a null implementation; the method table is the one built at construction |
| Invokers.LookupDescriptor | core/src/main/java/com/concur/babel/processor/BaseInvoker.java:69-87 | the first table key equal to the method name ignoring case; none when no key matches or the name is null |
| Invokers.LookupMatchesAnyKey | core/src/main/java/com/concur/babel/processor/BaseInvoker.java:73-78 | with case-distinct keys the lookup finds the matching descriptor whatever the enumeration order |
| Invokers.FindImplementation | core/src/main/java/com/concur/babel/processor/BaseInvoker.java:89-114 | the first public method whose name matches ignoring case and whose arity equals the call's parameter count |
| Invokers.Invoke | core/src/main/java/com/concur/babel/processor/BaseInvoker.java:40-114 | a method-name failure or an unknown method ("Unable to find babel processor…") fails before the body is read; a read failure propagates unchanged; no implementation method of that name and arity fails with "Unable to find service method…"; otherwise the first matching method runs, its exception propagates unwrapped with nothing written, and its result is written with SUCCESS (no payload for null) |
| Invokers.InvokeReadsMatchingDescriptor | core/src/main/java/com/concur/babel/processor/BaseInvoker.java:69-87 | with case-distinct table keys the call is decoded as the descriptor of the key matching the method name ignoring case, whatever the table's enumeration order |
| Dispatch.Register | core/src/main/java/com/concur/babel/processor/ServiceRequestDispatcher.java:63-70 | rejects null; keys the invoker by the lower-cased service name and by interface, replacing an earlier entry under the same key |
| Dispatch.RegisteredServiceResolves | core/src/main/java/com/concur/babel/processor/ServiceRequestDispatcher.java:63-70 | a registered service is found under every spelling of its name that differs only in case |
| Dispatch.GetService | core/src/main/java/com/concur/babel/processor/ServiceRequestDispatcher.java:82-88 | the implementation registered for the interface, or null |
| Dispatch.SetDefaultExceptionBuilder | core/src/main/java/com/concur/babel/processor/ServiceRequestDispatcher.java:166-171 | rejects null; replaces only the default builder |
| Dispatch.RegisterExceptionBuilder | core/src/main/java/com/concur/babel/processor/ServiceRequestDispatcher.java:183-191 | class, then builder, must be non-null; maps the class to the builder |
| Dispatch.SetFilterStackTraces | core/src/main/java/com/concur/babel/processor/ServiceRequestDispatcher.java:54-56 | sets only the filter flag |
| Dispatch.AddCallHandler | core/src/main/java/com/concur/babel/processor/ServiceRequestDispatcher.java:220-224 | appends the handler and changes nothing else |
| Dispatch.FindExceptionBuilder | core/src/main/java/com/concur/babel/processor/ServiceRequestDispatcher.java:226-247 | the builder of the nearest registered class in the lineage, the class itself first and the roots included; the default when none is registered |
| Dispatch.ExactClassWins | core/src/main/java/com/concur/babel/processor/ServiceRequestDispatcher.java:228-230 | a builder registered for the exception's own class is always chosen |
| Dispatch.ThrowableBuilderCatchesAll | core/src/main/java/com/concur/babel/processor/ServiceRequestDispatcher.java:232-245 | a builder registered for `Throwable` is chosen for every exception no nearer class has a builder for |
| Dispatch.Filtered | core/src/main/java/com/concur/babel/processor/ServiceRequestDispatcher.java:265-270 | the outer and inner stack dumps become null; everything else, including the inner error's presence, is kept |
| Dispatch.SendErrorResponse | core/src/main/java/com/concur/babel/processor/ServiceRequestDispatcher.java:249-288 | equals the loop-free reference `ErrorResponseOf`; builds with the builder `BuilderFor` picks (a generic builder fails exactly when the exception or one of its causes cannot be rendered); writes the built exception's service error (with the outer and inner stack dumps removed when filtering) with 409 exactly for an application exception and 500 otherwise, then tells every handler in order with the written status; a failed build, a null built exception, or a null service error under filtering writes nothing and tells no one |
| Dispatch.DispatchCall | core/src/main/java/com/concur/babel/processor/ServiceRequestDispatcher.java:114-154 | when the invoker passes: true, its transport, every handler told of success; when it (or `getServiceName`) throws an `Exception`: the result is exactly what `sendErrorResponse` (`ErrorResponseOf`) gives for that exception at that transport, false when it completes and its failure otherwise; a null or unknown service name is handled the same way with an NPE or "Unable to find service with name"; any other throwable escapes wrapped in a `RuntimeException` with nothing written and no handler told |
| Dispatch.HandleThrown | core/src/main/java/com/concur/babel/processor/ServiceRequestDispatcher.java:139-150 | an `Exception` gets exactly `sendErrorResponse`'s result and the call reports false (with a non-200 status and every handler told of the failure) or that response's failure escapes with nothing told; any other throwable escapes wrapped in a `RuntimeException`; the result is never true |
| ServerBase.CodeValue | core/src/main/java/com/concur/babel/transport/server/BabelServerTransport.java:20-34 | the three codes have the values 200, 500 and 409 |
| ServerBase.CodeValueRoundTrip | core/src/main/java/com/concur/babel/transport/server/BabelServerTransport.java:20-34 | a status value determines its code |
| ServerBase.CodeValuesDistinct | core/src/main/java/com/concur/babel/transport/server/BabelServerTransport.java:20-34 | the code values are pairwise distinct |
| ServerBase.RequireProtocol | core/src/main/java/com/concur/babel/transport/server/BabelServerTransport.java:38-43 | the protocol must be non-null |
| ServerBase.ReaderToString | core/src/main/java/com/concur/babel/transport/server/BabelServerTransport.java:53-72 | the line-by-line read yields the input with every line terminator removed |
| SocketServer.NewSocketServerTransport | core/src/main/java/com/concur/babel/transport/server/SocketServerTransport.java:34-45 | protocol, then socket, must be non-null; nothing is read yet |
| SocketServer.PutHeaders | core/src/main/java/com/concur/babel/transport/server/SocketServerTransport.java:187-193 | each token split on '=' stores `pair[0] -> pair[1]`; stored keys are never lost |
| SocketServer.PutHeadersAppend | core/src/main/java/com/concur/babel/transport/server/SocketServerTransport.java:189-193 | the header loop over two runs of tokens is the loop over the second run started from the first's result |
| SocketServer.LaterDuplicateWins | core/src/main/java/com/concur/babel/transport/server/SocketServerTransport.java:191-192 | a later token for the same key overwrites the earlier value |
| SocketServer.ExtraPartsDropped | core/src/main/java/com/concur/babel/transport/server/SocketServerTransport.java:191-192 | in "k=v=w" the part after the second '=' is dropped |
| SocketServer.MissingValueFails | core/src/main/java/com/concur/babel/transport/server/SocketServerTransport.java:191-192 | a token "k=" fails with an index-out-of-bounds on `pair[1]` |
| SocketServer.SetHeaders | core/src/main/java/com/concur/babel/transport/server/SocketServerTransport.java:187-199 | tokenises on '\|', stores the pairs, and sets debugging to `parseBoolean` of BABEL_DEBUG only when that header is present; NPE on a null line |
| SocketServer.SetRouting | core/src/main/java/com/concur/babel/transport/server/SocketServerTransport.java:175-185 | the first non-empty '\|'-token is the service and the second the method; extra tokens are ignored and a missing one leaves the name null |
| SocketServer.ReadStream | core/src/main/java/com/concur/babel/transport/server/SocketServerTransport.java:149-173 | reads header, routing and body lines, marks the stream read, then parses headers and routing |
| SocketServer.EnsureRead | core/src/main/java/com/concur/babel/transport/server/SocketServerTransport.java:120-127 | reads the stream on first access only |
| SocketServer.EnsureReadOnce | core/src/main/java/com/concur/babel/transport/server/SocketServerTransport.java:120-136 | after the first access later accesses change nothing and never fail |
| SocketServer.GetServiceName | core/src/main/java/com/concur/babel/transport/server/SocketServerTransport.java:120-127 | reads the stream only if it was not read yet; afterwards the stream is marked read and a further read changes nothing and cannot fail |
| SocketServer.GetMethodName | core/src/main/java/com/concur/babel/transport/server/SocketServerTransport.java:129-136 | reads the stream only if it was not read yet; afterwards the stream is marked read and a further read changes nothing and cannot fail |
| SocketServer.NamesCached | core/src/main/java/com/concur/babel/transport/server/SocketServerTransport.java:120-136 | after either accessor, asking for either name again reads nothing, cannot fail, and gives what that accessor would have given first |
| SocketServer.GetHeader | core/src/main/java/com/concur/babel/transport/server/SocketServerTransport.java:47-52 | null exactly for a header that was not sent, otherwise its value |
| SocketServer.Read | core/src/main/java/com/concur/babel/transport/server/SocketServerTransport.java:104-118 | decodes the body line after the lazy read; a null decode fails with "Unable to parse service call json" |
| SocketServer.Write | core/src/main/java/com/concur/babel/transport/server/SocketServerTransport.java:78-102 | writes the code value and CRLF, then the payload and CRLF; records the code and the CRLF-terminated payload; nothing else changes |
| ServerTransports.NamesAreStable | core/src/main/java/com/concur/babel/transport/server/SocketServerTransport.java:120-136 | reading the service or method name again changes nothing and gives the same answer, on either transport |
| HttpServer.ParsePath | core/src/main/java/com/concur/babel/transport/server/HttpServerTransport.java:158-173 | null path info fails naming the URI; fewer than two split segments fail with the routing error; otherwise the last two segments |
| HttpServer.ParsePathIgnoresPrefix | core/src/main/java/com/concur/babel/transport/server/HttpServerTransport.java:165-173 | any prefix before `/service/method` is ignored |
| HttpServer.EmptyPathRejected | core/src/main/java/com/concur/babel/transport/server/HttpServerTransport.java:165-170 | an empty path info is rejected |
| HttpServer.RootPathRejected | core/src/main/java/com/concur/babel/transport/server/HttpServerTransport.java:165-170 | path info "/" is rejected |
| HttpServer.DebugFlag | core/src/main/java/com/concur/babel/transport/server/HttpServerTransport.java:175-177 | debugging is on exactly when BABEL_DEBUG is present and equals "true" ignoring case |
| HttpServer.NewHttpServerTransport | core/src/main/java/com/concur/babel/transport/server/HttpServerTransport.java:34-49 | protocol, request and response must be non-null in that order; then the request is parsed, and a failed parse is the constructor's exception ("Calling service was not found in the URI…" and the like) |
| HttpServer.GetHeader | core/src/main/java/com/concur/babel/transport/server/HttpServerTransport.java:51-60 | null for an absent header, otherwise the decoded value |
| HttpServer.Write | core/src/main/java/com/concur/babel/transport/server/HttpServerTransport.java:70-98 | records the code and sets the status to its value; a null payload writes no body and leaves the response message alone |
| HttpServer.Read | core/src/main/java/com/concur/babel/transport/server/HttpServerTransport.java:100-118 | decodes the body; a null decode fails naming service and method; a decoder exception propagates |
| ClientTransport.AddInt32 | core/src/main/java/com/concur/babel/transport/BaseTransport.java:389 | Java `int` addition wraps modulo 2^32 |
| ClientTransport.NewRetry | core/src/main/java/com/concur/babel/transport/BaseTransport.java:466-474 | both settings must be non-negative, checked in order, and are stored as given |
| ClientTransport.SetConnectionTimeout | core/src/main/java/com/concur/babel/transport/BaseTransport.java:140-143 | rejects a negative timeout; otherwise replaces only the connection timeout |
| ClientTransport.SetReadTimeout | core/src/main/java/com/concur/babel/transport/BaseTransport.java:148-151 | rejects a negative timeout; otherwise replaces only the read timeout |
| ClientTransport.NewBaseTransport | core/src/main/java/com/concur/babel/transport/BaseTransport.java:96-118 | protocol (and handlers, when passed) non-null, then both timeouts non-negative; no headers and retry policy (0, 0) |
| ClientTransport.SetHeaders | core/src/main/java/com/concur/babel/transport/BaseTransport.java:156-159 | rejects null; replaces the header map |
| ClientTransport.SetHeader | core/src/main/java/com/concur/babel/transport/BaseTransport.java:164-168 | key, then value, must be non-null; sets that header and leaves the others unchanged |
| ClientTransport.AddResponseHandler | core/src/main/java/com/concur/babel/transport/BaseTransport.java:181-184 | rejects null; appends the handler after the existing ones |
| ClientTransport.AddResponseHandlers | core/src/main/java/com/concur/babel/transport/BaseTransport.java:173-176 | rejects null; appends the handlers in order |
| ClientTransport.SetMaxRetries | core/src/main/java/com/concur/babel/transport/BaseTransport.java:191-195 | rejects a negative count; keeps the current delay |
| ClientTransport.SetRetryDelay | core/src/main/java/com/concur/babel/transport/BaseTransport.java:202-206 | rejects a negative delay; keeps the current count |
| ClientTransport.RetrySettersCommute | core/src/main/java/com/concur/babel/transport/BaseTransport.java:191-206 | the two retry setters commute and together give exactly the requested policy |
| ClientTransport.RoundsPrefix | core/src/main/java/com/concur/babel/transport/BaseTransport.java:420-437 | the notifications of fewer failed attempts are a prefix of those of more |
| ClientTransport.RoundsLength | core/src/main/java/com/concur/babel/transport/BaseTransport.java:405-418 | each retried failure tells every handler once |
| ClientTransport.StatusFailure | core/src/main/java/com/concur/babel/transport/BaseTransport.java:268-281 | 500 decodes the body into a framework exception, 409 into an application one; any other code gives "Error making service call <code>[:<message>]" |
| ClientTransport.Settle | core/src/main/java/com/concur/babel/transport/BaseTransport.java:264-293 | 200 returns the body and tells every handler of success; any other code fails as `StatusFailure` says and tells every handler of the failure |
| ClientTransport.CallServiceWith | core/src/main/java/com/concur/babel/transport/BaseTransport.java:249-295 | the loop under an arbitrary attempt bound: no attempt when the bound is not positive, else 1 to bound attempts, with the same outcome and notifications as `CallService` |
| ClientTransport.AttemptGuardWraps | core/src/main/java/com/concur/babel/transport/BaseTransport.java:388-390 | with maxRetries = 2^31-1 the source's guard refuses even the first attempt, while the intended guard allows it |
| ClientTransport.CallServiceAsWritten | core/src/main/java/com/concur/babel/transport/BaseTransport.java:249-295 | with the 32-bit guard, maxRetries = 2^31-1 makes no attempt and fails with a wrapped NPE after telling every handler |
| ClientTransport.CallService | core/src/main/java/com/concur/babel/transport/BaseTransport.java:249-295 | 1 to maxRetries+1 attempts; every earlier attempt was a transient I/O failure and the last is not retryable unless the bound is reached; 200 returns the body; 500/409 fail with the decoded exception unwrapped; other codes fail with the double-wrapped message; a non-`IOException` or final I/O failure escapes wrapped; every handler is told of each retried failure and of the final result, in order |
| ClientTransport.CallServiceUnderOutage | core/src/main/java/com/concur/babel/transport/BaseTransport.java:420-437 | under permanent timeouts or refusals exactly maxRetries+1 attempts are made, each handler is told maxRetries+1 times, and the last failure surfaces wrapped in a `RuntimeException` |
| ClientTransport.Invoke | core/src/main/java/com/concur/babel/transport/BaseTransport.java:123-127 | the call's body is decoded into the return type; a decoder exception propagates unwrapped |
| SocketClient.NewSocketTransport | core/src/main/java/com/concur/babel/transport/SocketTransport.java:30-67 | the base transport's checks; host and port stored as given |
| SocketClient.GetServiceConnection | core/src/main/java/com/concur/babel/transport/SocketTransport.java:123-131 | the call's names with the configured host and port |
| SocketClient.HeaderPairs | core/src/main/java/com/concur/babel/transport/SocketTransport.java:147-149 | one `key=value` entry per key, in iteration order |
| SocketClient.BuildHeaders | core/src/main/java/com/concur/babel/transport/SocketTransport.java:142-159 | the entries joined by "\|\|" with no trailing separator, then CRLF; an empty map gives just CRLF |
| SocketClient.ParseReply | core/src/main/java/com/concur/babel/transport/SocketTransport.java:90-96 | the first line parsed as the status and the second taken as the body; a missing or non-numeric status line raises `NumberFormatException` |
| SocketClient.CallEndPoint | core/src/main/java/com/concur/babel/transport/SocketTransport.java:73-108 | an I/O failure is raised as is; otherwise the reply is parsed |
| SocketClient.BadStatusIsNotRetried | core/src/main/java/com/concur/babel/transport/SocketTransport.java:92 | a non-numeric status is not an `IOException`, so it is never retried |
| SocketClient.ParseHeaderPairs | core/src/main/java/com/concur/babel/transport/server/SocketServerTransport.java:187-193 | the server's parse of the first n entries stores exactly those entries |
| SocketClient.HeaderLineRoundTrip | core/src/main/java/com/concur/babel/transport/SocketTransport.java:142-159 | the server's header parse of the client's header line gives back the header map |
| SocketClient.RoutingRoundTrip | core/src/main/java/com/concur/babel/transport/SocketTransport.java:85-86 | the server's routing parse of the client's routing line gives back the service and method |
| SocketClient.RequestFrameRoundTrip | core/src/main/java/com/concur/babel/transport/SocketTransport.java:79-87 | the server reading the client's whole frame recovers headers, service, method, debug flag and call |
| SocketClient.ReplyRoundTrip | core/src/main/java/com/concur/babel/transport/server/SocketServerTransport.java:79-96 | the client parsing the server's reply recovers the status value and payload text |
| HttpClient.NewHttpTransport | core/src/main/java/com/concur/babel/transport/HttpTransport.java:39-68 | protocol, then URL non-null, then the timeouts; content type "json" and method "POST" by default |
| HttpClient.GetUrl | core/src/main/java/com/concur/babel/transport/HttpTransport.java:148-153 | the URL starts with the base URL and a '/'; the service and method segments after it are what `HttpClient.UrlRoundTrip` recovers |
| HttpClient.GetServiceConnection | core/src/main/java/com/concur/babel/transport/HttpTransport.java:130-146 | the base URL as host; the port is null exactly when the call's URL is malformed |
| Text.ReplacePlusAppend | core/src/main/java/com/concur/babel/transport/HttpTransport.java:171 | replacing "+" by "%20" works piece by piece over concatenation |
| Text.ReplacePlusNoop | core/src/main/java/com/concur/babel/transport/HttpTransport.java:171 | a string without "+" is left unchanged |
| Text.ReplacePlusRemovesPlus | core/src/main/java/com/concur/babel/transport/HttpTransport.java:171 | no "+" survives the replacement |
| HttpClient.EncodeHeaderValue | core/src/main/java/com/concur/babel/transport/HttpTransport.java:168-173 | the encoded value contains no '+'; an encoding without '+' is kept as is |
| HttpClient.CallEndPoint | core/src/main/java/com/concur/babel/transport/HttpTransport.java:91-125 | a malformed URL raises `MalformedURLException`; 200 reads the input stream with no response message; other codes read the error stream and keep the status message; a null error stream raises an NPE |
| HttpClient.CallMalformed | core/src/main/java/com/concur/babel/transport/HttpTransport.java:155-160 | a malformed URL is a non-transient `IOException`: one attempt, then failure wrapped in a `RuntimeException` |
| HttpClient.UrlRoundTrip | core/src/main/java/com/concur/babel/transport/HttpTransport.java:148-153 | the server's path parse of the client's URL gives back service and method when neither contains '/' and the method is non-empty |
| HttpClient.ReplyRoundTrip | core/src/main/java/com/concur/babel/transport/server/HttpServerTransport.java:70-98 | the client reading the server's response recovers the status value and body; the status message only for a failure status |
| Text.ParseBoolean | core/src/main/java/com/concur/babel/transport/server/SocketServerTransport.java:196 | `Boolean.parseBoolean` is true exactly for "true" ignoring case |
| Text.TokenizeJoin | core/src/main/java/com/concur/babel/transport/server/SocketServerTransport.java:189-190 | `StringTokenizer` with "\|\|" splits a "\|\|"-join back into its non-empty parts |
| Text.SplitLastTwo | core/src/main/java/com/concur/babel/transport/server/HttpServerTransport.java:165-173 | the last two fields of `split("/")` of `p/a/b` are `a` and `b` |
| Text.SplitPair | core/src/main/java/com/concur/babel/transport/server/SocketServerTransport.java:191 | `split("=")` of `k=v` is exactly `[k, v]` |
| Text.ReadLineTerminated | core/src/main/java/com/concur/babel/transport/server/SocketServerTransport.java:155-157 | `readLine` of a CRLF-terminated line returns the line and the rest |
| Text.ParseIntToString | core/src/main/java/com/concur/babel/transport/SocketTransport.java:92 | `Integer.parseInt` inverts the decimal rendering of every 32-bit value |
| Text.EqualsIgnoreCaseEquivalence | core/src/main/java/com/concur/babel/processor/BaseInvoker.java:74 | matching ignoring case is reflexive, symmetric and transitive |
| Text.EqualsIgnoreCaseIsLowerEquality | core/src/main/java/com/concur/babel/processor/ServiceRequestDispatcher.java:124 | two names match ignoring case exactly when their lower-cased forms are equal |
| Scenarios.GenericBuilderCase | core/src/test/java/com/concur/babel/exception/builder/GenericExceptionBuilderTest.java:22-152 | code "8888" with or without "My Message" gives the message "ErrorCode: 8888 - My Message" or the thrown message after the code |
| Scenarios.GenericBuilderShapeCase | core/src/test/java/com/concur/babel/exception/builder/GenericExceptionBuilderTest.java:22-152 | with or without tags ["babel"] the built exception carries those tags or none, the flag's subtype, and a cause |
| Scenarios.DefaultBuilderCase | core/src/test/java/com/concur/babel/processor/ServiceRequestDispatcherTest.java:178-205 | `sendErrorResponse` of a fresh dispatcher writes a 500 whose service error holds the one entry "9999" / "Unexpected Exception Occurred", except when the exception or one of its causes is a Babel exception whose message cannot be rendered, which leaves the transport unwritten |
| Scenarios.TweetTableOmitsRecentTweets | testUtils/src/main/java/com/concur/babel/test/service/TweetService.java:77-84 | `recentTweets`, absent from the tweet service's table, is not found |
| Scenarios.TweetTableIgnoresCase | testUtils/src/main/java/com/concur/babel/test/service/TweetService.java:77-84 | "GETALLTWEETS" finds the `getAllTweets` entry |

## Left out

- **I/O.** Sockets, `HttpURLConnection`, servlet streams, `BabelServlet`, `BabelSocketThread`
  and `BabelSimpleSocketServer` are not modelled. The network is an attempt oracle or an
  `Exchange` per attempt. The exceptions of writing to or reading from a stream are those
  exchanges' `Broken` case. The "Unable to write/read" `RuntimeException` wrappers of the
  server transports are not modelled.
- **Serialisation.** `JSONProtocol` (Gson, dates, Base64, long/decimal strings) is a parameter.
  Its round trip is a precondition (`Protocols.CallRoundTrip`), never an axiom.
- **Percent-encoding.** `URLEncoder`/`URLDecoder` are parameters. Only the "+" to "%20"
  replacement is modelled.
- **Reflection.** `Method.invoke`, `getMethods()` and `getReturnType` become explicit tables of
  `(name, arity, handle)` and a `run` oracle. The `IllegalAccessException` branch of
  `BaseInvoker.invoke` cannot arise without real reflection and is not modelled.
- **Time, sleeps and logging.** Durations are parameters (`duration`) and are not recorded in
  the client's events. The retry delay's `Thread.sleep`, `System.err` output and all logging
  are omitted.
- **Handler arguments.** Client response handlers receive the `ServiceConnection`, headers,
  request and duration; the client events record only the handler, the response, the status
  and the exception. Handlers that themselves throw are not modelled, neither client
  response handlers nor server `CallHandler`s. On the server, an `onSuccess` that throws
  inside `dispatch`'s try block (`ServiceRequestDispatcher.java:131-135`) would start an
  error response after the 200 was written, and an `onFailure` that throws
  (`ServiceRequestDispatcher.java:278-285`) would escape `dispatch`.
- **Closing errors.** The `RuntimeException` a failed `socket.close()` would throw is not modelled.
- **Classpath and Spring registration.** `URLScanningClassFinder`, the registrars and everything
  under `spring/` are not modelled.
- **Accessors.** `ServiceError`'s own source is not part of this model; its fields are taken to
  start out null. Trivial accessors (local host, addresses, ports, `getHeaderNames`) are not
  modelled.
- **Stack traces.** The text of a stack dump is a parameter (`Capture.stack`). Only its presence
  or absence matters.
- **Null `dispatch` arguments.** `dispatch`'s `notNull("transport")` and `invoke`'s
  `notNull("serviceMethod")` are not modelled: those arguments are never null here.
- **Exception messages.** Messages that differ between JDK versions are abstracted: the
  `NumberFormatException` text (`For input string: "s"`, "null") and the index-out-of-bounds
  text. `MalformedURLException`'s message comes from the URL-parser parameter.
- **Delay range.** `ClientTransport.NewRetry`: the delay is an unbounded `nat` rather than a
  Java `long`, because no operation on it can overflow.
- **Socket routing.** `SocketClient.RequestFrameRoundTrip` needs non-empty service and method
  names (a null name is sent, and read back, as "null") without '|' or line terminators; header
  keys and non-empty values without '|', '=' or line terminators; a serialised call without
  line terminators; and a protocol whose calls read back as written (`Protocols.CallRoundTrip`).
  `SocketClient.RoutingRoundTrip` needs only the name conditions. Other headers are not
  recovered, which is the behaviour `SocketServer.MissingValueFails` and
  `SocketServer.ExtraPartsDropped` describe.
- HttpServer.GetHeader: looks headers up by exact name, and so does `HttpServer.DebugFlag`.
  `HttpServletRequest.getHeader` ignores case, so a `babel_debug` header turns debugging on in
  `HttpServerTransport` (lines 175-177) but not in the model.
- Text.ParseInt: accepts ASCII digits only. `Integer.parseInt` also accepts other Unicode
  decimal digits, so `SocketClient.ParseReply` rejects some status lines Java would accept.
- Text.ToLower: folds only the ASCII letters A-Z, and `Text.EqualsIgnoreCase` likewise.
  `String.toLowerCase` and `equalsIgnoreCase` also fold other letters (and depend on the
  default locale), so `Dispatch.RegisteredServiceResolves` and
  `Text.EqualsIgnoreCaseIsLowerEquality` describe Java only for ASCII names.
- ExceptionBuilders.BuildException: a custom builder (`ExceptionBuilders.CustomBuild`) may
  return any `Thrown`, although `ExceptionBuilder.buildException` is typed to return a
  `BabelException`. A non-Babel result is written like a Babel one. A null result is
  modelled: it fails with a `NullPointerException` before anything is written.
- **Map order.** `Invokers.LookupDescriptor` follows the table in the order given. Which key
  wins among keys equal ignoring case depends on `HashMap` order, so independence from order
  is proved only for case-distinct keys (`Invokers.LookupMatchesAnyKey`).

## Findings

| source | as written | input that shows it | evidently intended | confidence | as-written member | corrected member |
|---|---|---|---|---|---|---|
| core/src/main/java/com/concur/babel/transport/BaseTransport.java:389 | `attempts < maxRetries + 1` in 32-bit `int` arithmetic; the same sum is used at line 425 | `setMaxRetries(Integer.MAX_VALUE)`: `maxRetries + 1` wraps to -2^31, so no attempt is made. `getResponseCode()` then unboxes a null `Integer` (line 265), and the call fails with a `RuntimeException` around a `NullPointerException` after every handler is told | at least one attempt and at most maxRetries+1, as for every smaller maxRetries | not executed | ClientTransport.CallServiceAsWritten | ClientTransport.CallService |

=== FILE: arg_validator.dfy ===
/** `ArgValidator`: the argument checks the runtime performs on entry to its
    public operations. Each check passes or fails with an
    `IllegalArgumentException`; a Java null argument is `None`. */
module ArgValidator {
  import opened Wrappers
  import opened Throwables

  /** The message a failed null check carries. */
  function NullMessage(paramName: string): string {
    "Parameter: " + paramName + " can not be NULL"
  }

  const LengthMismatchMessage: string := "Param names array lenght did not match params array lenght"

  /** `notNull(paramName, param)`: fails exactly when the argument is null. */
  function NotNull<T>(paramName: string, param: Option<T>): (o: Outcome<Thrown>)
    ensures o.Fail? <==> param.None?
    ensures o.Fail? ==> o.error == IllegalArgument(NullMessage(paramName))
  {
    if param.None? then Fail(IllegalArgument(NullMessage(paramName))) else Pass
  }

  /** `notNull` on an argument that is used afterwards: the non-null value, or the
      exception the check throws. */
  function NonNull<T>(paramName: string, param: Option<T>): (r: Result<T, Thrown>)
    ensures r.Success? <==> param.Some?
    ensures r.Success? ==> r.value == param.value
    ensures r.Failure? ==> r == Failure(IllegalArgument(NullMessage(paramName)))
  {
    match NotNull(paramName, param)
    case Fail(e) => Failure(e)
    case Pass => Success(param.value)
  }

  /** `preCondition(expression, message)`: fails with `message` exactly when the expression is false. */
  function PreCondition(expression: bool, message: string): (o: Outcome<Thrown>)
    ensures o.Fail? <==> !expression
    ensures o.Fail? ==> o.error == IllegalArgument(message)
  {
    if expression then Pass else Fail(IllegalArgument(message))
  }

  /** Index of the first null entry, or `|params|` when there is none. */
  function FirstNull<T>(params: seq<Option<T>>): (i: nat)
    ensures i <= |params|
    ensures forall j :: 0 <= j < i ==> params[j].Some?
    ensures i < |params| ==> params[i].None?
  {
    if params == [] then 0
    else if params[0].None? then 0
    else 1 + FirstNull(params[1..])
  }

  /** `notNull(paramNames, params)`: mismatched lengths fail before any element is
      looked at; otherwise the elements are checked in order and the first null
      one is reported under its name. */
  method NotNullAll<T>(paramNames: seq<string>, params: seq<Option<T>>) returns (o: Outcome<Thrown>)
    ensures |paramNames| != |params| ==> o == Fail(IllegalArgument(LengthMismatchMessage))
    ensures |paramNames| == |params| ==> (o.Fail? <==> exists i :: 0 <= i < |params| && params[i].None?)
    ensures |paramNames| == |params| && o.Fail? ==>
              var i := FirstNull(params);
              i < |params| && o.error == IllegalArgument(NullMessage(paramNames[i]))
  {
    if |paramNames| != |params| {
      return Fail(IllegalArgument(LengthMismatchMessage));
    }
    var index := 0;
    while index < |params|
      invariant 0 <= index <= |params|
      invariant forall j :: 0 <= j < index ==> params[j].Some?
    {
      var check := NotNull(paramNames[index], params[index]);
      if check.Fail? {
        assert FirstNull(params) == index by {
          FirstNullAt(params, index);
        }
        return check;
      }
      index := index + 1;
    }
    return Pass;
  }

  /** The first null index is determined by the entries before it. */
  lemma FirstNullAt<T>(params: seq<Option<T>>, i: nat)
    requires i < |params| && params[i].None?
    requires forall j :: 0 <= j < i ==> params[j].Some?
    ensures FirstNull(params) == i
  {
    var k := FirstNull(params);
    assert k <= i;
  }
}

=== FILE: babel.dfy ===
/** `BabelException` and `BabelApplicationException`: constructors, the error-list
    and context updates, and the `getMessage` renderer. Both classes behave
    identically; the application subclass differs only in its lineage, which
    is what callers test to tell an application error from an unexpected one. */
module Babel {
  import opened Wrappers
  import opened Text
  import opened Errors
  import opened Throwables

  /** What constructing an exception reads from its environment: the clock, and
      the stack dump `printStackTrace` writes for the new exception. */
  datatype Capture = Capture(now: int, stack: string)

  function BabelLineageOf(isApp: bool): (l: Lineage)
    ensures BabelExceptionClass in l && RuntimeExceptionClass in l
    ensures BabelApplicationClass in l <==> isApp
  {
    if isApp then BabelApplicationLineage else BabelLineage
  }

  /** A Babel exception whose service error is non-null. */
  predicate HasServiceError(t: Thrown) {
    IsBabel(t) && t.serviceError.Some?
  }

  /** `addError(message, code, params)`: creates a growable error list when there
      is none, then appends one entry. Fails with a `NullPointerException` when the
      service error itself is null and with an `UnsupportedOperationException` when
      the list is the fixed-size one the `Error...` constructors install. */
  function AddError(t: Thrown, message: Option<string>, code: Option<string>, params: Option<seq<string>>): (r: Result<Thrown, Thrown>)
    requires IsBabel(t)
    ensures t.serviceError.None? ==> r == Failure(NullPointer())
    ensures HasServiceError(t) && t.serviceError.value.errors.Some? && !t.growable ==> r == Failure(UnsupportedOperation())
    ensures HasServiceError(t) && (t.serviceError.value.errors.None? || t.growable) ==> r.Success?
    ensures r.Success? ==>
              var before := t.serviceError.value;
              HasServiceError(r.value) && r.value.growable &&
              r.value.lineage == t.lineage && r.value.cause == t.cause &&
              r.value.serviceError.value.errors == Some(before.errors.GetOr([]) + [Error(code, message, params)]) &&
              r.value.serviceError.value == before.(errors := r.value.serviceError.value.errors)
  {
    if t.serviceError.None? then Failure(NullPointer())
    else
      var se := t.serviceError.value;
      if se.errors.Some? && !t.growable then Failure(UnsupportedOperation())
      else
        var list := if se.errors.Some? then se.errors.value else [];
        var entry := SetParams(SetCode(SetMessage(DefaultError(), message), code), params);
        Success(t.(serviceError := Some(se.(errors := Some(list + [entry]))), growable := true))
  }

  /** What `super(cause)` stores as the detail message: `cause.toString()`, or null
      without a cause. Rendering a Babel cause whose error list is null throws, and
      the exception under construction is then never created. */
  function CauseDetail(cause: Option<Thrown>): (r: Result<Option<string>, Thrown>)
    ensures r.Failure? <==> cause.Some? && Message(cause.value).Failure?
    ensures r.Failure? ==> r.error == NullPointer()
    ensures cause.None? ==> r == Success(None)
    ensures cause.Some? && r.Success? ==> r.value.Some? && ClassOf(cause.value) <= r.value.value
  {
    if cause.None? then Success(None)
    else
      var text :- ToString(cause.value);
      Success(Some(text))
  }

  /** Whether `printStackTrace` can print the exception `t` and its causes: it
      renders `t`, then each exception down the cause chain after "Caused by: ", with
      `toString`, which throws where `getMessage` does. */
  predicate ChainRenders(t: Thrown)
    decreases t
  {
    Message(t).Success? && (t.cause.Some? ==> ChainRenders(t.cause.value))
  }

  /** The part of `toStringStack` that can throw for an exception under construction
      with the given cause: its own message renders, and the stack trace then renders
      each exception of the cause chain in turn, stopping at the first that throws. */
  function StackDump(cause: Option<Thrown>): (r: Outcome<Thrown>)
    ensures r.Fail? <==> cause.Some? && !ChainRenders(cause.value)
    ensures r.Fail? ==> r.error == NullPointer()
    decreases cause
  {
    match cause
    case None => Pass
    case Some(c) =>
      match ToString(c)
      case Failure(x) => Fail(x)
      case Success(_) => StackDump(c.cause)
  }

  /** The message/code/params constructors, all of which delegate to `init`:
      set the time, install an empty tag list, add the one error, record the stack dump.
      `super(cause)` renders the cause and the stack dump renders the whole cause chain,
      so any exception in that chain whose message cannot be rendered makes the
      constructor throw a `NullPointerException`. */
  function NewBabel(isApp: bool, message: Option<string>, code: Option<string>, params: Option<seq<string>>,
                    cause: Option<Thrown>, at: Capture): (r: Result<Thrown, Thrown>)
    ensures r.Failure? <==> cause.Some? && !ChainRenders(cause.value)
    ensures r.Failure? ==> r.error == NullPointer()
    ensures r.Success? ==>
              var t := r.value;
              HasServiceError(t) && t.growable && t.cause == cause && (IsApplication(t) <==> isApp) &&
              var se := t.serviceError.value;
              se.errors == Some([Error(code, message, params)]) &&
              se.tags == Some([]) && se.time == Some(at.now) && se.details == Some(at.stack) &&
              se.context.None? && se.inner.None?
  {
    var detail :- CauseDetail(cause);
    :- StackDump(cause);
    var initial := Thrown(BabelLineageOf(isApp), detail, cause, Some(EmptyServiceError), true);
    var timed := initial.(serviceError := Some(EmptyServiceError.(time := Some(at.now), tags := Some([]))));
    var added := AddError(timed, message, code, params).value;
    var single: seq<Error> := [Error(code, message, params)];
    assert added.serviceError.value.errors == Some([] + single);
    assert [] + single == single;
    var result := added.(serviceError := Some(added.serviceError.value.(details := Some(at.stack))));
    assert result.serviceError.value.errors == Some(single);
    Success(result)
  }

  /** A `RuntimeException` whose own message renders but whose cause is a Babel
      exception with a null service error cannot be the cause of a new Babel exception:
      its stack dump reaches that cause. */
  lemma DeeperCauseThrows(at: Capture)
    ensures var outer := Thrown(RuntimeLineage, Some("x"), Some(FromServiceError(false, None)), None, false);
            Message(outer).Success? && NewBabel(false, Some("m"), Some("c"), None, Some(outer), at) == Failure(NullPointer())
  {
  }

  /** The `Error...` constructors: the given entries verbatim and in order (possibly
      none), in a fixed-size list; tags, context and inner are left unset. Like the
      other constructors they throw when an exception in the cause chain cannot be rendered. */
  function FromErrors(isApp: bool, errors: seq<Error>, cause: Option<Thrown>, at: Capture): (r: Result<Thrown, Thrown>)
    ensures r.Failure? <==> cause.Some? && !ChainRenders(cause.value)
    ensures r.Failure? ==> r.error == NullPointer()
    ensures r.Success? ==>
              var t := r.value;
              HasServiceError(t) && !t.growable && t.cause == cause && (IsApplication(t) <==> isApp) &&
              var se := t.serviceError.value;
              se.errors == Some(errors) && se.time == Some(at.now) && se.details == Some(at.stack) &&
              se.tags.None? && se.context.None? && se.inner.None?
    ensures r.Success? ==> Message(r.value) == Success(Some(RenderMessage(errors)))
  {
    var detail :- CauseDetail(cause);
    :- StackDump(cause);
    Success(Thrown(BabelLineageOf(isApp), detail, cause,
                   Some(EmptyServiceError.(time := Some(at.now), errors := Some(errors), details := Some(at.stack))), false))
  }

  /** The `ServiceError` constructor: adopts the given (possibly null) error object as it is. */
  function FromServiceError(isApp: bool, serviceError: Option<ServiceError>): (t: Thrown)
    ensures IsBabel(t) && t.serviceError == serviceError && t.cause.None?
    ensures IsApplication(t) <==> isApp
  {
    Thrown(BabelLineageOf(isApp), None, None, serviceError, true)
  }

  /** Application and framework exceptions built from the same arguments fail alike
      and otherwise carry the same service error. */
  lemma ApplicationShapeMatchesFramework(message: Option<string>, code: Option<string>, params: Option<seq<string>>,
                                         cause: Option<Thrown>, errors: seq<Error>, at: Capture)
    ensures var app := NewBabel(true, message, code, params, cause, at);
            var framework := NewBabel(false, message, code, params, cause, at);
            app.Success? == framework.Success? &&
            (app.Success? ==> app.value.serviceError == framework.value.serviceError &&
                              IsApplication(app.value) && !IsApplication(framework.value))
    ensures var app := FromErrors(true, errors, cause, at);
            var framework := FromErrors(false, errors, cause, at);
            app.Success? == framework.Success? &&
            (app.Success? ==> app.value.serviceError == framework.value.serviceError)
  {
  }

  /** Rendering one more entry appends a newline, unless it is the first, and the entry. */
  lemma RenderMessageStep(errors: seq<Error>, index: nat)
    requires index < |errors|
    ensures RenderMessage(errors[..index + 1]) ==
            RenderMessage(errors[..index]) + (if 0 < index then "\n" else "") + RenderError(errors[index])
  {
    JoinSnoc(RenderAll(errors[..index]), RenderError(errors[index]), "\n");
    assert RenderAll(errors[..index + 1]) == RenderAll(errors[..index]) + [RenderError(errors[index])];
  }

  /** `getMessage` of a Babel exception, as the source loop computes it: each entry
      rendered, with a newline after every entry but the last. Iterating a null
      error list (or a null service error) throws a `NullPointerException`. */
  method GetMessage(t: Thrown) returns (r: Result<string, Thrown>)
    requires IsBabel(t)
    ensures r.Failure? <==> t.serviceError.None? || t.serviceError.value.errors.None?
    ensures r.Failure? ==> r.error == NullPointer()
    ensures r.Success? ==> r.value == RenderMessage(t.serviceError.value.errors.value)
  {
    if t.serviceError.None? || t.serviceError.value.errors.None? {
      return Failure(NullPointer());
    }
    var errors := t.serviceError.value.errors.value;
    var sb := "";
    var index := 0;
    while index < |errors|
      invariant 0 <= index <= |errors|
      invariant sb == RenderMessage(errors[..index]) + (if 0 < index < |errors| then "\n" else "")
    {
      RenderMessageStep(errors, index);
      sb := sb + RenderError(errors[index]);
      if index < |errors| - 1 {
        sb := sb + "\n";
      }
      index := index + 1;
    }
    assert errors[..index] == errors;
    return Success(sb);
  }

  /** `Throwable.getMessage`, overridden by Babel exceptions to render their errors. */
  function Message(t: Thrown): (r: Result<Option<string>, Thrown>)
    ensures !IsBabel(t) ==> r == Success(t.detail)
    ensures r.Failure? <==> IsBabel(t) && (t.serviceError.None? || t.serviceError.value.errors.None?)
    ensures r.Failure? ==> r.error == NullPointer()
    ensures IsBabel(t) && r.Success? ==> r.value == Some(RenderMessage(t.serviceError.value.errors.value))
  {
    if !IsBabel(t) then Success(t.detail)
    else if t.serviceError.None? || t.serviceError.value.errors.None? then Failure(NullPointer())
    else Success(Some(RenderMessage(t.serviceError.value.errors.value)))
  }

  /** The message of a freshly constructed Babel exception is its one entry rendered,
      and the application and framework classes give the same message. */
  lemma MessageOfNewBabel(isApp: bool, message: Option<string>, code: Option<string>, params: Option<seq<string>>,
                          cause: Option<Thrown>, at: Capture)
    ensures NewBabel(isApp, message, code, params, cause, at).Success? ==>
              Message(NewBabel(isApp, message, code, params, cause, at).value) == Success(Some(RenderError(Error(code, message, params))))
    ensures NewBabel(true, message, code, params, cause, at).Success? ==>
              Message(NewBabel(true, message, code, params, cause, at).value) == Message(NewBabel(false, message, code, params, cause, at).value)
  {
    var single := Error(code, message, params);
    var created := NewBabel(isApp, message, code, params, cause, at);
    if created.Success? {
      MessageOfSingle(created.value, single);
    }
    var app := NewBabel(true, message, code, params, cause, at);
    if app.Success? {
      MessageOfSingle(app.value, single);
      MessageOfSingle(NewBabel(false, message, code, params, cause, at).value, single);
    }
  }

  /** A Babel exception holding exactly one entry has that entry rendered as its message. */
  lemma MessageOfSingle(t: Thrown, single: Error)
    requires HasServiceError(t) && t.serviceError.value.errors == Some([single])
    ensures Message(t) == Success(Some(RenderError(single)))
  {
    assert RenderAll([single]) == [RenderError(single)];
  }

  /** `Throwable.toString`: the class name, then ": " and the message when the
      message is non-null. Fails where `getMessage` does. */
  function ToString(t: Thrown): (r: Result<string, Thrown>)
    ensures r.Success? <==> Message(t).Success?
    ensures r.Success? && Message(t).value.None? ==> r.value == ClassOf(t)
    ensures r.Success? && Message(t).value.Some? ==>
              |r.value| > |ClassOf(t)| + 1 && r.value[..|ClassOf(t)|] == ClassOf(t) &&
              r.value[|ClassOf(t)|..] == ": " + Message(t).value.value
  {
    var m :- Message(t);
    Success(ClassOf(t) + (if m.Some? then ": " + m.value else ""))
  }

  /** `new RuntimeException(t)`: message `t.toString()`, cause `t`. */
  function Wrap(t: Thrown): (r: Result<Thrown, Thrown>)
    ensures r.Success? <==> ToString(t).Success?
    ensures !IsBabel(t) ==> r.Success?
    ensures r.Success? ==> ClassOf(r.value) == RuntimeExceptionClass && IsException(r.value) && !IsBabel(r.value)
    ensures r.Success? ==> r.value.cause == Some(t) && r.value.detail == Some(ToString(t).value)
  {
    var text :- ToString(t);
    Success(Thrown(RuntimeLineage, Some(text), Some(t), None, false))
  }

  /** `addContext(name, values)`: creates the context map when it is absent and
      sets exactly the key `name`. Throws when the service error is null. */
  function AddContext(t: Thrown, name: string, values: map<string, string>): (r: Result<Thrown, Thrown>)
    requires IsBabel(t)
    ensures r.Failure? <==> t.serviceError.None?
    ensures r.Failure? ==> r.error == NullPointer()
    ensures r.Success? ==> HasServiceError(r.value) && r.value.serviceError.value.context.Some?
    ensures r.Success? ==>
              var before := t.serviceError.value;
              var after := r.value.serviceError.value;
              name in after.context.value && after.context.value[name] == values &&
              (forall k :: k in after.context.value && k != name ==>
                 before.context.Some? && k in before.context.value && after.context.value[k] == before.context.value[k]) &&
              (forall k :: before.context.Some? && k in before.context.value ==> k in after.context.value) &&
              after == before.(context := after.context) &&
              r.value == t.(serviceError := Some(after))
  {
    if t.serviceError.None? then Failure(NullPointer())
    else
      var se := t.serviceError.value;
      var context := if se.context.Some? then se.context.value else map[];
      Success(t.(serviceError := Some(se.(context := Some(context[name := values])))))
  }

  /** `addContext(name, value)`: the entry `{"value": value}` under `name`. */
  function AddContextValue(t: Thrown, name: string, value: string): (r: Result<Thrown, Thrown>)
    requires IsBabel(t)
    ensures r.Success? <==> t.serviceError.Some?
    ensures r.Success? ==> HasServiceError(r.value) && r.value.serviceError.value.context.Some?
    ensures r.Success? ==> var context := r.value.serviceError.value.context.value;
                           name in context && context[name] == map["value" := value]
  {
    AddContextEntry(t, name, "value", value)
  }

  /** `addContext(name, subName, value)`: the one-entry map `{subName: value}` under `name`. */
  function AddContextEntry(t: Thrown, name: string, subName: string, value: string): (r: Result<Thrown, Thrown>)
    requires IsBabel(t)
    ensures r.Success? <==> t.serviceError.Some?
    ensures r.Success? ==> HasServiceError(r.value) && r.value.serviceError.value.context.Some?
    ensures r.Success? ==> var context := r.value.serviceError.value.context.value;
                           name in context && context[name] == map[subName := value]
  {
    AddContext(t, name, map[subName := value])
  }

  /** Setting a context key twice keeps only the second map, so repeating a call changes nothing. */
  lemma AddContextOverwrites(t: Thrown, name: string, first: map<string, string>, second: map<string, string>)
    requires HasServiceError(t)
    ensures AddContext(AddContext(t, name, first).value, name, second) == AddContext(t, name, second)
    ensures AddContext(AddContext(t, name, first).value, name, first) == AddContext(t, name, first)
  {
    var se := t.serviceError.value;
    var context := if se.context.Some? then se.context.value else map[];
    assert context[name := first][name := second] == context[name := second];
    assert context[name := first][name := first] == context[name := first];
  }

  /** Context updates under different names commute. */
  lemma AddContextCommutes(t: Thrown, a: string, va: map<string, string>, b: string, vb: map<string, string>)
    requires HasServiceError(t) && a != b
    ensures AddContext(AddContext(t, a, va).value, b, vb).value == AddContext(AddContext(t, b, vb).value, a, va).value
  {
    var se := t.serviceError.value;
    var context := if se.context.Some? then se.context.value else map[];
    assert context[a := va][b := vb] == context[b := vb][a := va];
  }

  /** `setInnerServiceError`: replaces only the inner error. */
  function SetInnerServiceError(t: Thrown, inner: Option<ServiceError>): (r: Result<Thrown, Thrown>)
    requires IsBabel(t)
    ensures r.Failure? <==> t.serviceError.None?
    ensures r.Success? ==> HasServiceError(r.value) && r.value.serviceError.value.inner == inner
    ensures r.Success? ==> r.value.serviceError.value.(inner := t.serviceError.value.inner) == t.serviceError.value
    ensures r.Success? ==> r.value.lineage == t.lineage && r.value.cause == t.cause && r.value.growable == t.growable
  {
    if t.serviceError.None? then Failure(NullPointer())
    else Success(t.(serviceError := Some(t.serviceError.value.(inner := inner))))
  }

  /** Adding an error to a freshly constructed exception leaves the first entry as it was. */
  lemma AddErrorKeepsEarlierErrors(t: Thrown, message: Option<string>, code: Option<string>, params: Option<seq<string>>)
    requires HasServiceError(t) && t.serviceError.value.errors.Some? && t.growable
    ensures var r := AddError(t, message, code, params);
            r.Success? &&
            var before := t.serviceError.value.errors.value;
            var after := r.value.serviceError.value.errors.value;
            |after| == |before| + 1 && after[..|before|] == before && after[|before|] == Error(code, message, params)
  {
    var before := t.serviceError.value.errors.value;
    assert (before + [Error(code, message, params)])[..|before|] == before;
  }
}

=== FILE: base_transport.dfy ===
/** `BaseTransport`: the client side shared by the HTTP and socket bindings. Its
    configuration (protocol, headers, timeouts, response handlers, retry policy)
    and the call engine `callService`, which runs the binding's `callEndPoint`
    until one attempt returns normally or fails for good, then classifies the
    status and tells the response handlers. What each attempt does is a
    parameter: the `n`-th call of `callEndPoint` behaves as `attempt(n)`. */
module ClientTransport {
  import opened Wrappers
  import opened Text
  import opened Throwables
  import opened Protocols
  import opened Babel
  import ArgValidator

  const ConnectTimeout: int := 10000
  const ReadTimeout: int := 10000

  const StatusOk: int := 200
  const StatusInternalError: int := 500
  const StatusConflict: int := 409

  /** A Java `int`. */
  type Int32 = x: int | MinInt32 <= x <= MaxInt32

  /** A non-negative Java `int`. */
  type Count32 = x: int | 0 <= x <= MaxInt32

  /** Java's `int` addition: the exact sum, brought back into the 32-bit range. */
  function AddInt32(a: Int32, b: Int32): (r: Int32)
    ensures MinInt32 <= a + b <= MaxInt32 ==> r == a + b
    ensures a + b > MaxInt32 ==> r == a + b - 0x1_0000_0000
    ensures a + b < MinInt32 ==> r == a + b + 0x1_0000_0000
  {
    var s := a + b;
    if s > MaxInt32 then s - 0x1_0000_0000 else if s < MinInt32 then s + 0x1_0000_0000 else s
  }

  /** The retry policy: how many times a transient failure is retried, and the pause between tries. */
  datatype Retry = Retry(maxRetries: Count32, retryDelay: nat)

  const MaxRetriesMessage: string := "maxRetries must be greater than or equal to ZERO"
  const RetryDelayMessage: string := "retryDelay must be greater than or equal to ZERO"

  /** `new Retry(maxRetries, retryDelay)`: both must be non-negative, checked in that order. */
  function NewRetry(maxRetries: Int32, retryDelay: int): (r: Result<Retry, Thrown>)
    ensures r.Success? <==> maxRetries >= 0 && retryDelay >= 0
    ensures maxRetries < 0 ==> r == Failure(IllegalArgument(MaxRetriesMessage))
    ensures maxRetries >= 0 && retryDelay < 0 ==> r == Failure(IllegalArgument(RetryDelayMessage))
    ensures r.Success? ==> r.value.maxRetries == maxRetries && r.value.retryDelay == retryDelay
  {
    match (ArgValidator.PreCondition(maxRetries >= 0, MaxRetriesMessage),
           ArgValidator.PreCondition(retryDelay >= 0, RetryDelayMessage))
    case (Fail(e), _) => Failure(e)
    case (Pass, Fail(e)) => Failure(e)
    case (Pass, Pass) => Success(Retry(maxRetries, retryDelay))
  }

  /** The configuration of a client transport. `handlers` are the response handlers, in order. */
  datatype BaseTransport = BaseTransport(
    protocol: Protocol,
    headers: map<string, string>,
    connectionTimeout: Count32,
    readTimeout: Count32,
    handlers: seq<nat>,
    retry: Retry)

  const ConnectionTimeoutMessage: string := "Connection timeout must be greater than or equal to ZERO"
  const ReadTimeoutMessage: string := "Read timeout must be greater than or equal to ZERO"

  function SetConnectionTimeout(c: BaseTransport, timeout: Int32): (r: Result<BaseTransport, Thrown>)
    ensures r.Success? <==> timeout >= 0
    ensures r.Failure? ==> r.error == IllegalArgument(ConnectionTimeoutMessage)
    ensures r.Success? ==> r.value == c.(connectionTimeout := timeout)
  {
    match ArgValidator.PreCondition(timeout >= 0, ConnectionTimeoutMessage)
    case Fail(e) => Failure(e)
    case Pass => Success(c.(connectionTimeout := timeout))
  }

  function SetReadTimeout(c: BaseTransport, timeout: Int32): (r: Result<BaseTransport, Thrown>)
    ensures r.Success? <==> timeout >= 0
    ensures r.Failure? ==> r.error == IllegalArgument(ReadTimeoutMessage)
    ensures r.Success? ==> r.value == c.(readTimeout := timeout)
  {
    match ArgValidator.PreCondition(timeout >= 0, ReadTimeoutMessage)
    case Fail(e) => Failure(e)
    case Pass => Success(c.(readTimeout := timeout))
  }

  /** The constructors: a non-null protocol (and handler list, when one is passed),
      then both timeouts through their setters. No headers, no retries. */
  function NewBaseTransport(protocol: Option<Protocol>, connectionTimeout: Int32, readTimeout: Int32,
                            handlers: Option<seq<nat>>, handlersGiven: bool): (r: Result<BaseTransport, Thrown>)
    ensures protocol.None? ==> r == Failure(IllegalArgument(ArgValidator.NullMessage("protocol")))
    ensures protocol.Some? && handlersGiven && handlers.None? ==> r == Failure(IllegalArgument(ArgValidator.NullMessage("handlers")))
    ensures r.Success? <==> protocol.Some? && (handlersGiven ==> handlers.Some?) && connectionTimeout >= 0 && readTimeout >= 0
    ensures r.Success? ==>
              r.value == BaseTransport(protocol.value, map[], connectionTimeout, readTimeout,
                                       if handlersGiven then handlers.value else [], Retry(0, 0))
  {
    var p :- ArgValidator.NonNull("protocol", protocol);
    :- if handlersGiven then ArgValidator.NotNull("handlers", handlers) else Pass;
    var initial := BaseTransport(p, map[], ConnectTimeout, ReadTimeout, [], Retry(0, 0));
    var initial :- SetConnectionTimeout(initial, connectionTimeout);
    var initial :- SetReadTimeout(initial, readTimeout);
    Success(if handlersGiven then initial.(handlers := handlers.value) else initial)
  }

  function SetHeaders(c: BaseTransport, headers: Option<map<string, string>>): (r: Result<BaseTransport, Thrown>)
    ensures r.Success? <==> headers.Some?
    ensures r.Failure? ==> r.error == IllegalArgument(ArgValidator.NullMessage("headers"))
    ensures r.Success? ==> r.value == c.(headers := headers.value)
  {
    var h :- ArgValidator.NonNull("headers", headers);
    Success(c.(headers := h))
  }

  /** `setHeader(key, value)`: neither may be null; sets that one header. */
  function SetHeader(c: BaseTransport, key: Option<string>, value: Option<string>): (r: Result<BaseTransport, Thrown>)
    ensures key.None? ==> r == Failure(IllegalArgument(ArgValidator.NullMessage("key")))
    ensures key.Some? && value.None? ==> r == Failure(IllegalArgument(ArgValidator.NullMessage("value")))
    ensures r.Success? <==> key.Some? && value.Some?
    ensures r.Success? ==> key.value in r.value.headers && r.value.headers[key.value] == value.value &&
                           (forall k :: k != key.value ==> (k in r.value.headers <==> k in c.headers)) &&
                           (forall k :: k in c.headers && k != key.value ==> r.value.headers[k] == c.headers[k]) &&
                           r.value == c.(headers := r.value.headers)
  {
    var k :- ArgValidator.NonNull("key", key);
    var v :- ArgValidator.NonNull("value", value);
    Success(c.(headers := c.headers[k := v]))
  }

  function AddResponseHandler(c: BaseTransport, handler: Option<nat>): (r: Result<BaseTransport, Thrown>)
    ensures r.Success? <==> handler.Some?
    ensures r.Failure? ==> r.error == IllegalArgument(ArgValidator.NullMessage("handler"))
    ensures r.Success? ==> |r.value.handlers| == |c.handlers| + 1 &&
                           r.value.handlers[..|c.handlers|] == c.handlers && r.value.handlers[|c.handlers|] == handler.value &&
                           r.value == c.(handlers := r.value.handlers)
  {
    var h :- ArgValidator.NonNull("handler", handler);
    Success(c.(handlers := c.handlers + [h]))
  }

  function AddResponseHandlers(c: BaseTransport, handlers: Option<seq<nat>>): (r: Result<BaseTransport, Thrown>)
    ensures r.Success? <==> handlers.Some?
    ensures r.Failure? ==> r.error == IllegalArgument(ArgValidator.NullMessage("handlers"))
    ensures r.Success? ==> |r.value.handlers| == |c.handlers| + |handlers.value| &&
                           r.value.handlers[..|c.handlers|] == c.handlers && r.value.handlers[|c.handlers|..] == handlers.value &&
                           r.value == c.(handlers := r.value.handlers)
  {
    var hs :- ArgValidator.NonNull("handlers", handlers);
    Success(c.(handlers := c.handlers + hs))
  }

  /** `setMaxRetries`: a new policy with the given count and the current delay. */
  function SetMaxRetries(c: BaseTransport, maxRetries: Int32): (r: Result<BaseTransport, Thrown>)
    ensures r.Success? <==> maxRetries >= 0
    ensures r.Failure? ==> r.error == IllegalArgument(MaxRetriesMessage)
    ensures r.Success? ==> r.value == c.(retry := Retry(maxRetries, c.retry.retryDelay))
  {
    var retry :- NewRetry(maxRetries, c.retry.retryDelay);
    Success(c.(retry := retry))
  }

  /** `setRetryDelay`: a new policy with the current count and the given delay. */
  function SetRetryDelay(c: BaseTransport, retryDelay: int): (r: Result<BaseTransport, Thrown>)
    ensures r.Success? <==> retryDelay >= 0
    ensures r.Failure? ==> r.error == IllegalArgument(RetryDelayMessage)
    ensures r.Success? ==> r.value == c.(retry := Retry(c.retry.maxRetries, retryDelay))
  {
    var retry :- NewRetry(c.retry.maxRetries, retryDelay);
    Success(c.(retry := retry))
  }

  /** Each retry setter replaces its own field and keeps the other, so the two commute. */
  lemma RetrySettersCommute(c: BaseTransport, maxRetries: Count32, retryDelay: nat)
    ensures SetMaxRetries(c, maxRetries).Success? && SetRetryDelay(c, retryDelay).Success?
    ensures SetRetryDelay(SetMaxRetries(c, maxRetries).value, retryDelay)
         == SetMaxRetries(SetRetryDelay(c, retryDelay).value, maxRetries)
    ensures SetRetryDelay(SetMaxRetries(c, maxRetries).value, retryDelay).value.retry == Retry(maxRetries, retryDelay)
  {
  }

  /** What the response handlers are told about the remote end of a call. */
  datatype ServiceConnection = ServiceConnection(
    serviceName: Option<string>,
    methodName: Option<string>,
    host: Option<string>,
    port: Option<int>)

  // ---------------------------------------------------------------------------
  // The call engine

  /** What one `callEndPoint` does: it throws, or it returns normally having set the
      response body, the status and (HTTP, non-200 only) the status message. */
  datatype AttemptOutcome =
    | Raised(error: Thrown)
    | Responded(code: int, body: Option<string>, message: Option<string>)

  /** The response-handler notifications, in the order they happen. */
  datatype ClientEvent =
    | NotifiedSuccess(handler: nat, response: Option<string>)
    | NotifiedFailure(handler: nat, response: Option<string>, responseCode: Option<int>, error: Thrown)

  /** The result of `callService` (the response body or what it throws), the number of
      attempts made, and the handler notifications. */
  datatype CallResult = CallResult(outcome: Result<Option<string>, Thrown>, attempts: nat, events: seq<ClientEvent>)

  /** An attempt that `handleIOException` retries when attempts remain: a read/connect
      timeout or a refused connection. */
  predicate Retryable(o: AttemptOutcome) {
    o.Raised? && IsIOException(o.error) && IsTransient(o.error)
  }

  /** `handleFailureResponse(e)`: `onFailure` on each handler, in order. */
  function FailureNotices(handlers: seq<nat>, response: Option<string>, responseCode: Option<int>, e: Thrown)
    : (events: seq<ClientEvent>)
    ensures |events| == |handlers|
    ensures forall i :: 0 <= i < |handlers| ==> events[i] == NotifiedFailure(handlers[i], response, responseCode, e)
  {
    seq(|handlers|, i requires 0 <= i < |handlers| => NotifiedFailure(handlers[i], response, responseCode, e))
  }

  /** `handleSuccessResponse()`: `onSuccess` on each handler, in order. */
  function SuccessNotices(handlers: seq<nat>, response: Option<string>): (events: seq<ClientEvent>)
    ensures |events| == |handlers|
    ensures forall i :: 0 <= i < |handlers| ==> events[i] == NotifiedSuccess(handlers[i], response)
  {
    seq(|handlers|, i requires 0 <= i < |handlers| => NotifiedSuccess(handlers[i], response))
  }

  /** Each of the first `n` attempts threw. */
  predicate RaisedUpTo(attempt: nat -> AttemptOutcome, n: nat) {
    forall k :: 1 <= k <= n ==> attempt(k).Raised?
  }

  /** The notifications of the first `n` attempts when each of them was retried. */
  function Rounds(handlers: seq<nat>, attempt: nat -> AttemptOutcome, n: nat): seq<ClientEvent>
    requires RaisedUpTo(attempt, n)
  {
    if n == 0 then [] else Rounds(handlers, attempt, n - 1) + FailureNotices(handlers, None, None, attempt(n).error)
  }

  /** Later retries only append: the notifications of the first `k` attempts are a
      prefix of those of the first `n`. */
  lemma {:induction false} RoundsPrefix(handlers: seq<nat>, attempt: nat -> AttemptOutcome, k: nat, n: nat)
    requires k <= n && RaisedUpTo(attempt, n)
    ensures |Rounds(handlers, attempt, k)| <= |Rounds(handlers, attempt, n)|
    ensures Rounds(handlers, attempt, n)[..|Rounds(handlers, attempt, k)|] == Rounds(handlers, attempt, k)
    decreases n - k
  {
    if k < n {
      RoundsPrefix(handlers, attempt, k, n - 1);
      var shorter := Rounds(handlers, attempt, n - 1);
      assert Rounds(handlers, attempt, n)[..|shorter|] == shorter;
    }
  }

  lemma {:induction false} RoundsLength(handlers: seq<nat>, attempt: nat -> AttemptOutcome, n: nat)
    requires RaisedUpTo(attempt, n)
    ensures |Rounds(handlers, attempt, n)| == n * |handlers|
    decreases n
  {
    if n > 0 {
      RoundsLength(handlers, attempt, n - 1);
      assert n * |handlers| == (n - 1) * |handlers| + |handlers|;
    }
  }

  /** The two `catch` clauses around the call: a Babel exception is passed to the
      failure handlers and rethrown as it is; any other `Exception` is passed to them
      and rethrown inside a `RuntimeException`; anything else (an `Error`) leaves
      without a notification. */
  function Escape(handlers: seq<nat>, response: Option<string>, responseCode: Option<int>, e: Thrown)
    : (r: (Result<Option<string>, Thrown>, seq<ClientEvent>))
    ensures !IsException(e) && !IsBabel(e) ==> r == (Failure(e), [])
    ensures IsBabel(e) ==> r == (Failure(e), FailureNotices(handlers, response, responseCode, e))
    ensures IsException(e) && !IsBabel(e) ==>
              r.0.Failure? && r.0.error == Wrap(e).value && r.1 == FailureNotices(handlers, response, responseCode, e)
  {
    if IsBabel(e) then (Failure(e), FailureNotices(handlers, response, responseCode, e))
    else if IsException(e) then (Failure(Wrap(e).value), FailureNotices(handlers, response, responseCode, e))
    else (Failure(e), [])
  }

  function UnexpectedStatusMessage(code: int, message: Option<string>): string {
    "Error making service call " + IntToString(code) + (if message.Some? then ":" + message.value else "")
  }

  /** What a non-200 status throws: a Babel exception (an application one for 409)
      adopting the decoded service error for 500 and 409, whatever the decoder
      throws when it fails, and otherwise a `RuntimeException` naming the status. */
  function StatusFailure(protocol: Protocol, code: int, response: Option<string>, message: Option<string>): (e: Thrown)
    requires code != StatusOk
    ensures code == StatusInternalError || code == StatusConflict ==>
              var decoded := protocol.readError(response);
              (decoded.DecodeThrew? ==> e == decoded.error) &&
              (decoded.Decoded? ==> e == FromServiceError(code == StatusConflict, Some(decoded.value))) &&
              (decoded.DecodedNull? ==> e == FromServiceError(code == StatusConflict, None))
    ensures code != StatusInternalError && code != StatusConflict ==> e == RuntimeError(UnexpectedStatusMessage(code, message))
  {
    if code == StatusInternalError || code == StatusConflict then
      match protocol.readError(response)
      case DecodeThrew(thrown) => thrown
      case Decoded(se) => FromServiceError(code == StatusConflict, Some(se))
      case DecodedNull => FromServiceError(code == StatusConflict, None)
    else RuntimeError(UnexpectedStatusMessage(code, message))
  }

  /** What happens after the attempt loop when an attempt returned normally: a 200
      notifies success and returns the body; any other status fails. */
  function Settle(handlers: seq<nat>, protocol: Protocol, code: int, response: Option<string>, message: Option<string>)
    : (r: (Result<Option<string>, Thrown>, seq<ClientEvent>))
    ensures r.0.Success? <==> code == StatusOk
    ensures code == StatusOk ==> r == (Success(response), SuccessNotices(handlers, response))
    ensures code != StatusOk ==> r == Escape(handlers, response, Some(code), StatusFailure(protocol, code, response, message))
  {
    if code == StatusOk then (Success(response), SuccessNotices(handlers, response))
    else
      var e := StatusFailure(protocol, code, response, message);
      assert Escape(handlers, response, Some(code), e).0.Failure?;
      Escape(handlers, response, Some(code), e)
  }

  /** The loop of `callService` with the attempt guard `attempts < bound`. The source
      computes the bound as `maxRetries + 1`; the two entry points below differ only
      in how that sum is evaluated. */
  method CallServiceWith(handlers: seq<nat>, protocol: Protocol, attempt: nat -> AttemptOutcome, bound: int)
    returns (r: CallResult)
    ensures bound <= 0 ==> r.attempts == 0 && (r.outcome, r.events) == Escape(handlers, None, None, NullPointer())
    ensures bound > 0 ==> 1 <= r.attempts <= bound
    ensures forall k :: 1 <= k < r.attempts ==> Retryable(attempt(k))
    ensures 1 <= r.attempts < bound ==> !Retryable(attempt(r.attempts))
    ensures r.attempts >= 1 ==> RaisedUpTo(attempt, r.attempts - 1)
    ensures r.attempts >= 1 ==>
              var last := attempt(r.attempts);
              var retried := Rounds(handlers, attempt, r.attempts - 1);
              (last.Raised? ==> r.outcome == Escape(handlers, None, None, last.error).0 &&
                                r.events == retried + Escape(handlers, None, None, last.error).1) &&
              (last.Responded? ==> r.outcome == Settle(handlers, protocol, last.code, last.body, last.message).0 &&
                                   r.events == retried + Settle(handlers, protocol, last.code, last.body, last.message).1)
  {
    var attempts: nat := 0;
    var finished := false;
    var escaped: Option<Thrown> := None;
    var events: seq<ClientEvent> := [];
    while !finished && attempts < bound && escaped.None?
      invariant bound > 0 ==> attempts <= bound
      invariant bound <= 0 ==> attempts == 0
      invariant forall k :: 1 <= k < attempts ==> Retryable(attempt(k))
      invariant !finished && escaped.None? ==> forall k :: 1 <= k <= attempts ==> Retryable(attempt(k))
      invariant !finished && escaped.None? ==> events == Rounds(handlers, attempt, attempts)
      invariant !finished && escaped.None? && bound > 0 ==> attempts < bound
      invariant finished ==> attempts >= 1 && escaped.None? && attempt(attempts).Responded?
      invariant escaped.Some? ==> attempts >= 1 && attempt(attempts) == Raised(escaped.value)
      invariant escaped.Some? && attempts < bound ==> !Retryable(attempt(attempts))
      invariant finished || escaped.Some? ==> events == Rounds(handlers, attempt, attempts - 1)
      decreases bound - attempts
    {
      attempts := attempts + 1;
      match attempt(attempts)
      case Responded(_, _, _) =>
        finished := true;
      case Raised(e) =>
        if IsIOException(e) && IsTransient(e) && attempts != bound {
          events := events + FailureNotices(handlers, None, None, e);
        } else {
          escaped := Some(e);
        }
    }
    if escaped.Some? {
      var (outcome, notices) := Escape(handlers, None, None, escaped.value);
      r := CallResult(outcome, attempts, events + notices);
    } else if !finished {
      // No attempt was made: unboxing the null response code throws.
      var (outcome, notices) := Escape(handlers, None, None, NullPointer());
      assert events + notices == notices;
      r := CallResult(outcome, attempts, events + notices);
    } else {
      var last := attempt(attempts);
      var (outcome, notices) := Settle(handlers, protocol, last.code, last.body, last.message);
      r := CallResult(outcome, attempts, events + notices);
    }
  }

  /** The attempt guard as the source evaluates it: `maxRetries + 1` in 32-bit arithmetic. */
  predicate ShouldAttemptAsWritten(finished: bool, attempts: Int32, maxRetries: Count32) {
    !finished && attempts < AddInt32(maxRetries, 1)
  }

  /** The attempt guard with the sum evaluated exactly. */
  predicate ShouldAttempt(finished: bool, attempts: int, maxRetries: Count32) {
    !finished && attempts < maxRetries + 1
  }

  /** The two guards agree except at `maxRetries == Integer.MAX_VALUE`, where the
      32-bit sum wraps to `Integer.MIN_VALUE` and not even the first attempt is allowed. */
  lemma AttemptGuardWraps(attempts: Count32, maxRetries: Count32)
    ensures maxRetries < MaxInt32 ==> (ShouldAttemptAsWritten(false, attempts, maxRetries) <==> ShouldAttempt(false, attempts, maxRetries))
    ensures maxRetries == MaxInt32 ==> !ShouldAttemptAsWritten(false, attempts, maxRetries) && ShouldAttempt(false, 0, maxRetries)
  {
  }

  /** `callService` as written: with `maxRetries == Integer.MAX_VALUE` no attempt is made,
      the null response code is unboxed, and the caller gets the resulting
      `NullPointerException` inside a `RuntimeException`. */
  method CallServiceAsWritten(c: BaseTransport, attempt: nat -> AttemptOutcome) returns (r: CallResult)
    ensures c.retry.maxRetries < MaxInt32 ==> 1 <= r.attempts <= c.retry.maxRetries + 1
    ensures c.retry.maxRetries == MaxInt32 ==>
              r == CallResult(Failure(Wrap(NullPointer()).value), 0, FailureNotices(c.handlers, None, None, NullPointer()))
  {
    r := CallServiceWith(c.handlers, c.protocol, attempt, AddInt32(c.retry.maxRetries, 1));
  }

  /** `callService` with the attempt bound `maxRetries + 1` computed exactly. At least
      one attempt is made and at most `maxRetries + 1`; only timeouts and refused
      connections are retried, and only while attempts remain; the call succeeds
      exactly when the last attempt got a 200, which notifies every handler once. */
  method CallService(c: BaseTransport, attempt: nat -> AttemptOutcome) returns (r: CallResult)
    ensures 1 <= r.attempts <= c.retry.maxRetries + 1
    ensures forall k :: 1 <= k < r.attempts ==> Retryable(attempt(k))
    ensures r.attempts <= c.retry.maxRetries ==> !Retryable(attempt(r.attempts))
    ensures RaisedUpTo(attempt, r.attempts - 1)
    ensures r.outcome.Success? <==> attempt(r.attempts).Responded? && attempt(r.attempts).code == StatusOk
    ensures r.outcome.Success? ==>
              r.outcome.value == attempt(r.attempts).body &&
              r.events == Rounds(c.handlers, attempt, r.attempts - 1) + SuccessNotices(c.handlers, attempt(r.attempts).body)
    ensures attempt(r.attempts).Responded? && attempt(r.attempts).code != StatusOk ==>
              var last := attempt(r.attempts);
              var e := StatusFailure(c.protocol, last.code, last.body, last.message);
              r.outcome == Escape(c.handlers, last.body, Some(last.code), e).0 &&
              r.events == Rounds(c.handlers, attempt, r.attempts - 1) + Escape(c.handlers, last.body, Some(last.code), e).1
    ensures attempt(r.attempts).Responded? && attempt(r.attempts).code in {StatusInternalError, StatusConflict} &&
            c.protocol.readError(attempt(r.attempts).body).Decoded? ==>
              var last := attempt(r.attempts);
              var e := FromServiceError(last.code == StatusConflict, Some(c.protocol.readError(last.body).value));
              r.outcome == Failure(e) &&
              r.events == Rounds(c.handlers, attempt, r.attempts - 1) + FailureNotices(c.handlers, last.body, Some(last.code), e)
    ensures attempt(r.attempts).Responded? && attempt(r.attempts).code !in {StatusOk, StatusInternalError, StatusConflict} ==>
              var last := attempt(r.attempts);
              var e := RuntimeError(UnexpectedStatusMessage(last.code, last.message));
              r.outcome == Failure(Wrap(e).value) &&
              r.events == Rounds(c.handlers, attempt, r.attempts - 1) + FailureNotices(c.handlers, last.body, Some(last.code), e)
    ensures attempt(r.attempts).Raised? ==>
              r.outcome == Escape(c.handlers, None, None, attempt(r.attempts).error).0 &&
              r.events == Rounds(c.handlers, attempt, r.attempts - 1) + Escape(c.handlers, None, None, attempt(r.attempts).error).1
  {
    r := CallServiceWith(c.handlers, c.protocol, attempt, c.retry.maxRetries + 1);
  }

  /** Every attempt up to `n` times out (`SocketTimeoutException`) or is refused (`ConnectException`). */
  predicate AlwaysTransient(attempt: nat -> AttemptOutcome, n: nat) {
    forall k :: 1 <= k <= n ==>
      attempt(k).Raised? && (attempt(k).error.lineage == SocketTimeoutLineage || attempt(k).error.lineage == ConnectLineage)
  }

  /** Under permanent transient failure exactly `maxRetries + 1` attempts are made, every
      handler is told about each of them, and the last failure surfaces inside a
      `RuntimeException`. */
  method CallServiceUnderOutage(c: BaseTransport, attempt: nat -> AttemptOutcome) returns (r: CallResult)
    requires AlwaysTransient(attempt, c.retry.maxRetries + 1)
    ensures r.attempts == c.retry.maxRetries + 1
    ensures r.outcome == Failure(Wrap(attempt(r.attempts).error).value)
    ensures r.events == Rounds(c.handlers, attempt, r.attempts)
    ensures |r.events| == r.attempts * |c.handlers|
  {
    forall k | 1 <= k <= c.retry.maxRetries + 1
      ensures Retryable(attempt(k)) && IsException(attempt(k).error) && !IsBabel(attempt(k).error)
    {
      TransientFailuresAreIOExceptions(attempt(k).error);
    }
    r := CallService(c, attempt);
    RoundsLength(c.handlers, attempt, r.attempts);
  }

  /** `invoke(ResponseServiceMethod)`: call the service, then decode the body as the
      method's return type. A decoding failure propagates as it is. */
  method Invoke(c: BaseTransport, returnType: DescriptorType, attempt: nat -> AttemptOutcome)
    returns (value: Result<Option<Value>, Thrown>, call: CallResult)
    ensures call.outcome.Failure? ==> value == Failure(call.outcome.error)
    ensures call.outcome.Success? ==>
              var decoded := c.protocol.readValue(call.outcome.value, returnType);
              (decoded.Decoded? ==> value == Success(Some(decoded.value))) &&
              (decoded.DecodedNull? ==> value == Success(None)) &&
              (decoded.DecodeThrew? ==> value == Failure(decoded.error))
    ensures value.Success? ==> attempt(call.attempts).Responded? && attempt(call.attempts).code == StatusOk
  {
    call := CallService(c, attempt);
    if call.outcome.Failure? {
      return Failure(call.outcome.error), call;
    }
    match c.protocol.readValue(call.outcome.value, returnType)
    case Decoded(v) => value := Success(Some(v));
    case DecodedNull => value := Success(None);
    case DecodeThrew(e) => value := Failure(e);
  }
}

=== FILE: dispatcher.dfy ===
/** `ServiceRequestDispatcher`: the registry of services and exception builders,
    and `dispatch`, which routes one request and turns every failure into an
    error response. Call handlers are identified by number; what they are told
    is returned as a list of events. */
module Dispatch {
  import opened Wrappers
  import opened Text
  import opened Throwables
  import opened Babel
  import opened Protocols
  import opened ServerBase
  import opened ServerTransports
  import opened Invokers
  import opened ExceptionBuilders
  import ArgValidator

  datatype Dispatcher = Dispatcher(
    services: map<string, Invoker>,
    servicesByInterface: map<string, Invoker>,
    filterStackTraces: bool,
    builders: map<ClassName, ExceptionBuilder>,
    callHandlers: seq<nat>,
    defaultBuilder: ExceptionBuilder)

  /** What a call handler is told: `onSuccess` or `onFailure` with the status value sent. */
  datatype ServerEvent =
    | Succeeded(handler: nat, duration: int)
    | Failed(handler: nat, duration: int, statusCode: int, exception: Thrown)

  const DefaultBuilder: ExceptionBuilder :=
    Generic(GenericExceptionBuilder("9999", Some("Unexpected Exception Occurred"), None, false))

  /** A new dispatcher: nothing registered, stack traces kept, the "9999" default builder. */
  const NewDispatcher: Dispatcher := Dispatcher(map[], map[], false, map[], [], DefaultBuilder)

  /** `register`: the processor must be non-null; it is found by its service name
      lower-cased and by its interface name. A later registration replaces an earlier one. */
  function Register(d: Dispatcher, processor: Option<Invoker>): (r: Result<Dispatcher, Thrown>)
    ensures r.Failure? <==> processor.None?
    ensures r.Failure? ==> r.error == IllegalArgument(ArgValidator.NullMessage("processor"))
    ensures r.Success? ==>
              var p := processor.value;
              r.value.services == d.services[ToLower(p.serviceName) := p] &&
              r.value.servicesByInterface == d.servicesByInterface[p.interfaceName := p] &&
              r.value == d.(services := r.value.services, servicesByInterface := r.value.servicesByInterface)
  {
    var p :- ArgValidator.NonNull("processor", processor);
    Success(d.(services := d.services[ToLower(p.serviceName) := p],
               servicesByInterface := d.servicesByInterface[p.interfaceName := p]))
  }

  /** A registered service is found under every spelling of its name that differs only in case. */
  lemma RegisteredServiceResolves(d: Dispatcher, p: Invoker, name: string)
    requires EqualsIgnoreCase(name, p.serviceName)
    ensures var r := Register(d, Some(p)).value;
            ToLower(name) in r.services && r.services[ToLower(name)] == p
  {
    EqualsIgnoreCaseIsLowerEquality(name, p.serviceName);
  }

  /** `getService`: the implementation registered for an interface, or null. */
  function GetService(d: Dispatcher, interfaceName: string): (s: Option<ServiceImpl>)
    ensures s.Some? <==> interfaceName in d.servicesByInterface
    ensures s.Some? ==> s.value == d.servicesByInterface[interfaceName].impl
  {
    if interfaceName in d.servicesByInterface then Some(d.servicesByInterface[interfaceName].impl) else None
  }

  /** `setDefaultExceptionBuilder`: the builder must be non-null. */
  function SetDefaultExceptionBuilder(d: Dispatcher, builder: Option<ExceptionBuilder>): (r: Result<Dispatcher, Thrown>)
    ensures r.Failure? <==> builder.None?
    ensures r.Failure? ==> r.error == IllegalArgument(ArgValidator.NullMessage("builder"))
    ensures r.Success? ==> r.value == d.(defaultBuilder := builder.value)
  {
    var b :- ArgValidator.NonNull("builder", builder);
    Success(d.(defaultBuilder := b))
  }

  /** `registerExceptionBuilder`: class, then builder, must be non-null. */
  function RegisterExceptionBuilder(d: Dispatcher, exceptionClass: Option<ClassName>, builder: Option<ExceptionBuilder>)
    : (r: Result<Dispatcher, Thrown>)
    ensures exceptionClass.None? ==> r == Failure(IllegalArgument(ArgValidator.NullMessage("exceptionClass")))
    ensures exceptionClass.Some? && builder.None? ==> r == Failure(IllegalArgument(ArgValidator.NullMessage("builder")))
    ensures exceptionClass.Some? && builder.Some? ==>
              r == Success(d.(builders := d.builders[exceptionClass.value := builder.value]))
  {
    var k :- ArgValidator.NonNull("exceptionClass", exceptionClass);
    var b :- ArgValidator.NonNull("builder", builder);
    Success(d.(builders := d.builders[k := b]))
  }

  function SetFilterStackTraces(d: Dispatcher, filter: bool): (r: Dispatcher)
    ensures r.filterStackTraces == filter && r.(filterStackTraces := d.filterStackTraces) == d
  {
    d.(filterStackTraces := filter)
  }

  /** `addCallHandler`: handlers are told of outcomes in the order they were added. */
  function AddCallHandler(d: Dispatcher, handler: nat): (r: Dispatcher)
    ensures r.callHandlers == d.callHandlers + [handler] && r.(callHandlers := d.callHandlers) == d
  {
    d.(callHandlers := d.callHandlers + [handler])
  }

  /** The position of the nearest class in the lineage (the class itself first) that has a builder. */
  function NearestRegistered(builders: map<ClassName, ExceptionBuilder>, lineage: seq<ClassName>): (r: Option<nat>)
    ensures r.Some? ==> r.value < |lineage| && lineage[r.value] in builders &&
                        forall j :: 0 <= j < r.value ==> lineage[j] !in builders
    ensures r.None? ==> forall j :: 0 <= j < |lineage| ==> lineage[j] !in builders
    decreases |lineage|
  {
    if lineage == [] then None
    else if lineage[0] in builders then Some(0)
    else
      var rest := NearestRegistered(builders, lineage[1..]);
      if rest.None? then None else Some(rest.value + 1)
  }

  /** The builder `findExceptionBuilder` picks, stated on the lineage. */
  function BuilderFor(d: Dispatcher, lineage: Lineage): ExceptionBuilder {
    var i := NearestRegistered(d.builders, lineage);
    if i.Some? then d.builders[lineage[i.value]] else d.defaultBuilder
  }

  /** `findExceptionBuilder`: the builder registered for the class itself, else for the
      nearest superclass, else the default. The loop's guard
      `parentClass != Object.class || parentClass != Throwable.class` always holds, so
      the walk only stops when the superclass is null and `Throwable` and `Object`
      are looked up too. */
  method FindExceptionBuilder(d: Dispatcher, lineage: Lineage) returns (b: ExceptionBuilder)
    ensures b == BuilderFor(d, lineage)
    ensures (forall j :: 0 <= j < |lineage| ==> lineage[j] !in d.builders) ==> b == d.defaultBuilder
    ensures (exists j :: 0 <= j < |lineage| && lineage[j] in d.builders) ==> b in d.builders.Values
  {
    if lineage[0] in d.builders {
      return d.builders[lineage[0]];
    }
    var i := 1;
    while i < |lineage|
      invariant 1 <= i <= |lineage|
      invariant forall j :: 0 <= j < i ==> lineage[j] !in d.builders
    {
      if lineage[i] in d.builders {
        return d.builders[lineage[i]];
      }
      i := i + 1;
    }
    return d.defaultBuilder;
  }

  /** The builder registered for a class is used for it, whatever its superclasses have. */
  lemma ExactClassWins(d: Dispatcher, lineage: Lineage, builder: ExceptionBuilder)
    ensures BuilderFor(RegisterExceptionBuilder(d, Some(lineage[0]), Some(builder)).value, lineage) == builder
  {
  }

  /** A builder registered for `Throwable` handles every exception no nearer class has one for. */
  lemma ThrowableBuilderCatchesAll(d: Dispatcher, lineage: Lineage, builder: ExceptionBuilder)
    requires ThrowableClass in lineage
    requires forall j :: 0 <= j < |lineage| && lineage[j] != ThrowableClass ==> lineage[j] !in d.builders
    ensures BuilderFor(RegisterExceptionBuilder(d, Some(ThrowableClass), Some(builder)).value, lineage) == builder
  {
    var r := RegisterExceptionBuilder(d, Some(ThrowableClass), Some(builder)).value;
    var i := NearestRegistered(r.builders, lineage);
    var k :| 0 <= k < |lineage| && lineage[k] == ThrowableClass;
    assert lineage[k] in r.builders;
    assert i.Some?;
  }

  /** `onFailure` for each handler, in order. */
  function FailureEvents(handlers: seq<nat>, duration: int, statusCode: int, exception: Thrown): (events: seq<ServerEvent>)
    ensures |events| == |handlers|
    ensures forall i :: 0 <= i < |handlers| ==> events[i] == Failed(handlers[i], duration, statusCode, exception)
  {
    seq(|handlers|, i requires 0 <= i < |handlers| => Failed(handlers[i], duration, statusCode, exception))
  }

  /** `onSuccess` for each handler, in order. */
  function SuccessEvents(handlers: seq<nat>, duration: int): (events: seq<ServerEvent>)
    ensures |events| == |handlers|
    ensures forall i :: 0 <= i < |handlers| ==> events[i] == Succeeded(handlers[i], duration)
  {
    seq(|handlers|, i requires 0 <= i < |handlers| => Succeeded(handlers[i], duration))
  }

  /** The service error with the stack dumps of it and of its inner error removed. */
  function Filtered(se: Errors.ServiceError): (r: Errors.ServiceError)
    ensures r.details.None? && (r.inner.Some? <==> se.inner.Some?)
    ensures r.inner.Some? ==> r.inner.value.details.None? && r.inner.value == se.inner.value.(details := None)
    ensures r == se.(details := None, inner := r.inner)
  {
    se.(details := None, inner := if se.inner.Some? then Some(se.inner.value.(details := None)) else None)
  }

  /** What `sendErrorResponse` produced: the transport, whether it completed, the events,
      and the service error it wrote. */
  datatype ErrorResponse = ErrorResponse(transport: ServerTransport, outcome: Outcome<Thrown>, events: seq<ServerEvent>,
                                         sent: Option<Errors.ServiceError>)

  /** What `sendErrorResponse` produces, stated without the context loop: the outcome
      of the builder for the exception's class, written with 409 or 500, or the
      failure that stopped it before anything was written. */
  ghost function ErrorResponseOf(d: Dispatcher, exception: Thrown, t: ServerTransport, context: map<string, string>,
                                 duration: int, custom: CustomBuild, at: Capture): ErrorResponse
  {
    match Built(BuilderFor(d, exception.lineage), exception, context, custom, at)
    case Failure(x) => ErrorResponse(t, Fail(x), [], None)
    case Success(None) => ErrorResponse(t, Fail(NullPointer()), [], None)
    case Success(Some(b)) =>
      if d.filterStackTraces && b.serviceError.None? then ErrorResponse(t, Fail(NullPointer()), [], None)
      else
        var se := if d.filterStackTraces then Some(Filtered(b.serviceError.value)) else b.serviceError;
        var code := if IsApplication(b) then AppError else UnexpectedError;
        ErrorResponse(Write(t, code, if se.Some? then ErrorPayload(se.value) else NoPayload), Pass,
                      FailureEvents(d.callHandlers, duration, CodeValue(code), exception), se)
  }

  /** `sendErrorResponse`: build the Babel exception with the builder for the exception's
      class, optionally strip stack dumps, write its service error with 409 for an
      application exception and 500 otherwise, then tell every handler. A null request
      context counts as an empty one. A failure while building or filtering, and a
      builder that returns null, leave the transport unwritten and the handlers untold. */
  method SendErrorResponse(d: Dispatcher, exception: Thrown, t: ServerTransport, requestContext: Option<map<string, string>>,
                           keys: seq<string>, duration: int, custom: CustomBuild, at: Capture) returns (r: ErrorResponse)
    requires KeySetOrder(keys, requestContext.GetOr(map[]))
    ensures r == ErrorResponseOf(d, exception, t, requestContext.GetOr(map[]), duration, custom, at)
    ensures r.outcome.Fail? ==> r.transport == t && r.events == [] && r.sent.None?
    ensures r.outcome.Pass? ==>
              ResponseCode(r.transport).Some? && ResponseCode(r.transport).value != SuccessCode &&
              r.events == FailureEvents(d.callHandlers, duration, CodeValue(ResponseCode(r.transport).value), exception)
    ensures r.outcome.Pass? && d.filterStackTraces ==>
              r.sent.Some? && r.sent.value.details.None? && (r.sent.value.inner.Some? ==> r.sent.value.inner.value.details.None?)
    ensures var built := Built(BuilderFor(d, exception.lineage), exception, requestContext.GetOr(map[]), custom, at);
            (built.Failure? ==> r.outcome == Fail(built.error)) &&
            (built.Success? && built.value.None? ==> r.outcome == Fail(NullPointer())) &&
            (built.Success? && built.value.Some? ==>
               var b := built.value.value;
               (r.outcome.Fail? <==> d.filterStackTraces && b.serviceError.None?) &&
               (r.outcome.Fail? ==> r.outcome == Fail(NullPointer())) &&
               (r.outcome.Pass? ==>
                  var code := if IsApplication(b) then AppError else UnexpectedError;
                  r.sent == (if d.filterStackTraces then Some(Filtered(b.serviceError.value)) else b.serviceError) &&
                  r.transport == Write(t, code, if r.sent.Some? then ErrorPayload(r.sent.value) else NoPayload) &&
                  r.events == FailureEvents(d.callHandlers, duration, CodeValue(code), exception)))
    ensures var builder := BuilderFor(d, exception.lineage);
            builder.Generic? ==>
              (r.outcome.Fail? <==> !ChainRenders(exception)) &&
              (r.outcome.Pass? ==> (ResponseCode(r.transport) == Some(AppError) <==> builder.generic.isAppException))
    ensures var builder := BuilderFor(d, exception.lineage);
            builder.Custom? ==>
              var built := custom(builder.id, exception, requestContext.GetOr(map[]));
              (built.Failure? ==> r.outcome == Fail(built.error)) &&
              (built.Success? && built.value.None? ==> r.outcome == Fail(NullPointer())) &&
              (r.outcome.Pass? ==> (ResponseCode(r.transport) == Some(AppError) <==> IsApplication(built.value.value)))
  {
    var context := requestContext.GetOr(map[]);
    var builder := FindExceptionBuilder(d, exception.lineage);
    var built := BuildException(builder, exception, context, keys, custom, at);
    if built.Failure? {
      return ErrorResponse(t, Fail(built.error), [], None);
    }
    if built.value.None? {
      return ErrorResponse(t, Fail(NullPointer()), [], None);
    }
    var b := built.value.value;
    var se := b.serviceError;
    if d.filterStackTraces {
      if se.None? {
        return ErrorResponse(t, Fail(NullPointer()), [], None);
      }
      se := Some(Filtered(se.value));
    }
    var code := if IsApplication(b) then AppError else UnexpectedError;
    var u := Write(t, code, if se.Some? then ErrorPayload(se.value) else NoPayload);
    return ErrorResponse(u, Pass, FailureEvents(d.callHandlers, duration, CodeValue(code), exception), se);
  }

  function NoServiceMessage(serviceName: string): string {
    "Unable to find service with name: " + serviceName
  }

  /** What `throw new RuntimeException(t)` throws: the wrapper, or the exception that
      rendering `t` for the wrapper's message raised. */
  function Rethrown(e: Thrown): Thrown {
    match Wrap(e)
    case Success(w) => w
    case Failure(x) => x
  }

  /** The outcome of `dispatch`: true when the call succeeded, false when an error
      response was sent, or the exception that escaped. `handled` is the exception
      an error response was built for. */
  datatype DispatchResult = DispatchResult(transport: ServerTransport, result: Result<bool, Thrown>,
                                           events: seq<ServerEvent>, handled: Option<Thrown>)

  /** How `dispatch` ends once `e` was thrown in its try block with the transport at `u`:
      an `Exception` gets the error response `sendErrorResponse` builds for it and the
      call reports false, or the response's own failure escapes with nothing written;
      any other throwable escapes wrapped, with nothing written and no handler told. */
  ghost predicate EndsInCatch(r: DispatchResult, u: ServerTransport, e: Thrown, d: Dispatcher,
                              requestContext: Option<map<string, string>>, duration: int, custom: CustomBuild, at: Capture)
  {
    (IsException(e) ==>
       var response := ErrorResponseOf(d, e, u, requestContext.GetOr(map[]), duration, custom, at);
       r == DispatchResult(response.transport, if response.outcome.Pass? then Success(false) else Failure(response.outcome.error),
                           response.events, Some(e))) &&
    (!IsException(e) ==> r == DispatchResult(u, Failure(Rethrown(e)), [], None))
  }

  /** The catch blocks of `dispatch`, entered with `e` thrown and the transport at `u`. */
  method HandleThrown(d: Dispatcher, e: Thrown, u: ServerTransport, requestContext: Option<map<string, string>>,
                      keys: seq<string>, duration: int, custom: CustomBuild, at: Capture) returns (r: DispatchResult)
    requires KeySetOrder(keys, requestContext.GetOr(map[]))
    ensures EndsInCatch(r, u, e, d, requestContext, duration, custom, at)
    ensures r.result != Success(true)
    ensures r.result.Failure? ==> r.events == []
    ensures r.result == Success(false) ==>
              r.handled == Some(e) && IsException(e) &&
              ResponseCode(r.transport).Some? && ResponseCode(r.transport).value != SuccessCode &&
              r.events == FailureEvents(d.callHandlers, duration, CodeValue(ResponseCode(r.transport).value), e)
  {
    if IsException(e) {
      var response := SendErrorResponse(d, e, u, requestContext, keys, duration, custom, at);
      if response.outcome.Fail? {
        return DispatchResult(response.transport, Failure(response.outcome.error), [], Some(e));
      }
      return DispatchResult(response.transport, Success(false), response.events, Some(e));
    }
    return DispatchResult(u, Failure(Rethrown(e)), [], None);
  }

  /** `dispatch`: find the invoker by the lower-cased service name and invoke it; tell
      the handlers of success. Any `Exception` on the way becomes an error response;
      any other throwable escapes wrapped in a `RuntimeException`, with nothing written. */
  method DispatchCall(d: Dispatcher, t: ServerTransport, requestContext: Option<map<string, string>>, keys: seq<string>,
                      run: (nat, seq<Value>) -> RunOutcome, custom: CustomBuild, at: Capture, duration: int)
    returns (r: DispatchResult)
    requires KeySetOrder(keys, requestContext.GetOr(map[]))
    ensures r.result == Success(true) ==>
              ResponseCode(r.transport) == Some(SuccessCode) && r.events == SuccessEvents(d.callHandlers, duration) &&
              r.handled.None?
    ensures r.result == Success(false) ==>
              r.handled.Some? && IsException(r.handled.value) &&
              ResponseCode(r.transport).Some? && ResponseCode(r.transport).value != SuccessCode &&
              r.events == FailureEvents(d.callHandlers, duration, CodeValue(ResponseCode(r.transport).value), r.handled.value)
    ensures ServiceName(t).result.Success? && ServiceName(t).result.value.None? ==>
              r.handled == Some(NullPointer()) &&
              EndsInCatch(r, ServiceName(t).transport, NullPointer(), d, requestContext, duration, custom, at)
    ensures ServiceName(t).result.Success? && ServiceName(t).result.value.Some? &&
            ToLower(ServiceName(t).result.value.value) !in d.services ==>
              var e := RuntimeError(NoServiceMessage(ToLower(ServiceName(t).result.value.value)));
              r.handled == Some(e) && EndsInCatch(r, ServiceName(t).transport, e, d, requestContext, duration, custom, at)
    ensures r.result.Failure? && r.handled.None? ==> r.events == []
    ensures ServiceName(t).result.Failure? ==> EndsInCatch(r, ServiceName(t).transport, ServiceName(t).result.error, d, requestContext, duration, custom, at)
    ensures var named := ServiceName(t);
            named.result.Success? && named.result.value.Some? && ToLower(named.result.value.value) in d.services ==>
              var inv := Invoke(d.services[ToLower(named.result.value.value)], named.transport, run);
              (inv.outcome.Pass? ==>
                 r == DispatchResult(inv.transport, Success(true), SuccessEvents(d.callHandlers, duration), None)) &&
              (inv.outcome.Fail? ==> EndsInCatch(r, inv.transport, inv.outcome.error, d, requestContext, duration, custom, at))
  {
    var failure: Option<Thrown> := None;
    var named := ServiceName(t);
    var u := named.transport;
    if named.result.Failure? {
      failure := Some(named.result.error);
    } else if named.result.value.None? {
      failure := Some(NullPointer());
    } else {
      var key := ToLower(named.result.value.value);
      if key !in d.services {
        failure := Some(RuntimeError(NoServiceMessage(key)));
      } else {
        var invocation := Invoke(d.services[key], u, run);
        u := invocation.transport;
        if invocation.outcome.Fail? {
          failure := Some(invocation.outcome.error);
        }
      }
    }
    if failure.None? {
      return DispatchResult(u, Success(true), SuccessEvents(d.callHandlers, duration), None);
    }
    r := HandleThrown(d, failure.value, u, requestContext, keys, duration, custom, at);
  }
}

=== FILE: errors.dfy ===
/** The wire error records: `Error` (one code/message/params entry, generated from
    the service definition language) and `ServiceError` (the envelope an error
    response carries). Java's nullable fields are `Option`s. */
module Errors {
  import opened Wrappers
  import opened Text

  /** One error entry. A default-constructed entry has a null code and message
      and an empty (non-null) parameter list. */
  datatype Error = Error(code: Option<string>, message: Option<string>, params: Option<seq<string>>)

  /** The wire envelope. `ServiceError`'s own source is not part of this model;
      its fields are taken to start out null, which is what the null checks
      of `BabelException.addContext` and `addError` guard against. `time` is a
      clock reading in milliseconds. */
  datatype ServiceError = ServiceError(
    time: Option<int>,
    errors: Option<seq<Error>>,
    tags: Option<seq<string>>,
    context: Option<map<string, map<string, string>>>,
    details: Option<string>,
    inner: Option<ServiceError>)

  const EmptyServiceError: ServiceError := ServiceError(None, None, None, None, None, None)

  /** `new Error()`. */
  function DefaultError(): (e: Error)
    ensures e.code.None? && e.message.None?
    ensures e.params == Some([])
  {
    Error(None, None, Some([]))
  }

  function SetCode(e: Error, code: Option<string>): (r: Error)
    ensures r.code == code && r.message == e.message && r.params == e.params
  {
    e.(code := code)
  }

  function SetMessage(e: Error, message: Option<string>): (r: Error)
    ensures r.message == message && r.code == e.code && r.params == e.params
  {
    e.(message := message)
  }

  function SetParams(e: Error, params: Option<seq<string>>): (r: Error)
    ensures r.params == params && r.code == e.code && r.message == e.message
  {
    e.(params := params)
  }

  /** Setting the three fields of a default entry in any order gives the
      three-argument constructor's entry. */
  lemma SettersBuildConstructedError(code: Option<string>, message: Option<string>, params: Option<seq<string>>)
    ensures SetParams(SetCode(SetMessage(DefaultError(), message), code), params) == Error(code, message, params)
    ensures SetMessage(SetCode(SetParams(DefaultError(), params), code), message) == Error(code, message, params)
  {
  }

  /** `List.toString` of a possibly-null list of strings. */
  function ListText(xs: Option<seq<string>>): string {
    match xs
    case None => "null"
    case Some(items) => "[" + Join(items, ", ") + "]"
  }

  /** `Error.toString`. */
  function ErrorToString(e: Error): (s: string)
    ensures |s| > |"Error(code:"| && s[..|"Error(code:"|] == "Error(code:"
    ensures s[|s| - 1] == ')'
  {
    "Error(code:" + NullText(e.code) + ", message:" + NullText(e.message) + ", params:" + ListText(e.params) + ")"
  }

  /** The rendering of a default entry, as the generated class's `toString` prints it. */
  lemma DefaultErrorToString()
    ensures ErrorToString(DefaultError()) == "Error(code:null, message:null, params:[])"
  {
  }

  /** The rendering of a fully populated entry. */
  lemma PopulatedErrorToString()
    ensures ErrorToString(Error(Some("1"), Some("m"), Some(["a", "b"])))
         == "Error(code:1, message:m, params:[a, b])"
  {
    assert ListText(Some(["a", "b"])) == "[a, b]" by {
      assert ["a", "b"][1..] == ["b"];
      assert Join(["a", "b"], ", ") == "a, b";
    }
  }

  /** The longest prefix of `s` without a ','. */
  function UpToComma(s: string): (p: string)
    ensures |p| <= |s| && p == s[..|p|] && ',' !in p
    ensures |p| < |s| ==> s[|p|] == ','
  {
    if s == [] || s[0] == ',' then [] else [s[0]] + UpToComma(s[1..])
  }

  /** The prefix ends at the first ',' there is. */
  lemma UpToCommaAppend(a: string, b: string)
    requires ',' !in a && b != [] && b[0] == ','
    ensures UpToComma(a + b) == a
  {
    var p := UpToComma(a + b);
    assert p == (a + b)[..|a|];
  }

  /** Reads a rendering back into the texts of its code, message and params. The code
      and the message each run to the next ','; the params run to the closing ')'. */
  function ParseErrorText(s: string): Option<(string, string, string)> {
    if |s| < 11 || s[..11] != "Error(code:" then None
    else
      var afterTag := s[11..];
      var code := UpToComma(afterTag);
      var afterCode := afterTag[|code|..];
      if |afterCode| < 10 || afterCode[..10] != ", message:" then None
      else
        var afterLabel := afterCode[10..];
        var message := UpToComma(afterLabel);
        var afterMessage := afterLabel[|message|..];
        if |afterMessage| < 9 || afterMessage[..9] != ", params:" then None
        else
          var closing := afterMessage[9..];
          if closing == [] || closing[|closing| - 1] != ')' then None
          else Some((code, message, closing[..|closing| - 1]))
  }

  /** Concatenating seven pieces from the left is concatenating them from the right. */
  lemma Reassociate(a: string, b: string, c: string, d: string, f: string, g: string, h: string)
    ensures a + b + c + d + f + g + h == a + (b + (c + (d + (f + (g + h)))))
  {
  }

  /** A concatenation splits back into its two parts. */
  lemma SplitConcat(a: string, b: string)
    ensures (a + b)[..|a|] == a && (a + b)[|a|..] == b
  {
  }

  /** `Error.toString` is "Error(code:<c>, message:<m>, params:<p>)" with the code, the
      message and the parameter list printed as Java prints them: whenever neither the
      code nor the message contains a ',', the three texts read back from the rendering. */
  lemma {:induction false} ErrorToStringParses(e: Error)
    requires ',' !in NullText(e.code) && ',' !in NullText(e.message)
    ensures ParseErrorText(ErrorToString(e)) == Some((NullText(e.code), NullText(e.message), ListText(e.params)))
  {
    var c, m, p := NullText(e.code), NullText(e.message), ListText(e.params);
    var closing := p + ")";
    var afterMessage := ", params:" + closing;
    var afterLabel := m + afterMessage;
    var afterCode := ", message:" + afterLabel;
    var afterTag := c + afterCode;
    var s := "Error(code:" + afterTag;
    assert ErrorToString(e) == s by {
      Reassociate("Error(code:", c, ", message:", m, ", params:", p, ")");
    }
    SplitConcat("Error(code:", afterTag);
    UpToCommaAppend(c, afterCode);
    SplitConcat(c, afterCode);
    SplitConcat(", message:", afterLabel);
    UpToCommaAppend(m, afterMessage);
    SplitConcat(m, afterMessage);
    SplitConcat(", params:", closing);
    SplitConcat(p, ")");
  }

  /** Entries whose code and message contain no ',' render alike only when their code,
      message and parameter texts are alike. */
  lemma ErrorToStringInjective(e: Error, f: Error)
    requires ',' !in NullText(e.code) && ',' !in NullText(e.message)
    requires ',' !in NullText(f.code) && ',' !in NullText(f.message)
    requires ErrorToString(e) == ErrorToString(f)
    ensures NullText(e.code) == NullText(f.code) && NullText(e.message) == NullText(f.message)
    ensures ListText(e.params) == ListText(f.params)
  {
    ErrorToStringParses(e);
    ErrorToStringParses(f);
  }

  /** The line `BabelException.getMessage` renders for one entry: "ErrorCode: c - m"
      when the code is non-null, else just the message (a null message prints "null"). */
  function RenderError(e: Error): string {
    (if e.code.Some? then "ErrorCode: " + e.code.value + " - " else "") + NullText(e.message)
  }

  function RenderAll(errors: seq<Error>): (lines: seq<string>)
    ensures |lines| == |errors|
    ensures forall i :: 0 <= i < |errors| ==> lines[i] == RenderError(errors[i])
  {
    seq(|errors|, i requires 0 <= i < |errors| => RenderError(errors[i]))
  }

  /** The whole message: one rendered line per entry, "\n"-separated, no trailing newline. */
  function RenderMessage(errors: seq<Error>): string {
    Join(RenderAll(errors), "\n")
  }
}

=== FILE: exception_builder.dfy ===
/** Exception builders turn whatever a service threw into the Babel exception whose
    service error is sent back. `GenericExceptionBuilder` is modelled in full;
    any other `ExceptionBuilder` implementation is a parameter. */
module ExceptionBuilders {
  import opened Wrappers
  import opened Text
  import opened Errors
  import opened Throwables
  import opened Babel
  import ArgValidator

  datatype GenericExceptionBuilder = GenericExceptionBuilder(
    errorCode: string,
    message: Option<string>,
    tags: Option<seq<string>>,
    isAppException: bool)

  /** A builder is the generic one or a user implementation identified by `id`. */
  datatype ExceptionBuilder = Generic(generic: GenericExceptionBuilder) | Custom(id: nat)

  /** What a user implementation does: from its id, the exception and the request
      context, a Babel exception (`None` for a null return) or an exception of its own. */
  type CustomBuild = (nat, Thrown, map<string, string>) -> Result<Option<Thrown>, Thrown>

  /** The constructors: only the error code must be non-null. */
  function NewGenericExceptionBuilder(errorCode: Option<string>, message: Option<string>, tags: Option<seq<string>>,
                                      isAppException: bool): (r: Result<GenericExceptionBuilder, Thrown>)
    ensures r.Success? <==> errorCode.Some?
    ensures r.Failure? ==> r.error == IllegalArgument(ArgValidator.NullMessage("errorCode"))
    ensures r.Success? ==> r.value == GenericExceptionBuilder(errorCode.value, message, tags, isAppException)
  {
    var code :- ArgValidator.NonNull("errorCode", errorCode);
    Success(GenericExceptionBuilder(code, message, tags, isAppException))
  }

  /** `base` with every request-context entry `k -> v` put as `k -> {"value": v}`. */
  function WithRequestContext(base: map<string, map<string, string>>, context: map<string, string>)
    : map<string, map<string, string>>
  {
    map k | k in base.Keys + context.Keys :: if k in context then map["value" := context[k]] else base[k]
  }

  /** `createBabelException`: the configured message, or the exception's own message
      when none is configured; the exception becomes the cause. Reading the message of
      the exception, or printing it and its causes into the new exception's stack dump,
      throws at a Babel exception whose error list is null, so creation fails exactly
      when some exception of the chain cannot be rendered. */
  function CreateBabelException(g: GenericExceptionBuilder, exception: Thrown, at: Capture): (r: Result<Thrown, Thrown>)
    ensures r.Failure? <==> !ChainRenders(exception)
    ensures r.Failure? ==> r.error == NullPointer()
    ensures r.Success? ==>
              var message := if g.message.Some? then g.message else Message(exception).value;
              NewBabel(g.isAppException, message, Some(g.errorCode), None, Some(exception), at) == r
  {
    var message :- if g.message.Some? then Success(g.message) else Message(exception);
    NewBabel(g.isAppException, message, Some(g.errorCode), None, Some(exception), at)
  }

  /** The context map after `addContext(k, context[k])` for each key of `keys` in turn. */
  function PutContext(base: map<string, map<string, string>>, context: map<string, string>, keys: seq<string>)
    : map<string, map<string, string>>
    requires forall i :: 0 <= i < |keys| ==> keys[i] in context
    decreases |keys|
  {
    if keys == [] then base
    else
      var last := keys[|keys| - 1];
      PutContext(base, context, keys[..|keys| - 1])[last := map["value" := context[last]]]
  }

  /** Adding one more request-context entry is one more context update. */
  lemma WithRequestContextStep(base: map<string, map<string, string>>, done: map<string, string>, key: string, value: string)
    ensures WithRequestContext(base, done)[key := map["value" := value]] == WithRequestContext(base, done[key := value])
  {
  }

  /** Putting the entries one at a time, in any order, gives the reference map. */
  lemma {:induction false} PutContextIsWithRequestContext(base: map<string, map<string, string>>, context: map<string, string>,
                                                           keys: seq<string>)
    requires forall i :: 0 <= i < |keys| ==> keys[i] in context
    ensures PutContext(base, context, keys) == WithRequestContext(base, Restrict(context, keys))
    decreases |keys|
  {
    if keys == [] {
      assert Restrict(context, keys) == map[];
      assert WithRequestContext(base, map[]) == base;
    } else {
      var init := keys[..|keys| - 1];
      var last := keys[|keys| - 1];
      PutContextIsWithRequestContext(base, context, init);
      assert keys == init + [last];
      assert Restrict(context, keys) == Restrict(context, init)[last := context[last]];
      WithRequestContextStep(base, Restrict(context, init), last, context[last]);
    }
  }

  /** What one `addContext(name, value)` does to an exception with a service error. */
  lemma AddContextValueEffect(t: Thrown, name: string, value: string)
    requires HasServiceError(t)
    ensures AddContextValue(t, name, value)
         == Success(t.(serviceError := Some(t.serviceError.value.(
              context := Some(t.serviceError.value.context.GetOr(map[])[name := map["value" := value]])))))
  {
  }

  /** `addExceptionContext`: every request-context entry is added under its own key,
      in the map's enumeration order. The result does not depend on that order. */
  method AddExceptionContext(b: Thrown, context: map<string, string>, keys: seq<string>) returns (r: Thrown)
    requires HasServiceError(b)
    requires KeySetOrder(keys, context)
    ensures HasServiceError(r)
    ensures r == b.(serviceError := Some(b.serviceError.value.(context := r.serviceError.value.context)))
    ensures r.serviceError.value.context ==
              if context == map[] then b.serviceError.value.context
              else Some(WithRequestContext(b.serviceError.value.context.GetOr(map[]), context))
  {
    var se := b.serviceError.value;
    var base := se.context.GetOr(map[]);
    r := b;
    var i := 0;
    while i < |keys|
      invariant 0 <= i <= |keys|
      invariant r == b.(serviceError := Some(se.(context := if i == 0 then se.context else Some(PutContext(base, context, keys[..i])))))
    {
      AddContextValueEffect(r, keys[i], context[keys[i]]);
      assert keys[..i + 1][..i] == keys[..i];
      r := AddContextValue(r, keys[i], context[keys[i]]).value;
      i := i + 1;
    }
    assert keys[..|keys|] == keys;
    PutContextIsWithRequestContext(base, context, keys);
    RestrictToKeySet(context, keys);
  }

  /** `addTags`: appends the configured tags, when there are any, to the exception's tag list. */
  function AddTags(g: GenericExceptionBuilder, b: Thrown): (r: Result<Thrown, Thrown>)
    requires IsBabel(b)
    ensures g.tags.None? ==> r == Success(b)
    ensures g.tags.Some? ==> (r.Success? <==> HasServiceError(b) && b.serviceError.value.tags.Some?)
    ensures g.tags.Some? && r.Failure? ==> r.error == NullPointer()
    ensures g.tags.Some? && r.Success? ==>
              var se := b.serviceError.value;
              r.value == b.(serviceError := Some(se.(tags := Some(se.tags.value + g.tags.value))))
  {
    if g.tags.None? then Success(b)
    else if b.serviceError.None? || b.serviceError.value.tags.None? then Failure(NullPointer())
    else
      var se := b.serviceError.value;
      Success(b.(serviceError := Some(se.(tags := Some(se.tags.value + g.tags.value)))))
  }

  /** What the generic builder's `buildException` produces, stated without the context
      loop: the created exception with the whole request context put under its keys,
      then the configured tags appended. */
  function GenericBuilt(g: GenericExceptionBuilder, exception: Thrown, context: map<string, string>, at: Capture)
    : Result<Thrown, Thrown>
  {
    var created :- CreateBabelException(g, exception, at);
    var se := created.serviceError.value;
    var withContext := if context == map[] then created
                       else created.(serviceError := Some(se.(context := Some(WithRequestContext(map[], context)))));
    AddTags(g, withContext)
  }

  /** `buildException` of the generic builder: create, add the request context, add the tags. */
  method BuildGeneric(g: GenericExceptionBuilder, exception: Thrown, context: map<string, string>, keys: seq<string>,
                      at: Capture) returns (r: Result<Thrown, Thrown>)
    requires KeySetOrder(keys, context)
    ensures r == GenericBuilt(g, exception, context, at)
    ensures r.Failure? <==> !ChainRenders(exception)
    ensures r.Failure? ==> r.error == NullPointer()
    ensures r.Success? ==>
              var message := if g.message.Some? then g.message else Message(exception).value;
              var b := r.value;
              HasServiceError(b) && b.cause == Some(exception) && (IsApplication(b) <==> g.isAppException) &&
              var se := b.serviceError.value;
              se.errors == Some([Error(Some(g.errorCode), message, None)]) &&
              se.tags == Some(g.tags.GetOr([])) &&
              se.context == (if context == map[] then None else Some(WithRequestContext(map[], context))) &&
              se.time == Some(at.now) && se.details == Some(at.stack) && se.inner.None?
  {
    var created :- CreateBabelException(g, exception, at);
    var withContext := AddExceptionContext(created, context, keys);
    var tagged := AddTags(g, withContext);
    assert g.tags.Some? ==> [] + g.tags.value == g.tags.value;
    return tagged;
  }

  /** What any builder's `buildException` returns; a generic builder never returns null. */
  function Built(builder: ExceptionBuilder, exception: Thrown, context: map<string, string>, custom: CustomBuild,
                 at: Capture): Result<Option<Thrown>, Thrown>
  {
    match builder
    case Custom(id) => custom(id, exception, context)
    case Generic(g) => (var b :- GenericBuilt(g, exception, context, at); Success(Some(b)))
  }

  /** `buildException` of any builder. */
  method BuildException(builder: ExceptionBuilder, exception: Thrown, context: map<string, string>, keys: seq<string>,
                        custom: CustomBuild, at: Capture) returns (r: Result<Option<Thrown>, Thrown>)
    requires KeySetOrder(keys, context)
    ensures r == Built(builder, exception, context, custom, at)
    ensures builder.Custom? ==> r == custom(builder.id, exception, context)
    ensures builder.Generic? ==> (r.Success? <==> ChainRenders(exception))
    ensures builder.Generic? && r.Success? ==>
              r.value.Some? && HasServiceError(r.value.value) && r.value.value.cause == Some(exception) &&
              (IsApplication(r.value.value) <==> builder.generic.isAppException) &&
              r.value.value.serviceError.value.errors.Some? && |r.value.value.serviceError.value.errors.value| == 1 &&
              r.value.value.serviceError.value.errors.value[0].code == Some(builder.generic.errorCode)
  {
    match builder
    case Custom(id) => r := custom(id, exception, context);
    case Generic(g) =>
      var b := BuildGeneric(g, exception, context, keys, at);
      r := if b.Success? then Success(Some(b.value)) else Failure(b.error);
  }
}

=== FILE: http_client.dfy ===
/** `HttpTransport`: the client side of the HTTP binding. A call is a request to
    `<base url>/<service>/<method>` whose body is the serialised call; the reply
    body comes from the input stream for a 200 and from the error stream
    otherwise. The URL parser and the network are parameters. */
module HttpClient {
  import opened Wrappers
  import opened Text
  import opened Throwables
  import opened Protocols
  import opened ServerBase
  import opened Babel
  import opened ClientTransport
  import HttpServer
  import ArgValidator

  const ContentTypeHeader: string := "Content-Type"
  const HttpMethodPost: string := "POST"
  const DefaultContentType: string := "json"

  const MalformedUrlClass: ClassName := "java.net.MalformedURLException"
  const MalformedUrlLineage: Lineage := [MalformedUrlClass] + IOLineage

  datatype HttpTransport = HttpTransport(base: BaseTransport, url: string, contentType: Option<string>, httpMethod: Option<string>)

  /** `new URL(text)`: the port it names (-1 when it names none), or the message of the
      `MalformedURLException` it throws. */
  type UrlParser = string -> Result<int, string>

  /** The constructors: the base transport's protocol check, then a non-null URL, then
      the two timeouts. Content type "json" and method "POST" by default. */
  function NewHttpTransport(url: Option<string>, protocol: Option<Protocol>, connectionTimeout: Int32, readTimeout: Int32)
    : (r: Result<HttpTransport, Thrown>)
    ensures protocol.None? ==> r == Failure(IllegalArgument(ArgValidator.NullMessage("protocol")))
    ensures protocol.Some? && url.None? ==> r == Failure(IllegalArgument(ArgValidator.NullMessage("url")))
    ensures r.Success? <==> protocol.Some? && url.Some? && connectionTimeout >= 0 && readTimeout >= 0
    ensures r.Success? ==>
              r.value == HttpTransport(NewBaseTransport(protocol, connectionTimeout, readTimeout, None, false).value,
                                       url.value, Some(DefaultContentType), Some(HttpMethodPost))
  {
    var base :- NewBaseTransport(protocol, ConnectTimeout, ReadTimeout, None, false);
    :- ArgValidator.NotNull("url", url);
    var base :- SetConnectionTimeout(base, connectionTimeout);
    var base :- SetReadTimeout(base, readTimeout);
    Success(HttpTransport(base, url.value, Some(DefaultContentType), Some(HttpMethodPost)))
  }

  function SetContentType(h: HttpTransport, contentType: Option<string>): HttpTransport {
    h.(contentType := contentType)
  }

  function SetHttpMethod(h: HttpTransport, httpMethod: Option<string>): HttpTransport {
    h.(httpMethod := httpMethod)
  }

  /** `getUrl`: base, service and method separated by '/' (a null name prints as "null"). */
  function GetUrl(h: HttpTransport, call: CallDescriptor): (u: string)
    ensures |u| > |h.url| && u[..|h.url|] == h.url && u[|h.url|] == '/'
  {
    h.url + "/" + NullText(call.serviceName) + "/" + NullText(call.methodName)
  }

  /** `getServiceConnection`: the base URL as the host; the port of the call's URL, or
      null when that URL is malformed. */
  function GetServiceConnection(h: HttpTransport, call: CallDescriptor, parseUrl: UrlParser): (sc: ServiceConnection)
    ensures sc.serviceName == call.serviceName && sc.methodName == call.methodName && sc.host == Some(h.url)
    ensures sc.port.None? <==> parseUrl(GetUrl(h, call)).Failure?
    ensures sc.port.Some? ==> sc.port.value == parseUrl(GetUrl(h, call)).value
  {
    var port := match parseUrl(GetUrl(h, call)) case Success(p) => Some(p) case Failure(_) => None;
    ServiceConnection(call.serviceName, call.methodName, Some(h.url), port)
  }

  /** The value of a request header: percent-encoded (the encoder is a parameter), then
      every '+' the encoder wrote for a space turned into "%20". */
  function EncodeHeaderValue(encode: string -> string, value: string): (r: string)
    ensures '+' !in r
    ensures '+' !in encode(value) ==> r == encode(value)
  {
    var encoded := encode(value);
    ReplacePlusRemovesPlus(encoded);
    assert '+' !in encoded ==> ReplacePlus(encoded) == encoded by {
      if '+' !in encoded { ReplacePlusNoop(encoded); }
    }
    ReplacePlus(encoded)
  }

  /** What the network does with one request: an I/O failure, or the server's status,
      status message, input-stream text and error stream (null when the connection
      has none). */
  datatype Exchange =
    | Broken(error: Thrown)
    | Replied(status: int, statusMessage: Option<string>, body: string, errorBody: Option<string>)

  /** `callEndPoint` of the HTTP binding. Building the URL fails first when it is
      malformed. A 200 reads the input stream and leaves the response message null;
      any other status reads the error stream and keeps the status message. Both
      bodies are read line by line, so line terminators are dropped. */
  function CallEndPoint(h: HttpTransport, call: CallDescriptor, parseUrl: UrlParser, x: Exchange): (o: AttemptOutcome)
    ensures parseUrl(GetUrl(h, call)).Failure? ==>
              o == Raised(NewThrown(MalformedUrlLineage, parseUrl(GetUrl(h, call)).error))
    ensures parseUrl(GetUrl(h, call)).Success? && x.Broken? ==> o == Raised(x.error)
    ensures parseUrl(GetUrl(h, call)).Success? && x.Replied? && x.status == StatusOk ==>
              o == Responded(StatusOk, Some(StripTerminators(x.body)), None)
    ensures parseUrl(GetUrl(h, call)).Success? && x.Replied? && x.status != StatusOk ==>
              (x.errorBody.None? ==> o == Raised(NullPointer())) &&
              (x.errorBody.Some? ==> o == Responded(x.status, Some(StripTerminators(x.errorBody.value)), x.statusMessage))
  {
    match parseUrl(GetUrl(h, call))
    case Failure(message) => Raised(NewThrown(MalformedUrlLineage, message))
    case Success(_) =>
      match x
      case Broken(e) => Raised(e)
      case Replied(status, statusMessage, body, errorBody) =>
        if status != StatusOk then
          if errorBody.None? then Raised(NullPointer())
          else Responded(status, Some(StripTerminators(errorBody.value)), statusMessage)
        else Responded(status, Some(StripTerminators(body)), None)
  }

  /** A call whose URL is malformed makes one attempt: the `MalformedURLException` is an
      `IOException` but not a transient one, so it surfaces at once inside a `RuntimeException`. */
  method CallMalformed(h: HttpTransport, call: CallDescriptor, parseUrl: UrlParser, exchange: nat -> Exchange)
    returns (r: CallResult)
    requires parseUrl(GetUrl(h, call)).Failure?
    ensures r.attempts == 1
    ensures r.outcome == Failure(Wrap(NewThrown(MalformedUrlLineage, parseUrl(GetUrl(h, call)).error)).value)
    ensures r.events == FailureNotices(h.base.handlers, None, None, NewThrown(MalformedUrlLineage, parseUrl(GetUrl(h, call)).error))
  {
    var e := NewThrown(MalformedUrlLineage, parseUrl(GetUrl(h, call)).error);
    assert !IsTransient(e) && IsException(e) && !IsBabel(e) by {
      assert e.lineage == [MalformedUrlClass, IOExceptionClass, ExceptionClass, ThrowableClass, ObjectClass];
    }
    assert CallEndPoint(h, call, parseUrl, exchange(1)) == Raised(e);
    var attempt := (k: nat) => CallEndPoint(h, call, parseUrl, exchange(k));
    assert attempt(1) == CallEndPoint(h, call, parseUrl, exchange(1));
    assert !Retryable(attempt(1));
    r := CallService(h.base, attempt);
    assert r.attempts == 1;
    assert attempt(r.attempts) == Raised(e);
    var escaped := Escape(h.base.handlers, None, None, e);
    assert r.outcome == escaped.0 && r.events == [] + escaped.1;
    assert [] + escaped.1 == escaped.1;
  }

  /** A service or method name the request path can carry. */
  predicate RoutableName(name: string) {
    '/' !in name
  }

  /** Round trip of the routing: the server's parse of the URL the client built yields
      the call's service and method, whatever the base URL. */
  lemma UrlRoundTrip(h: HttpTransport, call: CallDescriptor, uri: string, headers: map<string, string>, body: string)
    requires RoutableName(NullText(call.serviceName)) && RoutableName(NullText(call.methodName))
    requires NullText(call.methodName) != []
    ensures HttpServer.ParsePath(HttpServer.HttpRequest(Some(GetUrl(h, call)), uri, headers, body))
         == Success(HttpServer.Routing(NullText(call.serviceName), NullText(call.methodName)))
  {
    HttpServer.ParsePathIgnoresPrefix(h.url, NullText(call.serviceName), NullText(call.methodName), uri, headers, body);
  }

  /** Round trip of a reply: the status the server transport set is the status the client
      classifies, and a body written on one line comes back unchanged; the status
      message is kept only for a failure status. */
  lemma ReplyRoundTrip(h: HttpTransport, call: CallDescriptor, parseUrl: UrlParser, t: HttpServer.HttpServerTransport,
                       code: Code, payload: Payload, statusMessage: Option<string>)
    requires parseUrl(GetUrl(h, call)).Success?
    requires t.response.body == "" && !payload.NoPayload? && NoTerminator(t.protocol.write(payload))
    ensures var response := HttpServer.Write(t, code, payload).response;
            (CallEndPoint(h, call, parseUrl, Replied(response.status.value, statusMessage, response.body, Some(response.body)))
             == Responded(CodeValue(code), Some(t.protocol.write(payload)), if code == SuccessCode then None else statusMessage))
  {
    var response := HttpServer.Write(t, code, payload).response;
    assert response.body == t.protocol.write(payload);
    StripTerminatorsNoop(t.protocol.write(payload));
  }
}

=== FILE: http_server.dfy ===
/** `HttpServerTransport`: the servlet side of the HTTP binding. The request is
    parsed once, at construction: service and method are the last two segments
    of the path info, the body is read into one line, and the debug flag comes
    from the `BABEL_DEBUG` header. */
module HttpServer {
  import opened Wrappers
  import opened Text
  import opened Throwables
  import opened Protocols
  import opened ServerBase
  import ArgValidator

  const DebugHeader: string := "BABEL_DEBUG"

  /** The parts of a servlet request the transport reads. `headers` holds the raw
      (still percent-encoded) header values. */
  datatype HttpRequest = HttpRequest(pathInfo: Option<string>, requestUri: string, headers: map<string, string>, body: string)

  /** The parts of a servlet response the transport sets. */
  datatype HttpResponse = HttpResponse(status: Option<int>, encoding: Option<string>, contentType: Option<string>, body: string)

  const FreshResponse: HttpResponse := HttpResponse(None, None, None, "")

  datatype Routing = Routing(serviceName: string, methodName: string)

  datatype HttpServerTransport = HttpServerTransport(
    protocol: Protocol,
    request: HttpRequest,
    response: HttpResponse,
    serviceName: string,
    methodName: string,
    message: string,
    debugging: bool,
    responseCode: Option<Code>,
    responseMessage: Option<string>)

  function NoPathMessage(requestUri: string): string {
    "Calling service was not found in the URI: " + requestUri
  }

  function BadPathMessage(pathInfo: string): string {
    "URL: " + pathInfo + " does not appear to contain service/method, be sure to include a URL in this format: serviceName/methodName"
  }

  /** Service and method from the path info: the last two '/'-separated segments
      (trailing separators dropped), whatever comes before them. */
  function ParsePath(request: HttpRequest): (r: Result<Routing, Thrown>)
    ensures request.pathInfo.None? ==> r == Failure(RuntimeError(NoPathMessage(request.requestUri)))
    ensures request.pathInfo.Some? && |Split(request.pathInfo.value, '/')| < 2 ==>
              r == Failure(RuntimeError(BadPathMessage(request.pathInfo.value)))
    ensures r.Success? ==> var parts := Split(request.pathInfo.value, '/');
              |parts| >= 2 && r.value == Routing(parts[|parts| - 2], parts[|parts| - 1])
    ensures r.Success? ==> '/' !in r.value.serviceName && '/' !in r.value.methodName
  {
    if request.pathInfo.None? then Failure(RuntimeError(NoPathMessage(request.requestUri)))
    else
      var parts := Split(request.pathInfo.value, '/');
      if |parts| < 2 then Failure(RuntimeError(BadPathMessage(request.pathInfo.value)))
      else Success(Routing(parts[|parts| - 2], parts[|parts| - 1]))
  }

  /** Any prefix before `/service/method` is ignored. */
  lemma ParsePathIgnoresPrefix(prefix: string, serviceName: string, methodName: string, uri: string, headers: map<string, string>, body: string)
    requires '/' !in serviceName && '/' !in methodName && methodName != []
    ensures ParsePath(HttpRequest(Some(prefix + "/" + serviceName + "/" + methodName), uri, headers, body))
         == Success(Routing(serviceName, methodName))
  {
    SplitLastTwo(prefix, serviceName, methodName, '/');
    assert prefix + "/" + serviceName + "/" + methodName == prefix + ['/'] + serviceName + ['/'] + methodName;
  }

  /** An empty path info has one (empty) segment and is rejected. */
  lemma EmptyPathRejected(uri: string, headers: map<string, string>, body: string)
    ensures ParsePath(HttpRequest(Some(""), uri, headers, body)) == Failure(RuntimeError(BadPathMessage("")))
  {
    assert Split("", '/') == [""];
  }

  /** Path info "/" splits into no segments at all and is rejected. */
  lemma RootPathRejected(uri: string, headers: map<string, string>, body: string)
    ensures ParsePath(HttpRequest(Some("/"), uri, headers, body)) == Failure(RuntimeError(BadPathMessage("/")))
  {
    FieldsAppend("", "", '/');
    assert "" + ['/'] + "" == "/";
    assert Fields("/", '/') == ["", ""];
    assert DropTrailingEmpty(["", ""]) == [];
  }

  /** The debug flag: off unless the header is present, then `Boolean.parseBoolean` of its value. */
  function DebugFlag(headers: map<string, string>): (on: bool)
    ensures on <==> DebugHeader in headers && ToLower(headers[DebugHeader]) == "true"
  {
    if DebugHeader in headers then ParseBoolean(Some(headers[DebugHeader])) else false
  }

  /** The constructor: protocol, request and response must be non-null; then the request is parsed. */
  function NewHttpServerTransport(request: Option<HttpRequest>, response: Option<HttpResponse>, protocol: Option<Protocol>)
    : (r: Result<HttpServerTransport, Thrown>)
    ensures protocol.None? ==> r == Failure(IllegalArgument(ArgValidator.NullMessage("protocol")))
    ensures protocol.Some? && request.None? ==> r == Failure(IllegalArgument(ArgValidator.NullMessage("request")))
    ensures protocol.Some? && request.Some? && response.None? ==> r == Failure(IllegalArgument(ArgValidator.NullMessage("response")))
    ensures protocol.Some? && request.Some? && response.Some? ==>
              (r.Success? <==> ParsePath(request.value).Success?)
    ensures protocol.Some? && request.Some? && response.Some? && ParsePath(request.value).Failure? ==>
              r == Failure(ParsePath(request.value).error)
    ensures r.Success? ==>
              var t := r.value;
              Routing(t.serviceName, t.methodName) == ParsePath(request.value).value &&
              t.message == StripTerminators(request.value.body) &&
              t.debugging == DebugFlag(request.value.headers) &&
              t.responseCode.None? && t.responseMessage.None? && t.response == response.value
  {
    var p :- RequireProtocol(protocol);
    :- ArgValidator.NotNull("request", request);
    :- ArgValidator.NotNull("response", response);
    var routing :- ParsePath(request.value);
    Success(HttpServerTransport(p, request.value, response.value, routing.serviceName, routing.methodName,
                                StripTerminators(request.value.body), DebugFlag(request.value.headers), None, None))
  }

  /** `getHeader`: null for an absent header, otherwise the decoded value. */
  function GetHeader(t: HttpServerTransport, name: string, decode: string -> string): (v: Option<string>)
    ensures v.None? <==> name !in t.request.headers
    ensures v.Some? ==> v.value == decode(t.request.headers[name])
  {
    if name in t.request.headers then Some(decode(t.request.headers[name])) else None
  }

  /** `write`: records the code and sets the status (and the JSON content type for the
      JSON protocol); a null payload stops there, anything else is serialised, kept as
      the response message and written to the body. */
  function Write(t: HttpServerTransport, code: Code, payload: Payload): (u: HttpServerTransport)
    ensures u.responseCode == Some(code) && u.response.status == Some(CodeValue(code))
    ensures u.response.encoding == Some("UTF-8")
    ensures u.response.contentType == if t.protocol.isJson then Some("application/json") else t.response.contentType
    ensures payload.NoPayload? ==> u.responseMessage == t.responseMessage && u.response.body == t.response.body
    ensures !payload.NoPayload? ==> (u.responseMessage == Some(t.protocol.write(payload)) &&
                                     u.response.body == t.response.body + t.protocol.write(payload))
    ensures u.request == t.request && u.serviceName == t.serviceName && u.methodName == t.methodName && u.message == t.message
  {
    var response := t.response.(status := Some(CodeValue(code)), encoding := Some("UTF-8"));
    var response := if t.protocol.isJson then response.(contentType := Some("application/json")) else response;
    var t := t.(responseCode := Some(code), response := response);
    if payload.NoPayload? then t
    else
      var text := t.protocol.write(payload);
      t.(responseMessage := Some(text), response := t.response.(body := t.response.body + text))
  }

  function UnparsableMessage(t: HttpServerTransport): string {
    "Unable to parse babel service call json for " + t.serviceName + "-" + t.methodName
  }

  /** `read`: decode the request body as a call of the given type; a null result is rejected. */
  function Read(t: HttpServerTransport, ty: DescriptorType): (r: Result<CallDescriptor, Thrown>)
    ensures t.protocol.readCall(Some(t.message), ty).Decoded? ==> r == Success(t.protocol.readCall(Some(t.message), ty).value)
    ensures t.protocol.readCall(Some(t.message), ty).DecodedNull? ==> r == Failure(RuntimeError(UnparsableMessage(t)))
    ensures t.protocol.readCall(Some(t.message), ty).DecodeThrew? ==> r == Failure(t.protocol.readCall(Some(t.message), ty).error)
  {
    match t.protocol.readCall(Some(t.message), ty)
    case Decoded(c) => Success(c)
    case DecodedNull => Failure(RuntimeError(UnparsableMessage(t)))
    case DecodeThrew(e) => Failure(e)
  }
}

=== FILE: invoker.dfy ===
/** `BaseInvoker`: routes one call to the service implementation. The generated
    subclass supplies the table from method names to call-descriptor types; the
    implementation's public methods are found by name (ignoring case) and arity,
    and running one is a parameter of the model. */
module Invokers {
  import opened Wrappers
  import opened Text
  import opened Throwables
  import opened Protocols
  import opened ServerBase
  import opened ServerTransports
  import ArgValidator

  /** A public method of the implementation class: name, parameter count, and
      the handle the runner uses to execute it. */
  datatype ImplMethod = ImplMethod(name: string, arity: nat, handle: nat)

  /** The implementation object: its class name and `getClass().getMethods()`, in the order the JVM reports them. */
  datatype ServiceImpl = ServiceImpl(className: string, methods: seq<ImplMethod>)

  /** One entry of the method table, as `keySet()` enumerates it. */
  datatype MethodEntry = MethodEntry(key: string, descriptor: DescriptorType)

  datatype Invoker = Invoker(serviceName: string, interfaceName: string, impl: ServiceImpl, table: seq<MethodEntry>)

  /** What running an implementation method does: returns a value (null allowed) or throws. */
  datatype RunOutcome = Returned(value: Option<Value>) | Threw(error: Thrown)

  /** The transport interactions of one invocation, in order. */
  datatype Step = AskedMethodName | ReadCall(descriptor: DescriptorType) | Ran(handle: nat) | WroteSuccess

  datatype Invocation = Invocation(transport: ServerTransport, outcome: Outcome<Thrown>, steps: seq<Step>)

  /** The constructor: the implementation must be non-null; the table is built once, here. */
  function NewInvoker(serviceName: string, interfaceName: string, impl: Option<ServiceImpl>, table: seq<MethodEntry>)
    : (r: Result<Invoker, Thrown>)
    ensures r.Success? <==> impl.Some?
    ensures r.Failure? ==> r.error == IllegalArgument(ArgValidator.NullMessage("serviceImpl"))
    ensures r.Success? ==> r.value.impl == impl.value && r.value.table == table
  {
    var i :- ArgValidator.NonNull("serviceImpl", impl);
    Success(Invoker(serviceName, interfaceName, i, table))
  }

  /** `getServiceMethod`'s search: the first table key equal to the name ignoring case.
      A null name matches nothing. */
  function LookupDescriptor(table: seq<MethodEntry>, methodName: Option<string>): (r: Option<nat>)
    ensures r.Some? ==> r.value < |table| && methodName.Some? && EqualsIgnoreCase(table[r.value].key, methodName.value)
    ensures r.Some? ==> forall j :: 0 <= j < r.value ==> !EqualsIgnoreCase(table[j].key, methodName.value)
    ensures r.None? ==> forall j :: 0 <= j < |table| ==> !EqualsIgnoreCaseOrNull(table[j].key, methodName)
    decreases |table|
  {
    if table == [] || methodName.None? then None
    else if EqualsIgnoreCase(table[0].key, methodName.value) then Some(0)
    else
      var rest := LookupDescriptor(table[1..], methodName);
      if rest.None? then None else Some(rest.value + 1)
  }

  /** No two keys of the table are equal ignoring case. */
  predicate CaseDistinctKeys(table: seq<MethodEntry>) {
    forall i, j :: 0 <= i < j < |table| ==> !EqualsIgnoreCase(table[i].key, table[j].key)
  }

  /** With case-distinct keys the lookup does not depend on the table's enumeration
      order: it finds a descriptor exactly when some key matches, and then that key's. */
  lemma LookupMatchesAnyKey(table: seq<MethodEntry>, name: string, d: DescriptorType)
    requires CaseDistinctKeys(table)
    ensures (var r := LookupDescriptor(table, Some(name)); r.Some? && table[r.value].descriptor == d)
        <==> exists i :: 0 <= i < |table| && EqualsIgnoreCase(table[i].key, name) && table[i].descriptor == d
  {
    var r := LookupDescriptor(table, Some(name));
    if exists i :: 0 <= i < |table| && EqualsIgnoreCase(table[i].key, name) && table[i].descriptor == d {
      var i :| 0 <= i < |table| && EqualsIgnoreCase(table[i].key, name) && table[i].descriptor == d;
      assert r.Some?;
      if r.value != i {
        EqualsIgnoreCaseEquivalence(table[i].key, name, table[r.value].key);
        if r.value < i {
          assert !EqualsIgnoreCase(table[r.value].key, table[i].key);
          EqualsIgnoreCaseIsLowerEquality(table[r.value].key, name);
          EqualsIgnoreCaseIsLowerEquality(table[i].key, name);
          EqualsIgnoreCaseIsLowerEquality(table[r.value].key, table[i].key);
        }
      }
    }
  }

  /** `findServiceImplmentationMethod`: the first public method whose name equals the
      requested one ignoring case and whose parameter count is the call's. */
  function FindImplementation(methods: seq<ImplMethod>, methodName: Option<string>, arity: nat): (r: Option<nat>)
    ensures r.Some? ==> r.value < |methods| && methodName.Some? &&
                        EqualsIgnoreCase(methods[r.value].name, methodName.value) && methods[r.value].arity == arity
    ensures r.Some? ==> forall j :: 0 <= j < r.value ==>
                          !(EqualsIgnoreCase(methods[j].name, methodName.value) && methods[j].arity == arity)
    ensures r.None? ==> forall j :: 0 <= j < |methods| ==>
                          !(EqualsIgnoreCaseOrNull(methods[j].name, methodName) && methods[j].arity == arity)
    decreases |methods|
  {
    if methods == [] || methodName.None? then None
    else if EqualsIgnoreCase(methods[0].name, methodName.value) && methods[0].arity == arity then Some(0)
    else
      var rest := FindImplementation(methods[1..], methodName, arity);
      if rest.None? then None else Some(rest.value + 1)
  }

  function NoProcessorMessage(methodName: Option<string>): string {
    "Unable to find babel processor for service method: " + NullText(methodName)
  }

  function NoMethodMessage(methodName: Option<string>, arity: nat, className: string): string {
    "Unable to find service method: " + NullText(methodName) + " with " + DecimalString(arity) +
    " no. arguments on class: " + className
  }

  /** `invoke`: look the method up in the table (failing before the request body is
      decoded), decode the call, find the implementation method, run it and write
      its result with the success code (a null result writes no payload). An
      exception the method throws leaves the invoker unwrapped and nothing is written. */
  function Invoke(inv: Invoker, t: ServerTransport, run: (nat, seq<Value>) -> RunOutcome): (r: Invocation)
    ensures 1 <= |r.steps| <= 4 && r.steps[0] == AskedMethodName
    ensures r.outcome.Pass? <==> WroteSuccess in r.steps
    ensures r.outcome.Pass? ==> ResponseCode(r.transport) == Some(SuccessCode) && |r.steps| == 4
    ensures |r.steps| >= 2 <==> MethodName(t).result.Success? && LookupDescriptor(inv.table, MethodName(t).result.value).Some?
    ensures |r.steps| >= 2 ==>
              var name := MethodName(t).result.value;
              var i := LookupDescriptor(inv.table, name).value;
              r.steps[1] == ReadCall(inv.table[i].descriptor) && EqualsIgnoreCase(inv.table[i].key, name.value)
    ensures |r.steps| >= 2 ==>
              var name := MethodName(t).result.value;
              var ty := inv.table[LookupDescriptor(inv.table, name).value].descriptor;
              var read := Read(MethodName(t).transport, ty);
              (read.result.Failure? ==> r.outcome == Fail(read.result.error) && r.transport == read.transport && |r.steps| == 2) &&
              (read.result.Success? ==>
                 var params := read.result.value.params;
                 var found := FindImplementation(inv.impl.methods, name, |params|);
                 (found.None? ==>
                    r.outcome == Fail(RuntimeError(NoMethodMessage(name, |params|, inv.impl.className))) &&
                    r.transport == read.transport && |r.steps| == 2) &&
                 (found.Some? ==>
                    var handle := inv.impl.methods[found.value].handle;
                    |r.steps| >= 3 && r.steps[2] == Ran(handle) &&
                    (run(handle, params).Threw? ==>
                       r.outcome == Fail(run(handle, params).error) && r.transport == read.transport) &&
                    (run(handle, params).Returned? ==>
                       var v := run(handle, params).value;
                       r.outcome == Pass &&
                       r.transport == Write(read.transport, SuccessCode, if v.Some? then ResultPayload(v.value) else NoPayload))))
    ensures MethodName(t).result.Failure? ==>
              r == Invocation(MethodName(t).transport, Fail(MethodName(t).result.error), [AskedMethodName])
    ensures MethodName(t).result.Success? && LookupDescriptor(inv.table, MethodName(t).result.value).None? ==>
              r == Invocation(MethodName(t).transport, Fail(RuntimeError(NoProcessorMessage(MethodName(t).result.value))), [AskedMethodName])
  {
    var named := MethodName(t);
    if named.result.Failure? then Invocation(named.transport, Fail(named.result.error), [AskedMethodName])
    else
      var methodName := named.result.value;
      match LookupDescriptor(inv.table, methodName)
      case None => Invocation(named.transport, Fail(RuntimeError(NoProcessorMessage(methodName))), [AskedMethodName])
      case Some(i) =>
        var ty := inv.table[i].descriptor;
        var read := Read(named.transport, ty);
        var steps := [AskedMethodName, ReadCall(ty)];
        if read.result.Failure? then Invocation(read.transport, Fail(read.result.error), steps)
        else
          var call := read.result.value;
          match FindImplementation(inv.impl.methods, methodName, |call.params|)
          case None =>
            Invocation(read.transport, Fail(RuntimeError(NoMethodMessage(methodName, |call.params|, inv.impl.className))), steps)
          case Some(m) =>
            var handle := inv.impl.methods[m].handle;
            match run(handle, call.params)
            case Threw(e) => Invocation(read.transport, Fail(e), steps + [Ran(handle)])
            case Returned(v) =>
              var payload := if v.Some? then ResultPayload(v.value) else NoPayload;
              Invocation(Write(read.transport, SuccessCode, payload), Pass, steps + [Ran(handle), WroteSuccess])
  }

  /** With case-distinct table keys, which descriptor `invoke` decodes the call as does
      not depend on the order `keySet()` enumerates the table: it is the one whose key
      matches the requested method name ignoring case. */
  lemma InvokeReadsMatchingDescriptor(inv: Invoker, t: ServerTransport, run: (nat, seq<Value>) -> RunOutcome, i: nat)
    requires CaseDistinctKeys(inv.table)
    requires MethodName(t).result.Success? && MethodName(t).result.value.Some?
    requires i < |inv.table| && EqualsIgnoreCase(inv.table[i].key, MethodName(t).result.value.value)
    ensures |Invoke(inv, t, run).steps| >= 2 && Invoke(inv, t, run).steps[1] == ReadCall(inv.table[i].descriptor)
  {
    var name := MethodName(t).result.value.value;
    LookupMatchesAnyKey(inv.table, name, inv.table[i].descriptor);
  }
}

=== FILE: protocol.dfy ===
/** The serialisation protocol, reduced to what the runtime relies on: a writer
    from payloads to text and readers back from (possibly null) text. The
    concrete JSON encoding is a parameter; the round trip it is expected to
    satisfy is a predicate that properties may assume as a precondition. */
module Protocols {
  import opened Wrappers
  import opened Errors
  import opened Throwables

  /** An application value (argument or return value of a service method). */
  datatype Value = Value(text: string)

  /** Name of a generated service-method class, the type a call is decoded into. */
  type DescriptorType = string

  /** A decoded service-method call (`ServiceMethod`): its parameters in declaration order. */
  datatype CallDescriptor = CallDescriptor(serviceName: Option<string>, methodName: Option<string>, params: seq<Value>)

  /** Everything the runtime hands to `Protocol.write`. `NoPayload` is Java's null. */
  datatype Payload =
    | NoPayload
    | ResultPayload(result: Value)
    | ErrorPayload(serviceError: ServiceError)
    | CallPayload(call: CallDescriptor)

  /** What a read produces: a value, null, or an exception thrown by the decoder. */
  datatype Decoded<T> = Decoded(value: T) | DecodedNull | DecodeThrew(error: Thrown)

  datatype Protocol = Protocol(
    isJson: bool,
    write: Payload -> string,
    readCall: (Option<string>, DescriptorType) -> Decoded<CallDescriptor>,
    readValue: (Option<string>, DescriptorType) -> Decoded<Value>,
    readError: Option<string> -> Decoded<ServiceError>)

  /** A call written by the protocol decodes to the same call. */
  ghost predicate CallRoundTrip(p: Protocol) {
    forall c: CallDescriptor, ty: DescriptorType :: p.readCall(Some(p.write(CallPayload(c))), ty) == Decoded(c)
  }

  /** A service error written by the protocol decodes to the same service error. */
  ghost predicate ErrorRoundTrip(p: Protocol) {
    forall se: ServiceError :: p.readError(Some(p.write(ErrorPayload(se)))) == Decoded(se)
  }
}

=== FILE: scenarios.dfy ===
/** Documented behaviour worked through the model: the generic exception builder's
    message, tags and application flag; the fresh dispatcher's default builder; and
    the method table of the sample tweet service. */
module Scenarios {
  import opened Wrappers
  import opened Text
  import opened Errors
  import opened Throwables
  import opened Babel
  import opened ExceptionBuilders
  import Invokers
  import Dispatch
  import ServerBase
  import Protocols
  import ServerTransports

  const TestCode: string := "8888"
  const TestMessage: string := "My Message"
  const TestTags: seq<string> := ["babel"]
  const ThrownMessage: string := "testing exception builder"

  /** The generic builder with code "8888", an optional "My Message" and optional tags ["babel"]. */
  function TestBuilder(isAppException: bool, messageGiven: bool, tagsGiven: bool): GenericExceptionBuilder {
    GenericExceptionBuilder(TestCode, if messageGiven then Some(TestMessage) else None,
                            if tagsGiven then Some(TestTags) else None, isAppException)
  }

  /** The one entry the test builder gives: its code, and the configured message or
      else the thrown one. */
  function TestEntry(messageGiven: bool): Error {
    Error(Some(TestCode), Some(if messageGiven then TestMessage else ThrownMessage), None)
  }

  /** Builds with the test builder from a runtime exception thrown with `ThrownMessage`
      and no cause. */
  method BuildWithTestBuilder(isAppException: bool, messageGiven: bool, tagsGiven: bool, at: Capture)
    returns (b: Thrown)
    ensures HasServiceError(b) && b.serviceError.value.errors == Some([TestEntry(messageGiven)])
    ensures b.serviceError.value.tags == Some(if tagsGiven then TestTags else [])
    ensures IsApplication(b) == isAppException && b.cause.Some?
  {
    var thrown := RuntimeError(ThrownMessage);
    assert Message(thrown) == Success(Some(ThrownMessage)) && ChainRenders(thrown);
    var built := BuildGeneric(TestBuilder(isAppException, messageGiven, tagsGiven), thrown, map[], [], at);
    b := built.value;
  }

  /** Builds with the test builder from a runtime exception, then reads back the
      rendered message: the configured message, or else the thrown one, after the code. */
  method GenericBuilderCase(isAppException: bool, messageGiven: bool, tagsGiven: bool, at: Capture)
    returns (message: string)
    ensures message == "ErrorCode: 8888 - " + (if messageGiven then TestMessage else ThrownMessage)
  {
    var b := BuildWithTestBuilder(isAppException, messageGiven, tagsGiven, at);
    var rendered := GetMessage(b);
    MessageOfSingle(b, TestEntry(messageGiven));
    message := rendered.value;
  }

  /** Builds with the test builder, then reads back the tags (the configured ones or
      none), the subtype the flag asks for, and the cause. */
  method GenericBuilderShapeCase(isAppException: bool, messageGiven: bool, tagsGiven: bool, at: Capture)
    returns (tags: seq<string>, isApplication: bool, hasCause: bool)
    ensures tags == (if tagsGiven then TestTags else [])
    ensures isApplication == isAppException
    ensures hasCause
  {
    var b := BuildWithTestBuilder(isAppException, messageGiven, tagsGiven, at);
    tags := b.serviceError.value.tags.value;
    isApplication := IsApplication(b);
    hasCause := b.cause.Some?;
  }

  /** Whatever exception a fresh dispatcher, with nothing registered, is asked to answer
      for, it writes a 500 whose service error holds one entry coded "9999" with the
      message "Unexpected Exception Occurred" - unless the exception or one of its causes
      is a Babel exception whose message cannot be rendered, which makes building the
      response throw before anything is written. */
  method DefaultBuilderCase(exception: Thrown, t: ServerTransports.ServerTransport, custom: CustomBuild, at: Capture)
    returns (sent: Option<ServiceError>, written: ServerTransports.ServerTransport)
    ensures ChainRenders(exception) ==>
              sent.Some? && sent.value.errors == Some([Error(Some("9999"), Some("Unexpected Exception Occurred"), None)]) &&
              written == ServerTransports.Write(t, ServerBase.UnexpectedError, Protocols.ErrorPayload(sent.value)) &&
              ServerTransports.ResponseCode(written) == Some(ServerBase.UnexpectedError)
    ensures !ChainRenders(exception) ==> sent.None? && written == t
  {
    var r := Dispatch.SendErrorResponse(Dispatch.NewDispatcher, exception, t, None, [], 0, custom, at);
    sent := r.sent;
    written := r.transport;
  }

  /** The tweet service's generated method table. */
  const TweetTable: seq<Invokers.MethodEntry> := [
    Invokers.MethodEntry("postTweet", "postTweet"),
    Invokers.MethodEntry("deleteTweet", "deleteTweet"),
    Invokers.MethodEntry("getAllTweets", "getAllTweets")]

  /** A method the implementation has but the table omits is not found. */
  lemma TweetTableOmitsRecentTweets()
    ensures Invokers.LookupDescriptor(TweetTable, Some("recentTweets")).None?
  {
    var asked := "recentTweets";
    assert asked[0] == 'r' && TweetTable[2].key[0] == 'g' && !CharEqualsIgnoreCase('g', 'r');
    assert !EqualsIgnoreCase(TweetTable[2].key, asked);
    assert TweetTable[1..][1..] == [TweetTable[2]];
    assert Invokers.LookupDescriptor(TweetTable[1..][1..], Some(asked)).None?;
  }

  /** A listed method is found under any capitalisation. */
  lemma TweetTableIgnoresCase()
    ensures Invokers.LookupDescriptor(TweetTable, Some("GETALLTWEETS")) == Some(2)
  {
    var asked := "GETALLTWEETS";
    assert |TweetTable[0].key| != |asked| && |TweetTable[1].key| != |asked|;
    assert forall i :: 0 <= i < |asked| ==> UpperChar(TweetTable[2].key[i]) == asked[i];
    assert EqualsIgnoreCase(TweetTable[2].key, asked);
    assert TweetTable[1..][1..] == [TweetTable[2]];
  }
}

=== FILE: server_base.dfy ===
/** What every server transport shares (`BabelServerTransport`): the three
    response codes and the reader that turns a request body into one line of text. */
module ServerBase {
  import opened Wrappers
  import opened Text
  import opened Throwables
  import opened Protocols
  import ArgValidator

  /** Response codes: 200 OK, 500 Internal Server Error and 409 Conflict, as
      defined in sections 15.3.1, 15.6.1 and 15.5.10 of RFC 9110. */
  datatype Code = SuccessCode | UnexpectedError | AppError

  function CodeValue(c: Code): (v: int)
    ensures v in {200, 500, 409}
  {
    match c
    case SuccessCode => 200
    case UnexpectedError => 500
    case AppError => 409
  }

  /** The code a status value stands for, if any. */
  function CodeFromValue(v: int): (c: Option<Code>)
    ensures c.Some? <==> v in {200, 500, 409}
  {
    if v == 200 then Some(SuccessCode)
    else if v == 500 then Some(UnexpectedError)
    else if v == 409 then Some(AppError)
    else None
  }

  /** The code values are pairwise distinct, so a status value determines its code. */
  lemma CodeValueRoundTrip(c: Code, v: int)
    ensures CodeFromValue(CodeValue(c)) == Some(c)
    ensures CodeFromValue(v) == Some(c) <==> CodeValue(c) == v
  {
  }

  lemma CodeValuesDistinct(a: Code, b: Code)
    ensures CodeValue(a) == CodeValue(b) <==> a == b
  {
    CodeValueRoundTrip(a, CodeValue(b));
    CodeValueRoundTrip(b, CodeValue(a));
  }

  /** The constructor's only check: the protocol must not be null. */
  function RequireProtocol(protocol: Option<Protocol>): (r: Result<Protocol, Thrown>)
    ensures r.Success? <==> protocol.Some?
    ensures r.Success? ==> r.value == protocol.value
    ensures r.Failure? ==> r.error == IllegalArgument(ArgValidator.NullMessage("protocol"))
  {
    ArgValidator.NonNull("protocol", protocol)
  }

  /** `readerToString` (and the client's `getString`): read the input line by line and
      concatenate the lines, so every line terminator is dropped. */
  method ReaderToString(input: string) returns (text: string)
    ensures text == StripTerminators(input)
    ensures NoTerminator(text)
  {
    text := "";
    var unread := input;
    while unread != []
      invariant StripTerminators(input) == text + StripTerminators(unread)
      decreases |unread|
    {
      var (line, rest) := ReadLine(unread).value;
      ReadLineStrip(unread);
      text := text + line;
      unread := rest;
    }
  }
}

=== FILE: server_transport.dfy ===
/** The `ServerTransport` interface, closed over its two implementations. Every
    operation returns the transport as it is afterwards, because the socket
    transport reads its request lazily on first access. */
module ServerTransports {
  import opened Wrappers
  import opened Throwables
  import opened Protocols
  import opened ServerBase
  import HttpServer
  import SocketServer

  datatype ServerTransport =
    | Http(http: HttpServer.HttpServerTransport)
    | Socket(socket: SocketServer.SocketServerTransport)

  /** Whatever a transport accessor returns, with the transport after the access. */
  datatype Access<T> = Access(transport: ServerTransport, result: Result<T, Thrown>)

  function ServiceName(t: ServerTransport): (a: Access<Option<string>>)
    ensures t.Http? ==> a == Access(t, Success(Some(t.http.serviceName)))
    ensures t.Socket? ==>
              var (u, name, outcome) := SocketServer.GetServiceName(t.socket);
              a.transport == Socket(u) && (outcome.Pass? ==> a.result == Success(name)) &&
              (outcome.Fail? ==> a.result == Failure(outcome.error))
  {
    match t
    case Http(h) => Access(t, Success(Some(h.serviceName)))
    case Socket(s) =>
      var (u, name, outcome) := SocketServer.GetServiceName(s);
      Access(Socket(u), if outcome.Fail? then Failure(outcome.error) else Success(name))
  }

  function MethodName(t: ServerTransport): (a: Access<Option<string>>)
    ensures t.Http? ==> a == Access(t, Success(Some(t.http.methodName)))
    ensures t.Socket? ==>
              var (u, name, outcome) := SocketServer.GetMethodName(t.socket);
              a.transport == Socket(u) && (outcome.Pass? ==> a.result == Success(name)) &&
              (outcome.Fail? ==> a.result == Failure(outcome.error))
  {
    match t
    case Http(h) => Access(t, Success(Some(h.methodName)))
    case Socket(s) =>
      var (u, name, outcome) := SocketServer.GetMethodName(s);
      Access(Socket(u), if outcome.Fail? then Failure(outcome.error) else Success(name))
  }

  function Read(t: ServerTransport, ty: DescriptorType): (a: Access<CallDescriptor>)
    ensures t.Http? ==> a == Access(t, HttpServer.Read(t.http, ty))
    ensures t.Socket? ==> a == Access(Socket(SocketServer.Read(t.socket, ty).0), SocketServer.Read(t.socket, ty).1)
  {
    match t
    case Http(h) => Access(t, HttpServer.Read(h, ty))
    case Socket(s) =>
      var (u, r) := SocketServer.Read(s, ty);
      Access(Socket(u), r)
  }

  function Write(t: ServerTransport, code: Code, payload: Payload): (u: ServerTransport)
    ensures u.Http? <==> t.Http?
    ensures ResponseCode(u) == Some(code)
  {
    match t
    case Http(h) => Http(HttpServer.Write(h, code, payload))
    case Socket(s) => Socket(SocketServer.Write(s, code, payload))
  }

  function ResponseCode(t: ServerTransport): Option<Code> {
    match t
    case Http(h) => h.responseCode
    case Socket(s) => s.responseCode
  }

  function ProtocolOf(t: ServerTransport): Protocol {
    match t
    case Http(h) => h.protocol
    case Socket(s) => s.protocol
  }

  /** Reading the service or method name a second time changes nothing and cannot
      fail: the HTTP transport parsed its path up front, and the socket transport
      keeps what its first read stored. */
  lemma NamesAreStable(t: ServerTransport)
    ensures var first := MethodName(t);
            MethodName(first.transport).transport == first.transport &&
            MethodName(first.transport).result.Success? &&
            (first.result.Success? ==> MethodName(first.transport).result == first.result)
    ensures var first := ServiceName(t);
            ServiceName(first.transport).transport == first.transport &&
            ServiceName(first.transport).result.Success? &&
            (first.result.Success? ==> ServiceName(first.transport).result == first.result)
    ensures ServiceName(MethodName(t).transport).transport == MethodName(t).transport
  {
    if t.Socket? {
      SocketServer.EnsureReadOnce(t.socket);
    }
  }
}

=== FILE: socket_client.dfy ===
/** `SocketTransport`: the client side of the socket binding. A request is three
    CRLF-terminated lines, the headers as `key=value` pairs joined by "||", the
    routing line `service||method`, and the serialised call; the reply is the
    status line and the body line. The network is a parameter: one exchange
    either fails with an exception or returns the text the server sent. */
module SocketClient {
  import opened Wrappers
  import opened Text
  import opened Throwables
  import opened Protocols
  import opened ServerBase
  import opened ClientTransport
  import SocketServer

  datatype SocketTransport = SocketTransport(base: BaseTransport, host: Option<string>, port: Int32)

  /** The constructors: the base transport's checks (protocol, then the two timeouts);
      host and port are taken as given. */
  function NewSocketTransport(host: Option<string>, port: Int32, protocol: Option<Protocol>,
                              connectionTimeout: Int32, readTimeout: Int32): (r: Result<SocketTransport, Thrown>)
    ensures r.Success? <==> NewBaseTransport(protocol, connectionTimeout, readTimeout, None, false).Success?
    ensures r.Failure? ==> r.error == NewBaseTransport(protocol, connectionTimeout, readTimeout, None, false).error
    ensures r.Success? ==> r.value == SocketTransport(NewBaseTransport(protocol, connectionTimeout, readTimeout, None, false).value, host, port)
  {
    var base :- NewBaseTransport(protocol, connectionTimeout, readTimeout, None, false);
    Success(SocketTransport(base, host, port))
  }

  /** `getServiceConnection`: the call's names with the configured host and port. */
  function GetServiceConnection(s: SocketTransport, call: CallDescriptor): (sc: ServiceConnection)
    ensures sc.serviceName == call.serviceName && sc.methodName == call.methodName
    ensures sc.host == s.host && sc.port == Some(s.port)
  {
    ServiceConnection(call.serviceName, call.methodName, s.host, Some(s.port))
  }

  /** The `key=value` entries of the header line, in iteration order. */
  function HeaderPairs(headers: map<string, string>, keys: seq<string>): (pairs: seq<string>)
    requires forall i :: 0 <= i < |keys| ==> keys[i] in headers
    ensures |pairs| == |keys|
    ensures forall i :: 0 <= i < |keys| ==> pairs[i] == keys[i] + "=" + headers[keys[i]]
  {
    seq(|keys|, i requires 0 <= i < |keys| => keys[i] + "=" + headers[keys[i]])
  }

  /** The header line: the entries joined by "||", with no separator after the last, then CRLF. */
  function HeaderLine(headers: map<string, string>, keys: seq<string>): string
    requires forall i :: 0 <= i < |keys| ==> keys[i] in headers
  {
    Join(HeaderPairs(headers, keys), "||") + "\r\n"
  }

  /** `buildHeaders`: walks the key set with a 1-based counter and writes the separator
      after every entry whose position is not the map's size. */
  method BuildHeaders(headers: map<string, string>, keys: seq<string>) returns (line: string)
    requires Enumerates(keys, headers)
    ensures line == HeaderLine(headers, keys)
    ensures headers == map[] ==> line == "\r\n"
  {
    var pairs := HeaderPairs(headers, keys);
    var size := |headers|;
    var sb := "";
    var index := 1;
    while index <= |keys|
      invariant 1 <= index <= |keys| + 1
      invariant sb == Join(pairs[..index - 1], "||") + (if 1 < index <= size then "||" else "")
    {
      var key := keys[index - 1];
      var entry := key + "=" + headers[key];
      assert Join(pairs[..index], "||") == sb + entry by {
        assert pairs[..index] == pairs[..index - 1] + [entry];
        JoinSnoc(pairs[..index - 1], entry, "||");
      }
      sb := sb + entry;
      if index != size {
        sb := sb + "||";
      }
      index := index + 1;
    }
    assert pairs[..|keys|] == pairs;
    line := sb + "\r\n";
    if headers == map[] {
      assert keys == [];
    }
  }

  /** The routing line: the service and method names (a null one prints as "null"). */
  function RoutingLine(call: CallDescriptor): string {
    NullText(call.serviceName) + "||" + NullText(call.methodName) + "\r\n"
  }

  /** `getRequestMessage`: the protocol's text for the call, CRLF-terminated. */
  function RequestLine(p: Protocol, call: CallDescriptor): string {
    p.write(CallPayload(call)) + "\r\n"
  }

  /** Everything `callEndPoint` writes to the socket, in order. */
  function RequestFrame(s: SocketTransport, call: CallDescriptor, keys: seq<string>): string
    requires KeySetOrder(keys, s.base.headers)
  {
    HeaderLine(s.base.headers, keys) + RoutingLine(call) + RequestLine(s.base.protocol, call)
  }

  /** The `NumberFormatException` of `Integer.parseInt` on a line (null at end of stream). */
  function NumberFormat(line: Option<string>): Thrown {
    NewThrown(NumberFormatLineage, if line.None? then "null" else "For input string: \"" + line.value + "\"")
  }

  /** The reply side of `callEndPoint`: the first line parsed as the status, the second
      (null at end of stream) as the body. A socket reply never has a status message. */
  function ParseReply(reply: string): (o: AttemptOutcome)
    ensures o.Raised? ==> o.error.lineage == NumberFormatLineage
    ensures o.Responded? ==> o.message.None? && MinInt32 <= o.code <= MaxInt32
    ensures o.Raised? <==> SocketServer.NextLine(reply).0.None? || ParseInt(SocketServer.NextLine(reply).0.value).None?
  {
    var (statusLine, rest) := SocketServer.NextLine(reply);
    var (body, _) := SocketServer.NextLine(rest);
    if statusLine.None? then Raised(NumberFormat(statusLine))
    else match ParseInt(statusLine.value)
      case None => Raised(NumberFormat(statusLine))
      case Some(code) => Responded(code, body, None)
  }

  /** What the network does with one request: an I/O failure, or the server's reply text. */
  datatype Exchange = Broken(error: Thrown) | Replied(reply: string)

  /** `callEndPoint` of the socket binding. */
  function CallEndPoint(x: Exchange): (o: AttemptOutcome)
    ensures x.Broken? ==> o == Raised(x.error)
    ensures x.Replied? ==> o == ParseReply(x.reply)
  {
    match x
    case Broken(e) => Raised(e)
    case Replied(reply) => ParseReply(reply)
  }

  /** A status line that is not a number is not an `IOException`, so it is never retried. */
  lemma BadStatusIsNotRetried(reply: string)
    requires ParseReply(reply).Raised?
    ensures !Retryable(ParseReply(reply))
    ensures IsException(ParseReply(reply).error) && !IsBabel(ParseReply(reply).error)
  {
    var e := ParseReply(reply).error;
    assert e.lineage == [NumberFormatClass, IllegalArgumentClass, RuntimeExceptionClass, ExceptionClass, ThrowableClass, ObjectClass];
  }

  /** Header keys and values the line can carry: no '|', '=' or line terminator, and a
      non-empty value. */
  predicate FramableHeaders(headers: map<string, string>) {
    forall k :: k in headers ==>
      '|' !in k && '=' !in k && NoTerminator(k) &&
      headers[k] != [] && '|' !in headers[k] && '=' !in headers[k] && NoTerminator(headers[k])
  }

  /** A service or method name the routing line can carry. */
  predicate FramableName(name: string) {
    name != [] && '|' !in name && NoTerminator(name)
  }

  /** The server's parse of the first `n` header entries stores exactly those entries. */
  lemma {:induction false} ParseHeaderPairs(headers: map<string, string>, keys: seq<string>, n: nat)
    requires KeySetOrder(keys, headers) && FramableHeaders(headers) && n <= |keys|
    ensures SocketServer.PutHeaders(map[], HeaderPairs(headers, keys)[..n])
         == SocketServer.HeaderParse(Restrict(headers, keys[..n]), None)
    decreases n
  {
    var pairs := HeaderPairs(headers, keys);
    if n == 0 {
      assert pairs[..0] == [];
      assert Restrict(headers, keys[..0]) == map[];
    } else {
      ParseHeaderPairs(headers, keys, n - 1);
      var key := keys[n - 1];
      assert pairs[..n] == pairs[..n - 1] + [key + "=" + headers[key]];
      SocketServer.LaterDuplicateWins(map[], pairs[..n - 1], key, headers[key]);
      assert keys[..n] == keys[..n - 1] + [key];
      assert Restrict(headers, keys[..n - 1])[key := headers[key]] == Restrict(headers, keys[..n]);
    }
  }

  /** Tokenising the header line's content and storing the pairs gives the map back. */
  lemma HeaderLineRoundTrip(headers: map<string, string>, keys: seq<string>)
    requires KeySetOrder(keys, headers) && FramableHeaders(headers)
    ensures NoTerminator(Join(HeaderPairs(headers, keys), "||"))
    ensures SocketServer.PutHeaders(map[], Tokenize(Join(HeaderPairs(headers, keys), "||"), '|'))
         == SocketServer.HeaderParse(headers, None)
  {
    var pairs := HeaderPairs(headers, keys);
    forall i | 0 <= i < |pairs|
      ensures pairs[i] != [] && '|' !in pairs[i] && NoTerminator(pairs[i])
    {
      var k := keys[i];
      assert pairs[i] == k + "=" + headers[k];
      NoTerminatorAppend(k, "=");
      NoTerminatorAppend(k + "=", headers[k]);
    }
    JoinNoTerminator(pairs, "||");
    TokenizeJoin(pairs, '|');
    ParseHeaderPairs(headers, keys, |keys|);
    assert pairs[..|keys|] == pairs;
    assert keys[..|keys|] == keys;
    RestrictToKeySet(headers, keys);
  }

  /** The routing line's content tokenises into the two names. */
  lemma RoutingRoundTrip(service: string, methodName: string)
    requires FramableName(service) && FramableName(methodName)
    ensures NoTerminator(service + "||" + methodName)
    ensures Tokenize(service + "||" + methodName, '|') == [service, methodName]
  {
    assert Join([service, methodName], "||") == service + "||" + methodName;
    TokenizeJoin([service, methodName], '|');
    NoTerminatorAppend(service, "||");
    NoTerminatorAppend(service + "||", methodName);
  }

  /** Round trip of a request: a server socket transport reading what the client wrote
      recovers the header map, the service and method names and, for a protocol whose
      calls read back as written, the call itself. */
  lemma RequestFrameRoundTrip(s: SocketTransport, call: CallDescriptor, keys: seq<string>, ty: DescriptorType)
    requires KeySetOrder(keys, s.base.headers) && FramableHeaders(s.base.headers)
    requires FramableName(NullText(call.serviceName)) && FramableName(NullText(call.methodName))
    requires NoTerminator(s.base.protocol.write(CallPayload(call)))
    requires CallRoundTrip(s.base.protocol)
    ensures var server := SocketServer.NewSocketServerTransport(Some(RequestFrame(s, call, keys)), Some(s.base.protocol));
            server.Success? &&
            var read := SocketServer.EnsureRead(server.value);
            read.1 == Pass &&
            read.0.headers == s.base.headers &&
            read.0.serviceName == Some(NullText(call.serviceName)) &&
            read.0.methodName == Some(NullText(call.methodName)) &&
            read.0.message == Some(s.base.protocol.write(CallPayload(call))) &&
            read.0.debugging == (SocketServer.DebugHeader in s.base.headers &&
                                 ParseBoolean(Some(s.base.headers[SocketServer.DebugHeader]))) &&
            SocketServer.Read(server.value, ty).1 == Success(call)
  {
    var headers := s.base.headers;
    var p := s.base.protocol;
    var headerText := Join(HeaderPairs(headers, keys), "||");
    var service := NullText(call.serviceName);
    var methodName := NullText(call.methodName);
    var routingText := service + "||" + methodName;
    var body := p.write(CallPayload(call));
    HeaderLineRoundTrip(headers, keys);
    RoutingRoundTrip(service, methodName);
    var afterRouting := body + "\r\n";
    var afterHeaders := routingText + "\r\n" + afterRouting;
    var frame := RequestFrame(s, call, keys);
    assert frame == headerText + "\r\n" + afterHeaders;
    ReadLineTerminated(headerText, afterHeaders);
    ReadLineTerminated(routingText, afterRouting);
    ReadLineTerminated(body, "");
    assert body + "\r\n" + "" == afterRouting;
  }

  /** Round trip of a reply: parsing what the server transport wrote gives the status
      value of the code and the serialised payload. */
  lemma ReplyRoundTrip(t: SocketServer.SocketServerTransport, code: Code, payload: Payload)
    requires t.output == ""
    requires NoTerminator(t.protocol.write(payload))
    ensures ParseReply(SocketServer.Write(t, code, payload).output)
         == Responded(CodeValue(code), Some(t.protocol.write(payload)), None)
  {
    var status := IntToString(CodeValue(code));
    var body := t.protocol.write(payload);
    assert NoTerminator(status) by {
      assert status == DecimalString(CodeValue(code));
    }
    ParseIntToString(CodeValue(code));
    var output := SocketServer.Write(t, code, payload).output;
    assert output == status + "\r\n" + (body + "\r\n");
    ReadLineTerminated(status, body + "\r\n");
    ReadLineTerminated(body, "");
    assert body + "\r\n" + "" == body + "\r\n";
  }
}

=== FILE: socket_server.dfy ===
/** `SocketServerTransport`: the server side of the socket binding. The request
    is three CRLF-terminated lines (headers, routing, body) that are read lazily,
    once, on the first access to the service name, method name, headers or the
    call; every access after that reuses what the first one stored, even when
    parsing it failed half-way. */
module SocketServer {
  import opened Wrappers
  import opened Text
  import opened Throwables
  import opened Protocols
  import opened ServerBase
  import ArgValidator

  const DebugHeader: string := "BABEL_DEBUG"

  datatype SocketServerTransport = SocketServerTransport(
    protocol: Protocol,
    input: string,
    streamRead: bool,
    serviceName: Option<string>,
    methodName: Option<string>,
    message: Option<string>,
    headers: map<string, string>,
    debugging: bool,
    responseCode: Option<Code>,
    responseMessage: Option<string>,
    output: string)

  /** The constructor: the protocol and then the socket (whose incoming text is `input`) must be non-null. */
  function NewSocketServerTransport(input: Option<string>, protocol: Option<Protocol>): (r: Result<SocketServerTransport, Thrown>)
    ensures protocol.None? ==> r == Failure(IllegalArgument(ArgValidator.NullMessage("protocol")))
    ensures protocol.Some? && input.None? ==> r == Failure(IllegalArgument(ArgValidator.NullMessage("socket")))
    ensures protocol.Some? && input.Some? ==>
              r.Success? && r.value.input == input.value && !r.value.streamRead &&
              r.value.headers == map[] && r.value.serviceName.None? && r.value.methodName.None? &&
              r.value.message.None? && r.value.responseCode.None? && r.value.output == ""
  {
    var p :- RequireProtocol(protocol);
    :- ArgValidator.NotNull("socket", input);
    Success(SocketServerTransport(p, input.value, false, None, None, None, map[], false, None, None, ""))
  }

  /** The `ArrayIndexOutOfBoundsException` of indexing an array of `length` at `index`. */
  function IndexOutOfBounds(index: nat, length: nat): Thrown {
    NewThrown(ArrayIndexLineage, "Index " + DecimalString(index) + " out of bounds for length " + DecimalString(length))
  }

  /** Headers stored so far, and the exception that stopped the parse, if any. */
  datatype HeaderParse = HeaderParse(headers: map<string, string>, failure: Option<Thrown>)

  /** The `setHeaders` loop: each token split on '=' stores `pair[0] -> pair[1]`; a token
      with fewer than two parts throws at the first missing index, keeping what was stored. */
  function PutHeaders(acc: map<string, string>, tokens: seq<string>): (r: HeaderParse)
    ensures forall k :: k in acc ==> k in r.headers
    decreases |tokens|
  {
    if tokens == [] then HeaderParse(acc, None)
    else
      var pair := Split(tokens[0], '=');
      if |pair| < 2 then HeaderParse(acc, Some(IndexOutOfBounds(|pair|, |pair|)))
      else PutHeaders(acc[pair[0] := pair[1]], tokens[1..])
  }

  /** The parse of `xs + ys` continues from where `xs` left off. */
  lemma {:induction false} PutHeadersAppend(acc: map<string, string>, xs: seq<string>, ys: seq<string>)
    ensures var first := PutHeaders(acc, xs);
            PutHeaders(acc, xs + ys) == if first.failure.Some? then first else PutHeaders(first.headers, ys)
    decreases |xs|
  {
    if xs != [] {
      assert (xs + ys)[0] == xs[0];
      assert (xs + ys)[1..] == xs[1..] + ys;
      var pair := Split(xs[0], '=');
      if |pair| >= 2 {
        PutHeadersAppend(acc[pair[0] := pair[1]], xs[1..], ys);
      }
    } else {
      assert xs + ys == ys;
    }
  }

  /** When a key occurs again later, the later value wins. */
  lemma LaterDuplicateWins(acc: map<string, string>, xs: seq<string>, key: string, value: string)
    requires '=' !in key && '=' !in value && value != []
    requires PutHeaders(acc, xs).failure.None?
    ensures PutHeaders(acc, xs + [key + "=" + value]) == HeaderParse(PutHeaders(acc, xs).headers[key := value], None)
  {
    PutHeadersAppend(acc, xs, [key + "=" + value]);
    SplitPair(key, value, '=');
    assert key + "=" + value == key + ['='] + value;
    var tail: seq<string> := [];
    assert [key + "=" + value][1..] == tail;
  }

  /** A token "k=v=w" stores `k -> v`; the part after the second '=' is dropped. */
  lemma ExtraPartsDropped(key: string, value: string, extra: string)
    requires '=' !in key && '=' !in value && '=' !in extra && extra != []
    ensures PutHeaders(map[], [key + "=" + value + "=" + extra]) == HeaderParse(map[key := value], None)
  {
    var token := key + "=" + value + "=" + extra;
    assert token == (key + ['='] + value) + ['='] + extra;
    FieldsAppend(key + ['='] + value, extra, '=');
    FieldsAppend(key, value, '=');
    FieldsWithoutSeparator(key, '=');
    FieldsWithoutSeparator(value, '=');
    FieldsWithoutSeparator(extra, '=');
    assert Fields(token, '=') == [key, value, extra];
    assert token[|key|] == '=';
    assert DropTrailingEmpty([key, value, extra]) == [key, value, extra];
    var tail: seq<string> := [];
    assert [token][1..] == tail;
  }

  /** A token with nothing after its '=' has a single part: reading `pair[1]` throws. */
  lemma MissingValueFails(key: string)
    requires '=' !in key && key != []
    ensures PutHeaders(map[], [key + "="]) == HeaderParse(map[], Some(IndexOutOfBounds(1, 1)))
  {
    var token := key + "=";
    assert token == key + ['='] + "";
    FieldsAppend(key, "", '=');
    FieldsWithoutSeparator(key, '=');
    assert Fields(token, '=') == [key, ""];
    assert token[|key|] == '=';
    assert DropTrailingEmpty([key, ""]) == [key];
  }

  /** `setHeaders`: tokenise on '|', store the pairs, then derive the debug flag. A null
      header line throws a `NullPointerException` before anything is stored. */
  function SetHeaders(t: SocketServerTransport, headerLine: Option<string>): (r: (SocketServerTransport, Outcome<Thrown>))
    ensures headerLine.None? ==> r == (t, Fail(NullPointer()))
    ensures headerLine.Some? ==>
              var parse := PutHeaders(t.headers, Tokenize(headerLine.value, '|'));
              r.0.headers == parse.headers &&
              (parse.failure.Some? ==> r.1 == Fail(parse.failure.value) && r.0 == t.(headers := parse.headers)) &&
              (parse.failure.None? ==>
                 r.1 == Pass &&
                 r.0.debugging == (if DebugHeader in parse.headers then ParseBoolean(Some(parse.headers[DebugHeader])) else t.debugging))
    ensures r.0 == t.(headers := r.0.headers, debugging := r.0.debugging)
  {
    if headerLine.None? then (t, Fail(NullPointer()))
    else
      var parse := PutHeaders(t.headers, Tokenize(headerLine.value, '|'));
      var t := t.(headers := parse.headers);
      if parse.failure.Some? then (t, Fail(parse.failure.value))
      else if DebugHeader in t.headers then (t.(debugging := ParseBoolean(Some(t.headers[DebugHeader]))), Pass)
      else (t, Pass)
  }

  /** `setRouting`: the first '|'-token is the service, the second the method; further
      tokens are ignored and a missing one leaves its field as it was. */
  function SetRouting(t: SocketServerTransport, routingLine: Option<string>): (r: (SocketServerTransport, Outcome<Thrown>))
    ensures routingLine.None? ==> r == (t, Fail(NullPointer()))
    ensures routingLine.Some? ==>
              var tokens := Tokenize(routingLine.value, '|');
              r.1 == Pass &&
              r.0.serviceName == (if |tokens| >= 1 then Some(tokens[0]) else t.serviceName) &&
              r.0.methodName == (if |tokens| >= 2 then Some(tokens[1]) else t.methodName)
    ensures r.0 == t.(serviceName := r.0.serviceName, methodName := r.0.methodName)
  {
    if routingLine.None? then (t, Fail(NullPointer()))
    else
      var tokens := Tokenize(routingLine.value, '|');
      var t := if |tokens| >= 1 then t.(serviceName := Some(tokens[0])) else t;
      var t := if |tokens| >= 2 then t.(methodName := Some(tokens[1])) else t;
      (t, Pass)
  }

  /** `readLine` on the unread input: the line (null at end of stream) and what remains. */
  function NextLine(input: string): (r: (Option<string>, string))
    ensures input == [] ==> r == (None, input)
    ensures input != [] ==> r.0 == Some(ReadLine(input).value.0) && r.1 == ReadLine(input).value.1
  {
    match ReadLine(input)
    case None => (None, input)
    case Some((line, rest)) => (Some(line), rest)
  }

  /** `readStream`: read the three lines, mark the stream read, then parse the headers
      and (only if that succeeded) the routing line. */
  function ReadStream(t: SocketServerTransport): (r: (SocketServerTransport, Outcome<Thrown>))
    ensures r.0.streamRead
  {
    var (headerLine, rest) := NextLine(t.input);
    var (routingLine, rest) := NextLine(rest);
    var (body, rest) := NextLine(rest);
    var t := t.(input := rest, message := body, streamRead := true);
    var (t, outcome) := SetHeaders(t, headerLine);
    if outcome.Fail? then (t, outcome) else SetRouting(t, routingLine)
  }

  /** The guard every lazy accessor runs first. */
  function EnsureRead(t: SocketServerTransport): (r: (SocketServerTransport, Outcome<Thrown>))
    ensures r.0.streamRead
    ensures t.streamRead ==> r == (t, Pass)
  {
    if t.streamRead then (t, Pass) else ReadStream(t)
  }

  /** The stream is read at most once: after the first access, later ones change nothing and never throw. */
  lemma EnsureReadOnce(t: SocketServerTransport)
    ensures EnsureRead(EnsureRead(t).0) == (EnsureRead(t).0, Pass)
  {
  }

  function GetServiceName(t: SocketServerTransport): (r: (SocketServerTransport, Option<string>, Outcome<Thrown>))
    ensures r.0 == EnsureRead(t).0 && r.1 == r.0.serviceName && r.2 == EnsureRead(t).1
    ensures r.0.streamRead && EnsureRead(r.0) == (r.0, Pass)
    ensures t.streamRead ==> r == (t, t.serviceName, Pass)
  {
    var (t, outcome) := EnsureRead(t);
    (t, t.serviceName, outcome)
  }

  function GetMethodName(t: SocketServerTransport): (r: (SocketServerTransport, Option<string>, Outcome<Thrown>))
    ensures r.0 == EnsureRead(t).0 && r.1 == r.0.methodName && r.2 == EnsureRead(t).1
    ensures r.0.streamRead && EnsureRead(r.0) == (r.0, Pass)
    ensures t.streamRead ==> r == (t, t.methodName, Pass)
  {
    var (t, outcome) := EnsureRead(t);
    (t, t.methodName, outcome)
  }

  /** The names are read once: after either accessor, asking again for either name
      reads nothing, cannot fail, and gives what that accessor would have given first. */
  lemma NamesCached(t: SocketServerTransport)
    ensures var u := GetServiceName(t).0;
            GetServiceName(u) == (u, GetServiceName(t).1, Pass) && GetMethodName(u) == (u, GetMethodName(t).1, Pass)
    ensures var u := GetMethodName(t).0;
            GetMethodName(u) == (u, GetMethodName(t).1, Pass) && GetServiceName(u) == (u, GetServiceName(t).1, Pass)
  {
    EnsureReadOnce(t);
  }

  /** `getHeader`: null for a header that was not sent. */
  function GetHeader(t: SocketServerTransport, name: string): (r: (SocketServerTransport, Option<string>, Outcome<Thrown>))
    ensures r.0 == EnsureRead(t).0 && r.2 == EnsureRead(t).1
    ensures r.1.Some? <==> name in r.0.headers
    ensures r.1.Some? ==> r.1.value == r.0.headers[name]
  {
    var (t, outcome) := EnsureRead(t);
    (t, if name in t.headers then Some(t.headers[name]) else None, outcome)
  }

  function UnparsableMessage(): string {
    "Unable to parse service call json"
  }

  /** `read`: make sure the stream was read, then decode the body line as a call of the
      given type; a null decode result is rejected. */
  function Read(t: SocketServerTransport, ty: DescriptorType): (r: (SocketServerTransport, Result<CallDescriptor, Thrown>))
    ensures r.0 == EnsureRead(t).0
    ensures EnsureRead(t).1.Fail? ==> r.1 == Failure(EnsureRead(t).1.error)
    ensures EnsureRead(t).1.Pass? ==>
              var decoded := t.protocol.readCall(r.0.message, ty);
              (decoded.Decoded? ==> r.1 == Success(decoded.value)) &&
              (decoded.DecodedNull? ==> r.1 == Failure(RuntimeError(UnparsableMessage()))) &&
              (decoded.DecodeThrew? ==> r.1 == Failure(decoded.error))
  {
    var (t, outcome) := EnsureRead(t);
    if outcome.Fail? then (t, Failure(outcome.error))
    else
      match t.protocol.readCall(t.message, ty)
      case Decoded(c) => (t, Success(c))
      case DecodedNull => (t, Failure(RuntimeError(UnparsableMessage())))
      case DecodeThrew(e) => (t, Failure(e))
  }

  /** `write`: the status value and the serialised payload, each on its own CRLF-terminated
      line; the payload line, terminator included, becomes the response message. */
  function Write(t: SocketServerTransport, code: Code, payload: Payload): (u: SocketServerTransport)
    ensures u.responseCode == Some(code)
    ensures u.responseMessage == Some(t.protocol.write(payload) + "\r\n")
    ensures u.output == t.output + IntToString(CodeValue(code)) + "\r\n" + u.responseMessage.value
    ensures u == t.(responseCode := u.responseCode, responseMessage := u.responseMessage, output := u.output)
  {
    var header := IntToString(CodeValue(code)) + "\r\n";
    var message := t.protocol.write(payload) + "\r\n";
    t.(responseCode := Some(code), output := t.output + header + message, responseMessage := Some(message))
  }
}

=== FILE: text.dfy ===
/** The string operations of the Java standard library that the runtime's
    framing and routing rely on, restated over `seq<char>`:
    ASCII case folding (`toLowerCase`, `equalsIgnoreCase`), `StringTokenizer`
    with a one-character delimiter set, `String.split` on a single literal
    character, `BufferedReader.readLine`, `Integer.parseInt` /
    `Integer.toString` and `Boolean.parseBoolean`. */
module Text {
  import opened Wrappers

  const MinInt32: int := -0x8000_0000
  const MaxInt32: int := 0x7FFF_FFFF

  /** Java's rendering of a possibly-null string in a concatenation. */
  function NullText(s: Option<string>): string {
    match s
    case Some(v) => v
    case None => "null"
  }

  /** `sep`-joined concatenation of `parts`, with no leading or trailing separator. */
  function Join(parts: seq<string>, sep: string): string {
    if |parts| == 0 then ""
    else if |parts| == 1 then parts[0]
    else parts[0] + sep + Join(parts[1..], sep)
  }

  /** Joining one more part appends the separator and the part. */
  lemma {:induction false} JoinSnoc(parts: seq<string>, last: string, sep: string)
    ensures Join(parts + [last], sep) == if parts == [] then last else Join(parts, sep) + sep + last
    decreases |parts|
  {
    if |parts| > 1 {
      assert (parts + [last])[1..] == parts[1..] + [last];
      JoinSnoc(parts[1..], last, sep);
    } else if |parts| == 1 {
      assert (parts + [last])[1..] == [last];
    }
  }

  // ---------------------------------------------------------------------------
  // HashMap iteration

  /** `keys` lists the key set of `m`, in whatever order the map iterates it. The
      operations that take such a list do not rely on a key occurring only once. */
  predicate KeySetOrder<V>(keys: seq<string>, m: map<string, V>) {
    (forall k :: k in m ==> k in keys) &&
    (forall i :: 0 <= i < |keys| ==> keys[i] in m)
  }

  /** `keys` is exactly the map's iteration: every key, each once (the length is the map's size). */
  predicate Enumerates<V>(keys: seq<string>, m: map<string, V>) {
    KeySetOrder(keys, m) && |keys| == |m|
  }

  /** The entries of `m` whose keys occur in `keys`. */
  function Restrict<V>(m: map<string, V>, keys: seq<string>): map<string, V> {
    map k | k in m && k in keys :: m[k]
  }

  /** A full enumeration of the key set restricts to the whole map. */
  lemma RestrictToKeySet<V>(m: map<string, V>, keys: seq<string>)
    requires KeySetOrder(keys, m)
    ensures Restrict(m, keys) == m
    ensures keys == [] <==> m == map[]
  {
    if keys == [] {
      assert m.Keys == {};
    } else {
      assert keys[0] in m;
    }
  }

  // ---------------------------------------------------------------------------
  // ASCII case folding

  function LowerChar(c: char): char {
    if 'A' <= c <= 'Z' then (c as int + 32) as char else c
  }

  function UpperChar(c: char): char {
    if 'a' <= c <= 'z' then (c as int - 32) as char else c
  }

  function ToLower(s: string): string {
    seq(|s|, i requires 0 <= i < |s| => LowerChar(s[i]))
  }

  /** Character comparison exactly as `String.regionMatches(true, ...)` performs it:
      equal, or equal after upper-casing, or equal after upper- then lower-casing. */
  predicate CharEqualsIgnoreCase(a: char, b: char) {
    a == b || UpperChar(a) == UpperChar(b) || LowerChar(UpperChar(a)) == LowerChar(UpperChar(b))
  }

  /** `String.equalsIgnoreCase` on non-null strings. */
  predicate EqualsIgnoreCase(a: string, b: string) {
    |a| == |b| && forall i :: 0 <= i < |a| ==> CharEqualsIgnoreCase(a[i], b[i])
  }

  /** `equalsIgnoreCase` where the argument may be null: a null argument never matches. */
  predicate EqualsIgnoreCaseOrNull(a: string, b: Option<string>) {
    b.Some? && EqualsIgnoreCase(a, b.value)
  }

  lemma CharEqualsIgnoreCaseIsLowerEquality(a: char, b: char)
    ensures CharEqualsIgnoreCase(a, b) <==> LowerChar(a) == LowerChar(b)
  {
  }

  /** The character-wise Java comparison and the comparison of lower-cased
      strings (what the dispatcher's lower-cased registry keys rely on) agree. */
  lemma EqualsIgnoreCaseIsLowerEquality(a: string, b: string)
    ensures EqualsIgnoreCase(a, b) <==> ToLower(a) == ToLower(b)
  {
    if EqualsIgnoreCase(a, b) {
      forall i | 0 <= i < |a|
        ensures ToLower(a)[i] == ToLower(b)[i]
      {
        CharEqualsIgnoreCaseIsLowerEquality(a[i], b[i]);
      }
    }
    if ToLower(a) == ToLower(b) {
      forall i | 0 <= i < |a|
        ensures CharEqualsIgnoreCase(a[i], b[i])
      {
        assert ToLower(a)[i] == ToLower(b)[i];
        CharEqualsIgnoreCaseIsLowerEquality(a[i], b[i]);
      }
    }
  }

  lemma ToLowerIdempotent(s: string)
    ensures ToLower(ToLower(s)) == ToLower(s)
  {
  }

  lemma EqualsIgnoreCaseEquivalence(a: string, b: string, c: string)
    ensures EqualsIgnoreCase(a, a)
    ensures EqualsIgnoreCase(a, b) ==> EqualsIgnoreCase(b, a)
    ensures EqualsIgnoreCase(a, b) && EqualsIgnoreCase(b, c) ==> EqualsIgnoreCase(a, c)
  {
    EqualsIgnoreCaseIsLowerEquality(a, a);
    EqualsIgnoreCaseIsLowerEquality(a, b);
    EqualsIgnoreCaseIsLowerEquality(b, a);
    EqualsIgnoreCaseIsLowerEquality(b, c);
    EqualsIgnoreCaseIsLowerEquality(a, c);
  }

  /** `Boolean.parseBoolean`: true exactly for a non-null "true" in any letter case. */
  function ParseBoolean(s: Option<string>): (b: bool)
    ensures b <==> s.Some? && ToLower(s.value) == "true"
  {
    EqualsIgnoreCaseIsLowerEquality(s.GetOr(""), "true");
    s.Some? && EqualsIgnoreCase(s.value, "true")
  }

  // ---------------------------------------------------------------------------
  // java.util.StringTokenizer with a single delimiter character

  /** Length of the longest prefix of `s` free of `d`. */
  function RunLength(s: string, d: char): (n: nat)
    ensures n <= |s|
    ensures forall i :: 0 <= i < n ==> s[i] != d
    ensures n < |s| ==> s[n] == d
  {
    if s == [] || s[0] == d then 0 else 1 + RunLength(s[1..], d)
  }

  /** The tokens a `StringTokenizer` with delimiter set `{d}` returns, in order:
      the maximal runs of non-delimiter characters. Empty tokens never occur. */
  function Tokenize(s: string, d: char): (tokens: seq<string>)
    ensures forall i :: 0 <= i < |tokens| ==> tokens[i] != [] && d !in tokens[i]
    decreases |s|
  {
    if s == [] then []
    else if s[0] == d then Tokenize(s[1..], d)
    else
      var n := RunLength(s, d);
      assert n > 0 by { assert s[0] != d; }
      [s[..n]] + Tokenize(s[n..], d)
  }

  lemma TokenizeSkipsDelimiter(d: char, x: string)
    ensures Tokenize([d] + x, d) == Tokenize(x, d)
  {
    assert ([d] + x)[1..] == x;
  }

  /** A delimiter-free run followed by a delimiter (or the end) is one token. */
  lemma {:induction false} TokenizeRun(t: string, x: string, d: char)
    requires t != [] && d !in t
    requires x == [] || x[0] == d
    ensures Tokenize(t + x, d) == [t] + Tokenize(x, d)
  {
    var s := t + x;
    var n := RunLength(s, d);
    assert forall i :: 0 <= i < |t| ==> s[i] == t[i];
    assert |s| > |t| ==> s[|t|] == x[0];
    assert n == |t|;
    assert s[0] == t[0];
    assert s[..n] == t;
    assert s[n..] == x;
  }

  /** Tokenizing a `dd`-joined list of non-empty, delimiter-free parts gives the parts back. */
  lemma {:induction false} TokenizeJoin(parts: seq<string>, d: char)
    requires forall i :: 0 <= i < |parts| ==> parts[i] != [] && d !in parts[i]
    ensures Tokenize(Join(parts, [d, d]), d) == parts
    decreases |parts|
  {
    if |parts| == 0 {
    } else if |parts| == 1 {
      TokenizeRun(parts[0], [], d);
      assert parts[0] + [] == parts[0];
    } else {
      var rest := Join(parts[1..], [d, d]);
      assert Join(parts, [d, d]) == parts[0] + ([d, d] + rest);
      TokenizeRun(parts[0], [d, d] + rest, d);
      TokenizeSkipsDelimiter(d, [d] + rest);
      assert [d, d] + rest == [d] + ([d] + rest);
      TokenizeSkipsDelimiter(d, rest);
      TokenizeJoin(parts[1..], d);
    }
  }

  // ---------------------------------------------------------------------------
  // String.split with a single literal character

  /** All `c`-separated fields of `s`, empty ones included. */
  function Fields(s: string, c: char): (fs: seq<string>)
    ensures |fs| >= 1
    ensures forall i :: 0 <= i < |fs| ==> c !in fs[i]
    decreases |s|
  {
    if s == [] then [""] else FieldsCons(s[0], Fields(s[1..], c), c)
  }

  /** The fields of a string from its first character and the fields of the rest: the
      separator opens a new field, any other character joins the first one. */
  function FieldsCons(head: char, rest: seq<string>, c: char): (fs: seq<string>)
    requires |rest| >= 1
    ensures |fs| >= 1
  {
    if head == c then [""] + rest else [[head] + rest[0]] + rest[1..]
  }

  /** `fs` without its trailing empty strings. */
  function DropTrailingEmpty(fs: seq<string>): (r: seq<string>)
    ensures |r| <= |fs| && r == fs[..|r|]
    ensures r != [] ==> r[|r| - 1] != []
    ensures forall i :: |r| <= i < |fs| ==> fs[i] == []
  {
    if fs == [] then []
    else if fs[|fs| - 1] == [] then DropTrailingEmpty(fs[..|fs| - 1])
    else fs
  }

  /** `s.split(c)` for a character that is not a regular-expression metacharacter:
      with no occurrence of `c` the result is `[s]` (so `"".split` is `[""]`),
      otherwise the fields with trailing empty strings removed. */
  function Split(s: string, c: char): (parts: seq<string>)
    ensures forall i :: 0 <= i < |parts| ==> c !in parts[i]
  {
    if c !in s then [s] else DropTrailingEmpty(Fields(s, c))
  }

  lemma {:induction false} FieldsWithoutSeparator(s: string, c: char)
    requires c !in s
    ensures Fields(s, c) == [s]
    decreases |s|
  {
    if s != [] {
      FieldsWithoutSeparator(s[1..], c);
      assert [s[0]] + s[1..] == s;
    }
  }

  /** Extending the last field does not touch the first: the step commutes with appending. */
  lemma FieldsConsAppend(head: char, fx: seq<string>, fy: seq<string>, c: char)
    requires |fx| >= 1
    ensures FieldsCons(head, fx + fy, c) == FieldsCons(head, fx, c) + fy
  {
    if head != c {
      assert (fx + fy)[0] == fx[0];
      assert (fx + fy)[1..] == fx[1..] + fy;
    }
  }

  /** A separator splits the fields exactly where it stands. */
  lemma {:induction false} FieldsAppend(x: string, y: string, c: char)
    ensures Fields(x + [c] + y, c) == Fields(x, c) + Fields(y, c)
    decreases |x|
  {
    if x == [] {
      assert (x + [c] + y)[0] == c;
      assert (x + [c] + y)[1..] == y;
    } else {
      assert (x + [c] + y)[0] == x[0];
      assert (x + [c] + y)[1..] == x[1..] + [c] + y;
      FieldsAppend(x[1..], y, c);
      FieldsConsAppend(x[0], Fields(x[1..], c), Fields(y, c), c);
    }
  }


  /** The fields of `s`, re-joined with the separator, give `s` back. */
  lemma {:induction false} FieldsJoin(s: string, c: char)
    ensures Join(Fields(s, c), [c]) == s
    decreases |s|
  {
    if s != [] {
      FieldsJoin(s[1..], c);
      JoinFieldsCons(s[0], Fields(s[1..], c), c);
      assert [s[0]] + s[1..] == s;
    }
  }

  /** Joining a list with one more part in front. */
  lemma JoinCons(part: string, parts: seq<string>, sep: string)
    requires |parts| >= 1
    ensures Join([part] + parts, sep) == part + sep + Join(parts, sep)
  {
    assert ([part] + parts)[1..] == parts;
  }

  /** Joining a list whose first part has been extended at the front. */
  lemma JoinExtendFirst(prefix: string, parts: seq<string>, sep: string)
    requires |parts| >= 1
    ensures Join([prefix + parts[0]] + parts[1..], sep) == prefix + Join(parts, sep)
  {
    var fs := [prefix + parts[0]] + parts[1..];
    if |parts| > 1 {
      var tail := Join(parts[1..], sep);
      assert fs[1..] == parts[1..];
      assert (prefix + parts[0]) + sep + tail == prefix + (parts[0] + sep + tail);
    }
  }

  /** Re-joining after one step of `Fields` puts the character back in front. */
  lemma JoinFieldsCons(head: char, rest: seq<string>, c: char)
    requires |rest| >= 1
    ensures Join(FieldsCons(head, rest, c), [c]) == [head] + Join(rest, [c])
  {
    if head == c {
      JoinCons("", rest, [c]);
      assert "" + [c] + Join(rest, [c]) == [c] + Join(rest, [c]);
    } else {
      JoinExtendFirst([head], rest, [c]);
    }
  }





  /** The last two `c`-separated parts of `p + c + a + c + b` are `a` and `b`,
      whatever the prefix `p`, when `a` and `b` are free of `c` and `b` is non-empty. */
  lemma {:induction false} SplitLastTwo(p: string, a: string, b: string, c: char)
    requires c !in a && c !in b && b != []
    ensures var parts := Split(p + [c] + a + [c] + b, c);
            |parts| >= 2 && parts[|parts| - 2] == a && parts[|parts| - 1] == b
  {
    var s := p + [c] + a + [c] + b;
    assert s == (p + [c] + a) + [c] + b;
    FieldsAppend(p + [c] + a, b, c);
    FieldsAppend(p, a, c);
    FieldsWithoutSeparator(a, c);
    FieldsWithoutSeparator(b, c);
    var fs := Fields(p, c) + [a] + [b];
    assert Fields(s, c) == fs;
    assert s[|p|] == c;
    assert fs[|fs| - 1] == b;
    assert DropTrailingEmpty(fs) == fs;
  }

  /** `k + "=" + v` splits on '=' into exactly `[k, v]` when both are non-empty and '='-free. */
  lemma SplitPair(k: string, v: string, c: char)
    requires c !in k && c !in v && v != []
    ensures Split(k + [c] + v, c) == [k, v]
  {
    var s := k + [c] + v;
    FieldsAppend(k, v, c);
    FieldsWithoutSeparator(k, c);
    FieldsWithoutSeparator(v, c);
    assert s[|k|] == c;
    assert Fields(s, c) == [k, v];
    assert DropTrailingEmpty([k, v]) == [k, v];
  }

  // ---------------------------------------------------------------------------
  // BufferedReader.readLine

  predicate IsTerminator(c: char) {
    c == '\r' || c == '\n'
  }

  predicate NoTerminator(s: string) {
    forall i :: 0 <= i < |s| ==> !IsTerminator(s[i])
  }

  /** Concatenation keeps a string free of line terminators. */
  lemma NoTerminatorAppend(a: string, b: string)
    requires NoTerminator(a) && NoTerminator(b)
    ensures NoTerminator(a + b)
  {
    forall i | 0 <= i < |a + b|
      ensures !IsTerminator((a + b)[i])
    {
      if i < |a| {
        assert (a + b)[i] == a[i];
      } else {
        assert (a + b)[i] == b[i - |a|];
      }
    }
  }

  /** So does joining terminator-free parts with a terminator-free separator. */
  lemma {:induction false} JoinNoTerminator(parts: seq<string>, sep: string)
    requires NoTerminator(sep)
    requires forall i :: 0 <= i < |parts| ==> NoTerminator(parts[i])
    ensures NoTerminator(Join(parts, sep))
    decreases |parts|
  {
    if |parts| > 1 {
      JoinNoTerminator(parts[1..], sep);
      NoTerminatorAppend(parts[0], sep);
      NoTerminatorAppend(parts[0] + sep, Join(parts[1..], sep));
    }
  }

  function TerminatorIndex(s: string): (n: nat)
    ensures n <= |s|
    ensures forall i :: 0 <= i < n ==> !IsTerminator(s[i])
    ensures n < |s| ==> IsTerminator(s[n])
  {
    if s == [] || IsTerminator(s[0]) then 0 else 1 + TerminatorIndex(s[1..])
  }

  /** One `readLine` on the stream content `s`: `None` at end of stream, else
      the line (without its "\n", "\r" or "\r\n" terminator) and the unread rest. */
  function ReadLine(s: string): (r: Option<(string, string)>)
    ensures s == [] <==> r.None?
    ensures r.Some? ==> NoTerminator(r.value.0) && |r.value.1| < |s|
  {
    if s == [] then None
    else
      var n := TerminatorIndex(s);
      if n == |s| then Some((s, ""))
      else if s[n] == '\r' && n + 1 < |s| && s[n + 1] == '\n' then Some((s[..n], s[n + 2..]))
      else Some((s[..n], s[n + 1..]))
  }

  /** A line written with a CRLF terminator is read back exactly. */
  lemma ReadLineTerminated(x: string, rest: string)
    requires NoTerminator(x)
    ensures ReadLine(x + "\r\n" + rest) == Some((x, rest))
  {
    var s := x + "\r\n" + rest;
    var n := TerminatorIndex(s);
    assert forall i :: 0 <= i < |x| ==> s[i] == x[i];
    assert s[|x|] == '\r';
    assert n == |x|;
    assert s[n + 1] == '\n';
    assert s[..n] == x;
    assert s[n + 2..] == rest;
  }

  /** `s` with every CR and LF removed. */
  function StripTerminators(s: string): (r: string)
    ensures NoTerminator(r)
  {
    if s == [] then ""
    else if IsTerminator(s[0]) then StripTerminators(s[1..])
    else [s[0]] + StripTerminators(s[1..])
  }

  lemma {:induction false} StripTerminatorsAppend(a: string, b: string)
    ensures StripTerminators(a + b) == StripTerminators(a) + StripTerminators(b)
    decreases |a|
  {
    if a != [] {
      assert (a + b)[0] == a[0];
      assert (a + b)[1..] == a[1..] + b;
      StripTerminatorsAppend(a[1..], b);
    } else {
      assert a + b == b;
    }
  }

  lemma {:induction false} StripTerminatorsNoop(s: string)
    requires NoTerminator(s)
    ensures StripTerminators(s) == s
    decreases |s|
  {
    if s != [] {
      StripTerminatorsNoop(s[1..]);
      assert [s[0]] + s[1..] == s;
    }
  }

  predicate AllTerminators(s: string) {
    forall i :: 0 <= i < |s| ==> IsTerminator(s[i])
  }

  lemma {:induction false} StripAllTerminators(s: string)
    requires AllTerminators(s)
    ensures StripTerminators(s) == ""
    decreases |s|
  {
    if s != [] {
      StripAllTerminators(s[1..]);
    }
  }

  lemma StripLine(line: string, term: string, rest: string)
    requires NoTerminator(line) && AllTerminators(term)
    ensures StripTerminators(line + term + rest) == line + StripTerminators(rest)
  {
    assert StripTerminators(line + term + rest) == StripTerminators(line + (term + rest)) by {
      assert line + term + rest == line + (term + rest);
    }
    StripTerminatorsAppend(line, term + rest);
    StripTerminatorsNoop(line);
    StripTerminatorsAppend(term, rest);
    StripAllTerminators(term);
    assert "" + StripTerminators(rest) == StripTerminators(rest);
  }

  /** Reading one line and stripping the rest loses exactly the line's terminator. */
  lemma ReadLineStrip(s: string)
    requires s != []
    ensures StripTerminators(s) == ReadLine(s).value.0 + StripTerminators(ReadLine(s).value.1)
  {
    var n := TerminatorIndex(s);
    var line := s[..n];
    if n == |s| {
      assert s == line + "" + "";
      StripLine(line, "", "");
    } else {
      var k := if s[n] == '\r' && n + 1 < |s| && s[n + 1] == '\n' then n + 2 else n + 1;
      var term, rest := s[n..k], s[k..];
      assert ReadLine(s).value == (line, rest);
      assert s == line + term + rest;
      StripLine(line, term, rest);
    }
  }

  // ---------------------------------------------------------------------------
  // Integer.toString / Integer.parseInt (decimal, ASCII digits)

  predicate IsDigit(c: char) {
    '0' <= c <= '9'
  }

  predicate AllDigits(s: string) {
    forall i :: 0 <= i < |s| ==> IsDigit(s[i])
  }

  function DigitChar(d: nat): (c: char)
    requires d < 10
    ensures IsDigit(c)
  {
    ('0' as int + d) as char
  }

  function DigitsValue(s: string): nat
    requires AllDigits(s)
  {
    if s == [] then 0
    else 10 * DigitsValue(s[..|s| - 1]) + (s[|s| - 1] as int - '0' as int)
  }

  /** Decimal digits of `n`, most significant first, no leading zeros. */
  function DecimalString(n: nat): (s: string)
    ensures s != [] && AllDigits(s)
  {
    if n < 10 then [DigitChar(n)] else DecimalString(n / 10) + [DigitChar(n % 10)]
  }

  /** `Integer.toString(i)` / `"" + i`. */
  function IntToString(i: int): string {
    if i < 0 then "-" + DecimalString(-i) else DecimalString(i)
  }

  /** `Integer.parseInt(s)`: an optional sign and at least one digit, within the
      32-bit range; `None` stands for the `NumberFormatException`. */
  function ParseInt(s: string): (r: Option<int>)
    ensures r.Some? ==> MinInt32 <= r.value <= MaxInt32
    ensures r.Some? ==> s != [] && (IsDigit(s[0]) || s[0] == '-' || s[0] == '+')
  {
    if s == [] then None
    else
      var digits := if s[0] == '-' || s[0] == '+' then s[1..] else s;
      if digits == [] || !AllDigits(digits) then None
      else
        var v: int := if s[0] == '-' then 0 - (DigitsValue(digits) as int) else DigitsValue(digits);
        if MinInt32 <= v <= MaxInt32 then Some(v) else None
  }

  lemma {:induction false} DigitsValueOfDecimal(n: nat)
    ensures DigitsValue(DecimalString(n)) == n
    decreases n
  {
    if n >= 10 {
      DigitsValueOfDecimal(n / 10);
      var s := DecimalString(n);
      assert s[..|s| - 1] == DecimalString(n / 10);
    }
  }

  /** `Integer.parseInt` reads back what `Integer.toString` wrote, over the whole 32-bit range. */
  lemma ParseIntToString(i: int)
    requires MinInt32 <= i <= MaxInt32
    ensures ParseInt(IntToString(i)) == Some(i)
  {
    var s := IntToString(i);
    if i < 0 {
      var digits := DecimalString(-i);
      DigitsValueOfDecimal(-i);
      assert s == "-" + digits;
      assert s[0] == '-';
      assert s[1..] == digits;
    } else {
      DigitsValueOfDecimal(i);
      assert s == DecimalString(i);
      assert IsDigit(s[0]);
    }
  }

  // ---------------------------------------------------------------------------
  // String.replace("+", "%20")

  /** One character of the replacement: '+' becomes "%20", anything else stays. */
  function ReplacedChar(ch: char): (r: string)
    ensures '+' !in r
    ensures ch != '+' ==> r == [ch]
  {
    if ch == '+' then "%20" else [ch]
  }

  /** `s` with every '+' replaced by "%20". */
  function ReplacePlus(s: string): (r: string)
    ensures |r| >= |s|
  {
    if s == [] then "" else ReplacedChar(s[0]) + ReplacePlus(s[1..])
  }

  /** No '+' survives the replacement. */
  lemma {:induction false} ReplacePlusRemovesPlus(s: string)
    ensures '+' !in ReplacePlus(s)
    decreases |s|
  {
    if s != [] {
      ReplacePlusRemovesPlus(s[1..]);
      var piece, rest := ReplacedChar(s[0]), ReplacePlus(s[1..]);
      assert ReplacePlus(s) == piece + rest;
      forall i | 0 <= i < |piece + rest|
        ensures (piece + rest)[i] != '+'
      {
        if i < |piece| {
          assert (piece + rest)[i] == piece[i];
        } else {
          assert (piece + rest)[i] == rest[i - |piece|];
        }
      }
    }
  }

  /** Replacing works piece by piece. */
  lemma {:induction false} ReplacePlusAppend(a: string, b: string)
    ensures ReplacePlus(a + b) == ReplacePlus(a) + ReplacePlus(b)
    decreases |a|
  {
    if a == [] {
      assert a + b == b;
    } else {
      assert (a + b)[0] == a[0];
      assert (a + b)[1..] == a[1..] + b;
      ReplacePlusAppend(a[1..], b);
    }
  }

  /** A string without '+' is left unchanged. */
  lemma {:induction false} ReplacePlusNoop(a: string)
    requires '+' !in a
    ensures ReplacePlus(a) == a
    decreases |a|
  {
    if a != [] {
      assert a[0] in a;
      assert forall ch :: ch in a[1..] ==> ch in a;
      ReplacePlusNoop(a[1..]);
      assert [a[0]] + a[1..] == a;
    }
  }
}

=== FILE: throwables.dfy ===
/** Java throwables as values. A class is identified by its name and a thrown
    object carries its lineage: its own class first, then every superclass up
    to `java.lang.Object`. `instanceof` and `catch` test the lineage. Babel's
    own exceptions (`BabelException` and its subclasses) also carry a
    `ServiceError`; for every other throwable that field is unused. */
module Throwables {
  import opened Wrappers
  import opened Errors

  type ClassName = string

  /** A superclass chain, own class first; never empty. */
  type Lineage = l: seq<ClassName> | |l| > 0 witness ["java.lang.Object"]

  /** `detail` is the message given at construction; `growable` is false when a
      Babel exception's error list is the fixed-size list `Arrays.asList` returned. */
  datatype Thrown = Thrown(
    lineage: Lineage,
    detail: Option<string>,
    cause: Option<Thrown>,
    serviceError: Option<ServiceError>,
    growable: bool)

  const ObjectClass: ClassName := "java.lang.Object"
  const ThrowableClass: ClassName := "java.lang.Throwable"
  const ExceptionClass: ClassName := "java.lang.Exception"
  const ErrorClass: ClassName := "java.lang.Error"
  const RuntimeExceptionClass: ClassName := "java.lang.RuntimeException"
  const IllegalArgumentClass: ClassName := "java.lang.IllegalArgumentException"
  const NumberFormatClass: ClassName := "java.lang.NumberFormatException"
  const NullPointerClass: ClassName := "java.lang.NullPointerException"
  const UnsupportedOperationClass: ClassName := "java.lang.UnsupportedOperationException"
  const IndexOutOfBoundsClass: ClassName := "java.lang.IndexOutOfBoundsException"
  const ArrayIndexOutOfBoundsClass: ClassName := "java.lang.ArrayIndexOutOfBoundsException"
  const IOExceptionClass: ClassName := "java.io.IOException"
  const InterruptedIOClass: ClassName := "java.io.InterruptedIOException"
  const SocketTimeoutClass: ClassName := "java.net.SocketTimeoutException"
  const SocketExceptionClass: ClassName := "java.net.SocketException"
  const ConnectExceptionClass: ClassName := "java.net.ConnectException"
  const BabelExceptionClass: ClassName := "com.concur.babel.exception.BabelException"
  const BabelApplicationClass: ClassName := "com.concur.babel.exception.BabelApplicationException"

  const ThrowableLineage: Lineage := [ThrowableClass, ObjectClass]
  const ExceptionLineage: Lineage := [ExceptionClass] + ThrowableLineage
  const ErrorLineage: Lineage := [ErrorClass] + ThrowableLineage
  const RuntimeLineage: Lineage := [RuntimeExceptionClass] + ExceptionLineage
  const IllegalArgumentLineage: Lineage := [IllegalArgumentClass] + RuntimeLineage
  const NumberFormatLineage: Lineage := [NumberFormatClass] + IllegalArgumentLineage
  const NullPointerLineage: Lineage := [NullPointerClass] + RuntimeLineage
  const UnsupportedOperationLineage: Lineage := [UnsupportedOperationClass] + RuntimeLineage
  const ArrayIndexLineage: Lineage := [ArrayIndexOutOfBoundsClass, IndexOutOfBoundsClass] + RuntimeLineage
  const IOLineage: Lineage := [IOExceptionClass] + ExceptionLineage
  const SocketTimeoutLineage: Lineage := [SocketTimeoutClass, InterruptedIOClass] + IOLineage
  const ConnectLineage: Lineage := [ConnectExceptionClass, SocketExceptionClass] + IOLineage
  const BabelLineage: Lineage := [BabelExceptionClass] + RuntimeLineage
  const BabelApplicationLineage: Lineage := [BabelApplicationClass] + BabelLineage

  /** The runtime class of `t`. */
  function ClassOf(t: Thrown): ClassName {
    t.lineage[0]
  }

  /** `t instanceof c`. */
  predicate IsA(t: Thrown, c: ClassName) {
    c in t.lineage
  }

  /** Caught by `catch (Exception e)`. */
  predicate IsException(t: Thrown) {
    IsA(t, ExceptionClass)
  }

  predicate IsIOException(t: Thrown) {
    IsA(t, IOExceptionClass)
  }

  /** Caught by `catch (BabelException e)`. */
  predicate IsBabel(t: Thrown) {
    IsA(t, BabelExceptionClass)
  }

  /** A `BabelApplicationException`: the only signal for an application-level error. */
  predicate IsApplication(t: Thrown) {
    IsA(t, BabelApplicationClass)
  }

  function NewThrown(lineage: Lineage, message: string): Thrown {
    Thrown(lineage, Some(message), None, None, false)
  }

  /** A `NullPointerException` raised by dereferencing null (no message). */
  function NullPointer(): Thrown {
    Thrown(NullPointerLineage, None, None, None, false)
  }

  function IllegalArgument(message: string): Thrown {
    NewThrown(IllegalArgumentLineage, message)
  }

  function RuntimeError(message: string): Thrown {
    NewThrown(RuntimeLineage, message)
  }

  function UnsupportedOperation(): Thrown {
    Thrown(UnsupportedOperationLineage, None, None, None, false)
  }

  /** The two network failures a client retries: a read/connect timeout or a refused connection. */
  predicate IsTransient(t: Thrown) {
    IsA(t, SocketTimeoutClass) || IsA(t, ConnectExceptionClass)
  }

  /** The two transient failures are IOExceptions, and no Babel exception is one. */
  lemma TransientFailuresAreIOExceptions(t: Thrown)
    requires t.lineage == SocketTimeoutLineage || t.lineage == ConnectLineage
    ensures IsTransient(t) && IsIOException(t) && IsException(t) && !IsBabel(t)
  {
  }

  /** A `java.lang.Error` is not an `Exception`; a Babel exception is a `RuntimeException`. */
  lemma LineageFacts(t: Thrown)
    ensures t.lineage == ErrorLineage ==> !IsException(t)
    ensures t.lineage == BabelApplicationLineage ==> IsBabel(t) && IsApplication(t) && IsA(t, RuntimeExceptionClass)
    ensures t.lineage == BabelLineage ==> IsBabel(t) && !IsApplication(t) && IsException(t)
  {
  }
}

=== FILE: wrappers.dfy ===
/** Failure-compatible wrappers used throughout the model: `Option` stands for a
    Java reference that may be null, `Result` for a call that either returns or
    throws, and `Outcome` for a check that either passes or throws. */
module Wrappers {

  datatype Option<+T> = None | Some(value: T) {

    predicate IsFailure() {
      None?
    }

    function PropagateFailure<U>(): Option<U>
      requires None?
    {
      None
    }

    function Extract(): T
      requires Some?
    {
      value
    }

    function GetOr(default: T): T {
      match this
      case Some(v) => v
      case None => default
    }
  }

  datatype Result<+R, +E> = Success(value: R) | Failure(error: E) {

    predicate IsFailure() {
      Failure?
    }

    function PropagateFailure<U>(): Result<U, E>
      requires Failure?
    {
      Failure(error)
    }

    function Extract(): R
      requires Success?
    {
      value
    }
  }

  datatype Outcome<+E> = Pass | Fail(error: E) {

    predicate IsFailure() {
      Fail?
    }

    function PropagateFailure<U>(): Result<U, E>
      requires Fail?
    {
      Failure(error)
    }
  }
}
